=== FILE: README.md ===
# Focus Pulse scoring, modelled in Dafny

Focus Pulse rates the health of each customer account of a tenant with one
number from 0 to 100 per period. The number has a green, amber or red status
band. This project models the scoring core of the application and proves
properties of it. The core consists of:

- the metric normaliser (`normalizeMetric`). It maps a raw metric value onto
  0-100 with a rule chosen by substrings of the metric type.
- the component aggregator (`calculateComponentScores`). It averages the
  normalised metrics of an account into four components: usage,
  experience, outcomes and risk. The vertical's static table (tech,
  healthcare, manufacturing) says which metric feeds which component. A
  component that nothing feeds is a neutral 50.
- the composite scorer and classifier (`calculateCompositeScore`,
  `determineStatus`). The composite is a weighted sum with risk inverted,
  rounded half-up to one decimal, then cut into bands at `greenMin` and
  `amberMin`.
- the recalculation orchestrator (`calculatePulseScore`,
  `recalculatePulseScores`). It resolves the weight row: the vertical's,
  else the tenant's `default`, else a fallback row that is also stored. It
  reads the metrics whose period starts in `[periodStart, periodEnd)` and
  upserts one score per (tenant, account, periodStart).
- the CSV metric upload, from the parsed rows on. Each row goes through
  ordered checks that stop at the first failure. Account names match without
  regard to case. One bad row rejects the whole batch. The recompute window
  is the earliest start and the latest end of the batch.
- the pulse-weight update (`PUT`). It checks that the four weights sum to 1
  within 0.01 and that `greenMin > amberMin`. It validates every row before
  writing any.
- tenant creation with its four seeded weight rows.
- the portfolio overview: totals, the status distribution, the average
  latest score, and the ten lowest-scoring and ten highest-MRR green
  accounts.

The store is a plain value (`Recalculation.Store`):

- tenants;
- accounts, in the order the store lists them;
- weight rows, keyed by (tenant, vertical);
- metric facts;
- scores, keyed by (tenant, account, periodStart).

Each store call is a lookup or a map update on it. The tenant id is an
explicit parameter of every operation.

The pipeline is modelled as the code computes it (`Scoring.CalculateComponentScores`).
Two readings of the aggregator look unintended; see "## Findings":

- The risk component. The normaliser already scores a "fewer is better"
  metric so that 100 means no incidents. The composite then treats risk as
  badness and inverts it a second time.
- The mapping tables are plain objects. A metric type that every object
  inherits, such as `constructor` or `__proto__`, is found in the table. The
  aggregator then pushes onto a list that does not exist and throws. This
  aborts the account's computation, the tenant's recalculation and the upload
  that started it.

A corrected aggregator sits beside the one as written
(`Scoring.CorrectedComponentScores`). It looks up only the names a table
owns, and feeds such a risk metric in as `100 -` its normalised value. The
rest of the pipeline does not use it.

Modules follow the source:

| module | models |
|---|---|
| `Basics` | `Option`/`Result`, clamping, `Math.round(x*10)/10`, sums and means, `includes`, ASCII `toLowerCase` |
| `Types` | lib/types.ts: status bands, components, metric-type unions, mapping tables |
| `Normalizer` | `normalizeMetric` |
| `Scoring` | `getMetricMapping`, `calculateComponentScores`, `calculateCompositeScore`, `determineStatus` |
| `Recalculation` | `calculatePulseScore`, `recalculatePulseScores`, the store |
| `Upload` | app/api/metrics/upload/route.ts after CSV parsing |
| `WeightsApi` | app/api/pulse-weights/route.ts |
| `Tenants` | app/api/tenants/route.ts, plus the tech worked example |
| `Portfolio` | app/api/portfolio/route.ts |

Behaviour of the code worth noting:

- `recalculatePulseScores` has no try/catch. An account that cannot be found,
  or an account whose metrics make the aggregator throw, aborts the whole
  run. The run does not skip that account and continue. Nothing is rolled
  back: earlier accounts keep their new scores, and a fallback weight row
  created just before the throw stays (`Recalculation.ThrowKeepsEarlierWrites`).
- `normalizeMetric` does not keep every value in [0,100]. The scaled and
  inverted types clamp only one side, so negative raw values escape the range
  (`Normalizer.NegativeInputsEscape`).
- The weight update's writes are not all-or-nothing when a row id does not
  exist. Validation is. But `Promise.all` issues every update, so every row
  whose id exists is written, before and after the missing one, and the
  request still fails.

## Model

| member | source | states |
|---|---|---|
| Basics.Clamp100 | lib/pulse-calculator.ts:57 | `Math.max(0, Math.min(100, x))` lies in [0,100]. It is the identity inside, and 0 or 100 outside. |
| Basics.Round1 | lib/pulse-calculator.ts:162 | Rounding half-up to one decimal yields a one-decimal value within (x - 0.05, x + 0.05]. |
| Basics.Round1Monotone | lib/pulse-calculator.ts:162 | Rounding preserves the order of its arguments. |
| Basics.Round1Fixes | lib/pulse-calculator.ts:162 | A value that already has one decimal is unchanged by rounding. |
| Basics.Round1Within | lib/pulse-calculator.ts:162 | Rounding keeps a value inside any interval with one-decimal end points. |
| Basics.SumAppend | lib/pulse-calculator.ts:131 | The `reduce` sum of a concatenation is the sum of the parts. |
| Basics.MeanWithin | lib/pulse-calculator.ts:129-144 | A mean lies between any bounds of the averaged values. For an empty list it is the default. |
| Basics.ToLower | app/api/metrics/upload/route.ts:75 | Lower-casing keeps the length, lower-cases each letter in place and leaves no upper-case letter. |
| Basics.ToLowerIdempotent | app/api/metrics/upload/route.ts:88 | Lower-casing twice is lower-casing once. |
| Normalizer.NormalizeWithin | lib/pulse-calculator.ts:50-101 | Percent, `_score` and unlisted types land in [0,100] for any raw value. Every type lands there for a non-negative raw value. Inverted types are only floored at 0, scaled types only capped at 100. |
| Normalizer.RuleOfIsTableDriven | lib/pulse-calculator.ts:52-101 | The substring dispatch picks the listed rule for each of the eight named types and plain clamping for every other type, so it equals a flat table. |
| Normalizer.RuleOfIntegrationCount | lib/pulse-calculator.ts:61-65 | `integration_count` misses the percent/`_score` branch, enters the `count` branch and is scaled against 10. |
| Normalizer.RuleOfLineStops | lib/pulse-calculator.ts:61-69 | `line_stops_count` enters the `count` branch and is inverted against 20. |
| Normalizer.RuleOfPatientWait | lib/pulse-calculator.ts:73-77 | `patient_wait_time_minutes` enters the duration branch and is inverted against 30. |
| Normalizer.RuleOfMttr | lib/pulse-calculator.ts:73-81 | `mttr_hours` enters the duration branch and is inverted against 4. |
| Normalizer.RuleOfMtbf | lib/pulse-calculator.ts:73-85 | `mtbf_hours` enters the duration branch and is scaled, not inverted, against 100. |
| Normalizer.RuleOfDowntime | lib/pulse-calculator.ts:73-89 | `unplanned_downtime_hours` enters the duration branch and is inverted against 8. |
| Normalizer.RuleOfComplaintRate | lib/pulse-calculator.ts:92-97 | `complaint_rate_per_1000` enters the `_rate_` branch and is inverted against 5. |
| Normalizer.NpsAnchors | lib/pulse-calculator.ts:53-56 | NPS -100, 0 and 100 normalise to 0, 50 and 100. |
| Normalizer.NpsRescaled | lib/pulse-calculator.ts:53-56 | For every raw value, NPS normalises to `clamp((v + 100) / 2)`. |
| Normalizer.InvertShape | lib/pulse-calculator.ts:66-97 | An inverted rule gives 100 at 0 and 0 from its ceiling on, and never increases. |
| Normalizer.ScaleShape | lib/pulse-calculator.ts:62-85 | A scaled rule gives 0 at 0 and 100 from its ceiling on, and never decreases. |
| Normalizer.InvertedTypeShape | lib/pulse-calculator.ts:66-97 | The five "fewer is better" types give 100 for raw 0 and 0 at or above their ceiling, and more is never better. |
| Normalizer.ScaledTypeShape | lib/pulse-calculator.ts:62-85 | `integration_count` and `mtbf_hours` give 0 for raw 0 and 100 at or above their ceiling, and more is never worse. |
| Normalizer.NegativeInputsEscape | lib/pulse-calculator.ts:63-69 | Raw -10 integrations normalise to -100, and raw -20 line stops to 200. |
| Scoring.MetricMappingShape | lib/types.ts:50-115 | Every mapped type is declared by its vertical. Healthcare never feeds outcomes and manufacturing never feeds experience. Tech declares `mrr` but does not map it. |
| Scoring.OwnedNamesNotInherited | lib/types.ts:86-115 | No table maps a name that every object inherits, so such a name is never an owned entry. |
| Scoring.UnknownVerticalScoredAsTech | lib/pulse-calculator.ts:33-44 | An unknown vertical is scored exactly as tech. |
| Scoring.BucketEmptyIff | lib/pulse-calculator.ts:120-126 | A component's list is empty iff no metric is mapped to that component. |
| Scoring.BucketWithin | lib/pulse-calculator.ts:120-126 | With no negative raw value, every value collected for a component lies in [0,100]. |
| Scoring.BucketAppend | lib/pulse-calculator.ts:120-126 | The loop collects the metrics of a concatenation as the concatenation of the two collections. |
| Scoring.BucketIgnoresVertical | lib/pulse-calculator.ts:123 | The collected values do not depend on the vertical passed to the normaliser. |
| Scoring.GroupIsBuckets | lib/pulse-calculator.ts:112-126 | The grouping loop throws iff some metric's type is inherited, not owned, by the table. Otherwise each component's list holds the normalised values of the metrics mapped to it, in input order. |
| Scoring.CalculateComponentScores | lib/pulse-calculator.ts:107-147 | Throws iff some metric's type is an inherited name. Otherwise each component is the mean of the normalised values mapped to it, or 50 when none is. |
| Scoring.InheritedKeyThrows | lib/pulse-calculator.ts:119-125 | A metric whose type is an inherited name makes the aggregator throw, wherever it sits among the others. |
| Scoring.UnfedComponentIsNeutral | lib/pulse-calculator.ts:129-144 | When the aggregator succeeds, a component that no metric feeds is exactly 50. |
| Scoring.FedComponentIsMean | lib/pulse-calculator.ts:129-144 | A fed component is the sum of its values divided by their count, so it lies between their bounds. |
| Scoring.ComponentsWithinRange | lib/pulse-calculator.ts:107-147 | With no negative raw value, all four components of a successful aggregation lie in [0,100]. |
| Scoring.IgnoredMetricHasNoEffect | lib/pulse-calculator.ts:121-122 | Wherever it sits in the input, a metric whose type is neither owned nor inherited by the vertical's table changes nothing: neither the components nor whether the aggregator throws. |
| Scoring.MrrNeverCountsForTech | lib/types.ts:86-97 | An `mrr` metric never changes a tech account's components. |
| Scoring.MetricOrderIrrelevant | lib/pulse-calculator.ts:120-144 | Neither the components nor a throw depend on the order the store returns metrics in. |
| Scoring.SingleMetricComponent | lib/pulse-calculator.ts:120-144 | A lone metric mapped to a component gives that component its normalised value, risk included, and the other three are 50. |
| Scoring.HealthcareOutcomesNeutral | lib/types.ts:99-105 | A healthcare account's outcomes component is always 50. |
| Scoring.ManufacturingExperienceNeutral | lib/types.ts:107-115 | A manufacturing account's experience component is always 50. |
| Scoring.CalculateCompositeScore | lib/pulse-calculator.ts:152-163 | The composite has one decimal and lies within 0.05 of the weighted sum with risk inverted. |
| Scoring.CompositeMonotone | lib/pulse-calculator.ts:156-162 | With non-negative weights, the composite never drops when usage, experience or outcomes rise, and never rises when risk rises. |
| Scoring.WeightedSumWithin | lib/pulse-calculator.ts:156-160 | With non-negative weights summing to 1 and components in [0,100], the unrounded sum lies in [0,100]. |
| Scoring.CompositeWithin | lib/pulse-calculator.ts:156-162 | Under the same conditions, the rounded composite lies in [0,100]. |
| Scoring.DetermineStatus | lib/pulse-calculator.ts:168-172 | Green iff score >= greenMin; amber iff amberMin <= score < greenMin; red iff below both. Ties go to the higher band. |
| Scoring.StatusMonotone | lib/pulse-calculator.ts:168-172 | A higher score never gets a worse band. |
| Scoring.InvertedTypesFeedRisk | lib/types.ts:99-115 | Every "fewer is better" type feeds the risk component of healthcare or manufacturing. |
| Scoring.AsWrittenDowntimeRaisesScore | lib/pulse-calculator.ts:120-162 | As written, a manufacturing account scores 42.5 (red) with no downtime and 57.5 (amber) with 8 hours of it. |
| Scoring.DowntimeNormalised | lib/pulse-calculator.ts:86-89 | No downtime normalises to 100, and 8 hours to 0. |
| Scoring.CorrectedDowntimeLowersScore | lib/pulse-calculator.ts:120-144 | With the corrected aggregator, no downtime gives risk 0 and 8 hours give risk 100. |
| Scoring.InvertedRiskSignalMonotone | lib/pulse-calculator.ts:123-124 | The corrected risk signal of a "fewer is better" type grows with the raw value. |
| Scoring.MoreRiskNeverHelps | lib/pulse-calculator.ts:120-162 | With the corrected aggregator and non-negative weights, a larger raw "fewer is better" risk metric never raises the composite, wherever it sits among the others. |
| Scoring.ConstructorMetricThrows | lib/pulse-calculator.ts:119-125 | As written, a lone metric of type `constructor` makes the aggregator throw. The corrected aggregator ignores it and gives 50/50/50/50. |
| Scoring.CorrectedIgnoresUnmapped | lib/pulse-calculator.ts:120-122 | The corrected aggregator ignores every type the table does not own, inherited names included. |
| Recalculation.FindAccount | lib/pulse-calculator.ts:184-191 | Finds an account iff one has the id, and what it finds has that id. |
| Recalculation.TenantAccountIds | lib/pulse-calculator.ts:292-295 | Lists exactly the ids of the tenant's accounts, each of which can be found. |
| Recalculation.ResolveWeights | lib/pulse-calculator.ts:194-229 | Picks the vertical row, else the default row, else the fallback row, which is then stored as the default row. It adds at most that row, and afterwards the vertical needs no fallback. |
| Recalculation.FallbackOnlyKeepsResolution | lib/pulse-calculator.ts:204-229 | Gaining the fallback row changes no later resolution's choice. |
| Recalculation.ResolveIsStable | lib/pulse-calculator.ts:194-229 | Resolving again picks the same row for every vertical, and for the same vertical creates nothing. |
| Recalculation.PeriodMetrics | lib/pulse-calculator.ts:232-240 | Keeps exactly the metrics of this tenant and account whose period starts in [periodStart, periodEnd). |
| Recalculation.Project | lib/pulse-calculator.ts:241-244 | Keeps each metric's type and value, position by position. |
| Recalculation.WindowProjection | lib/pulse-calculator.ts:232-248 | The metrics handed to the aggregator include an inherited name iff the store holds a metric with one in the account's window. |
| Recalculation.ScorableIff | lib/pulse-calculator.ts:184-254 | An account can be scored iff it exists and no metric in its window has an inherited name as its type. |
| Recalculation.ScoreOfStable | lib/pulse-calculator.ts:194-254 | An account's score does not change when the store gains the fallback row. |
| Recalculation.CalculatePulseScore | lib/pulse-calculator.ts:184-254 | Throws iff the account does not exist or a metric in its window has an inherited name. A missing account gives the not-found error naming it. Otherwise the error is the aggregator's. |
| Recalculation.CalculateKeepsFacts | lib/pulse-calculator.ts:177-281 | A computation succeeds for a scorable account and leaves tenants, accounts and metrics unchanged. |
| Recalculation.CalculateUpsertsScore | lib/pulse-calculator.ts:257-280 | The score table changes at one key only, (tenant, account, periodStart), which gets the account's score. |
| Recalculation.CalculateResolvesWeights | lib/pulse-calculator.ts:194-229 | The weight rows gain at most the fallback default row, after which the account's vertical needs no fallback. They are untouched when none was needed. |
| Recalculation.CalculateIsIdempotent | lib/pulse-calculator.ts:177-281 | Computing an account's score twice with unchanged metrics gives the store a single computation gives. |
| Recalculation.RecalculateEach | lib/pulse-calculator.ts:298-300 | The loop succeeds iff every listed account can be scored, and a not-found error names a listed id that has no account. On success each listed account's score is recomputed from the initial store and every other score is kept. |
| Recalculation.TenantScorable | lib/pulse-calculator.ts:292-300 | Every account the tenant lists can be scored iff none has a metric with an inherited name in the window. |
| Recalculation.RecalculatePulseScores | lib/pulse-calculator.ts:286-301 | The tenant-wide run throws iff some account of the tenant has a metric with an inherited name in the window, and the error is then the aggregator's, never not-found. On success each account the tenant lists gets its score recomputed from the initial store, and every other score is kept, including other ids under the tenant and period. The tenant's fallback `default` row is added when one of its accounts had no row to resolve, and the weight rows stay unchanged when none lacked one. Accounts, metrics and tenants are left alone. |
| Recalculation.RecalculateEachIsIdempotent | lib/pulse-calculator.ts:298-300 | Running the loop again over the same ids changes nothing. |
| Recalculation.RecalculateIsIdempotent | lib/pulse-calculator.ts:286-301 | When the recalculation succeeds, running it again with unchanged metrics gives the same store as running it once. |
| Recalculation.CalculateWrites | lib/pulse-calculator.ts:177-281 | The store a computation leaves, whether it returns or throws. A missing account leaves the store unchanged. Otherwise the weight rows are those after resolution, including a fallback row created before any later throw. Tenants, accounts and metrics never change. |
| Recalculation.CalculateWritesAgrees | lib/pulse-calculator.ts:177-281 | When the computation returns, it leaves the store it returns. When it throws, the score table is unchanged. |
| Recalculation.RecalculateWrites | lib/pulse-calculator.ts:298-300 | The store the loop leaves, up to and including the call that throws. It changes only weight rows, and only by adding the tenant's fallback default row. |
| Recalculation.CleanRunWrites | lib/pulse-calculator.ts:298-300 | When every listed account can be scored, the loop returns, and the store it leaves is the store it returns. |
| Recalculation.WritesKeepOtherScores | lib/pulse-calculator.ts:257-300 | Whether or not the loop throws, no score outside (tenant, listed account, periodStart) is added, removed or changed. |
| Recalculation.FirstBlocked | lib/pulse-calculator.ts:298-300 | The position where the loop throws: every earlier id can be scored, and the id there cannot. It is the length of the list when no id throws. |
| Recalculation.ThrowLeavesPrefix | lib/pulse-calculator.ts:298-300 | A loop that scores every id of a prefix and then throws leaves what the clean prefix run leaves, followed by the writes of the throwing call. |
| Recalculation.ThrowKeepsEarlierWrites | lib/pulse-calculator.ts:216-300 | A loop that throws stops at the first account it cannot score. Each earlier account keeps its freshly upserted score, all other scores are unchanged, and the fallback row that account's resolution may have created stays. |
| Recalculation.RecalculateTenantWrites | lib/pulse-calculator.ts:286-301 | The store the tenant-wide run leaves, whether it returns or throws. On success it is the store returned. Either way only the tenant's fallback row may be added, and scores of other tenants or periods are kept. |
| Recalculation.ThrowAtSecond | lib/pulse-calculator.ts:216-301 | Two accounts with no weight rows and no scores, where the first can be scored and the second cannot: the run throws the aggregator's error and leaves the first account's score and the fallback default row. |
| Recalculation.ThrowAfterFirstAccount | lib/pulse-calculator.ts:216-301 | A concrete tenant whose second account has a metric of type `constructor`: the run throws after storing the first account's score and the fallback default row. |
| Upload.AccountMapKeys | app/api/metrics/upload/route.ts:70-75 | The map's keys are exactly the lower-cased names of the tenant's accounts. |
| Upload.AccountMapLastWins | app/api/metrics/upload/route.ts:75 | Each name maps to the id of the last of the tenant's accounts with that lower-cased name. |
| Upload.AccountMapValues | app/api/metrics/upload/route.ts:70-75 | Every value in the map is the id of one of the tenant's accounts. |
| Upload.LookUpIgnoresCase | app/api/metrics/upload/route.ts:88 | A name and its lower-case form find the same account. |
| Upload.LookUpFindsTenantAccount | app/api/metrics/upload/route.ts:88-89 | A name equal to a tenant account's name up to case finds that account. |
| Upload.LookUpStaysInTenant | app/api/metrics/upload/route.ts:70-89 | Whatever a look-up finds is an account of the uploading tenant. |
| Upload.CheckRow | app/api/metrics/upload/route.ts:83-159 | A row fails iff some check fails, with the first failing check as its single error. A passing row becomes a metric with the found account, the lower-cased type, the parsed dates and value, no unit when the cell is blank, and source `csv_upload` unless one is given. |
| Upload.ZeroIsAValue | app/api/metrics/upload/route.ts:135-143 | "0" is accepted as a value, while an empty or missing cell is a missing value. |
| Upload.Outcomes | app/api/metrics/upload/route.ts:78-80 | There is one verdict per row, and data row i is reported as row i + 2. |
| Upload.EveryRowCounted | app/api/metrics/upload/route.ts:78-171 | valid rows + errors = total rows. |
| Upload.ErrorsNumberRows | app/api/metrics/upload/route.ts:78-160 | Errors come in increasing row order, and each is the verdict on the row it names. |
| Upload.ErrorsCoverFailures | app/api/metrics/upload/route.ts:78-160 | A row has an error iff it fails, so every failing row has exactly one error. |
| Upload.SpanIsMinMax | app/api/metrics/upload/route.ts:146-147 | The window exists iff a row was accepted. It is exactly the minimum start and the maximum end of the accepted rows. |
| Upload.ValidateRows | app/api/metrics/upload/route.ts:78-160 | The loop's valid rows, errors and window are the accepted metrics, the errors in row order and their span. |
| Upload.Absorb | app/api/metrics/upload/route.ts:146-159 | One turn of the loop appends an error, or appends a metric and widens the window to cover it. |
| Upload.UploadMetrics | app/api/metrics/upload/route.ts:41-200 | The response is the missing-tenant one iff the tenant id is empty, and then nothing is written. Any invalid row writes nothing and reports all errors with the valid and total counts. Otherwise every row is inserted. When there is a window, the tenant is recalculated over it. If that recalculation throws, the response is a failure. The inserted metrics stay, and so do the writes the recalculation made before the throw (`Recalculation.RecalculateTenantWrites`). The upload succeeds iff no row is invalid and the recalculation does not throw. |
| Upload.AcceptedBelongToTenant | app/api/metrics/upload/route.ts:70-159 | Every inserted metric belongs to the uploading tenant and to one of its accounts. |
| WeightsApi.CheckWeight | app/api/pulse-weights/route.ts:64-83 | A row passes iff its total is within 0.01 of 1 and greenMin > amberMin. A failing total is reported before the thresholds. |
| WeightsApi.ValidateWeights | app/api/pulse-weights/route.ts:63-84 | Validation passes iff every row is acceptable. Otherwise the error is the first offending row's. |
| WeightsApi.ApplyUpdates | app/api/pulse-weights/route.ts:87-101 | Updates keep every row's id, tenant and vertical. Every stored row ends with the last configuration submitted for it, even when some other id does not exist. The first missing id is reported. |
| WeightsApi.PutWeights | app/api/pulse-weights/route.ts:53-103 | A missing or non-array body, or any invalid row, is rejected with the table unchanged. The update is saved iff every row is valid and exists. It fails iff every row is valid but some id does not exist. In both cases every stored row named in the request is written, and only its six fields change. |
| WeightsApi.FailedRequestStillWrites | app/api/pulse-weights/route.ts:87-101 | A request naming a stored row, a missing id and another stored row fails, and both stored rows are written anyway. |
| WeightsApi.RejectionWritesNothing | app/api/pulse-weights/route.ts:58-84 | A rejected request writes nothing. |
| WeightsApi.PutIsIdempotent | app/api/pulse-weights/route.ts:87-101 | Sending the same accepted update twice leaves the table as sending it once. |
| WeightsApi.ToleranceExamples | app/api/pulse-weights/route.ts:64-83 | A total of 1.004 passes; 1.02 and exactly 1.01 fail; equal thresholds fail. |
| WeightsApi.TotalCheckedFirst | app/api/pulse-weights/route.ts:64-83 | A row breaking both rules is reported for its total. |
| WeightsApi.DemoRowsAreValid | app/api/pulse-weights/route.ts:23-26 | The four demonstration rows pass the validator. |
| Tenants.CreateTenant | app/api/tenants/route.ts:15-70 | A blank name or a taken id is rejected with nothing created. Otherwise the tenant and exactly its seeded rows are added and nothing else changes. |
| Tenants.NewTenantHasFourRows | app/api/tenants/route.ts:27-70 | A new tenant has rows for exactly `default`, `tech`, `healthcare` and `manufacturing`. |
| Tenants.SeedsAreValid | app/api/tenants/route.ts:28-68 | Every seeded row sums to 1, has non-negative weights and passes the weight validator. |
| Tenants.NewTenantResolution | app/api/tenants/route.ts:29-38 | The seeded default row is the calculator's fallback row, so a new tenant's verticals resolve to their seeds without creating a row. |
| Tenants.ExampleNormalised | lib/pulse-calculator.ts:52-58 | 90% active users, NPS 40 and NRR 110% normalise to 90, 70 and 100. |
| Tenants.ExampleBuckets | lib/pulse-calculator.ts:120-126 | Under the tech table those three metrics feed usage, experience and outcomes, one each, and nothing feeds risk. |
| Tenants.TechWorkedExample | app/api/tenants/route.ts:40-47 | The example account has components 90/70/100/50, and the tech seed scores it 85.0, green. |
| Tenants.TechComposite | lib/pulse-calculator.ts:156-162 | Under the tech seed, 90/70/100/50 gives exactly 85.0. |
| Portfolio.Scored | app/api/portfolio/route.ts:90 | Keeps exactly the accounts that have a latest score, and nothing else. |
| Portfolio.WithStatus | app/api/portfolio/route.ts:76-77 | Keeps exactly the accounts whose latest status is the given band. |
| Portfolio.LatestScoresCount | app/api/portfolio/route.ts:72-80 | One latest score is summed per scored account. |
| Portfolio.TallyAddsUp | app/api/portfolio/route.ts:65-84 | Each of green, amber and red counts the accounts whose latest status is that band, and `none` counts the unscored accounts. The four add up to the number of accounts. |
| Portfolio.SortByIsSortedPermutation | app/api/portfolio/route.ts:91 | The sort orders by its key and keeps every element, duplicates included. |
| Portfolio.TopOfSortedIsSmallest | app/api/portfolio/route.ts:92 | Taking the first ten of a sorted list keeps it sorted, and nothing left out has a smaller key than anything taken. |
| Portfolio.ToRows | app/api/portfolio/route.ts:93-102 | Each row projects the account at the same position. |
| Portfolio.RiskAccountsShape | app/api/portfolio/route.ts:89-92 | `topRisk` holds min(10, scored) accounts, all scored, by ascending score. |
| Portfolio.RiskAccountsAreSmallest | app/api/portfolio/route.ts:89-92 | No scored account left out of `topRisk` scores lower than one in it. |
| Portfolio.UpsideAccountsShape | app/api/portfolio/route.ts:105-108 | `topUpside` holds min(10, green) accounts, all green, by descending MRR. |
| Portfolio.UpsideAccountsAreLargest | app/api/portfolio/route.ts:105-108 | No green account left out of `topUpside` has a higher MRR than one in it. |
| Portfolio.RiskRowsShape | app/api/portfolio/route.ts:89-102 | The projected `topRisk` rows are at most ten, by ascending score. |
| Portfolio.UpsideRowsShape | app/api/portfolio/route.ts:105-118 | The projected `topUpside` rows are at most ten, all green, by descending MRR. |
| Portfolio.PortfolioOverview | app/api/portfolio/route.ts:15-127 | A blank tenant id is rejected. Each band count is the number of accounts whose latest status is that band, and the counts add up. The average has one decimal and lies within 0.05 of the mean latest score, or is 0 with no scored account. `topRisk` and `topUpside` are the projected lists above, with the shapes above. |
| Portfolio.AverageWithin | app/api/portfolio/route.ts:86-123 | The rounded average stays inside any one-decimal bounds of the latest scores, and so in [0,100] when they are. |

## Left out

- CSV parsing, form data, JSON bodies, HTTP responses and status codes. The upload starts from parsed rows of optional cells, and responses are datatypes.
- The upload's check that a file was sent: without parsing, there is no file to model.
- The database. It is the `Store` value; the unique keys are map keys, and an upsert is a map update.
- `new Date(...)` and `parseFloat` are parameters (`Upload.Parsers`) returning an optional instant or number. Their parsing rules are not modelled.
- `toLowerCase` covers the ASCII letters only. Other Unicode case mappings are not modelled.
- Numbers are exact reals, not IEEE doubles. Round-off in weight totals and `toFixed` formatting are not modelled.
- The demonstration branches of the portfolio and pulse-weight `GET` handlers. The demonstration weight rows appear only as validator input (`WeightsApi.DemoRowsAreValid`).
- Concurrency. The awaited loop of the recalculation is sequential; the `Promise.all` updates of the weight update are modelled in array order.
- The try/catch handlers that turn thrown errors into HTTP 500 responses. A thrown error is an `Err` and aborts the recalculation run. The upload's handler is modelled as the `Failed` response.
- The id-keyed weight table of the pulse-weight `PUT` (`WeightsApi`) and the (tenant, vertical)-keyed weight rows that the calculator reads (`Recalculation.Store`) are separate models. Both stand for the same database table, but no lemma carries a saved update into weight resolution.
- Which error `Promise.all` reports when several ids are missing, and which of two concurrent writes to the same row lands last. The model reports the first missing id in array order, and the last submitted configuration wins.
- The full set of inherited names. `Scoring.InheritedKeys` lists the twelve names of `Object.prototype`. A runtime that adds more would make more metric types throw.
- The portfolio query, which is an input. Each account comes with its latest score, if any.
- The `segment` and `owner` fields of portfolio rows: they are copied through unchanged and are not modelled.
- The pulse-weight `GET` handler, which only lists the stored rows.
- Tenants.CreateTenant: the new tenant's id is a parameter, where the database generates a fresh one, so the `TenantExists` error models a case the generator never produces.
- Ties in the portfolio sorts keep arrival order (a stable insertion sort). No lemma states which of two equal-keyed accounts comes first.
- Scoring.CompositeWithin: requires weights summing to exactly 1, while the weight validator accepts totals within 0.01 of 1. Under such a row, a composite can exceed 100 by up to one point.

## Findings

| source | as written | input that shows it | evidently intended | confidence | as-written member | corrected member |
|---|---|---|---|---|---|---|
| lib/pulse-calculator.ts:120-162 | The risk list averages normalised values. For a "fewer is better" type such as `unplanned_downtime_hours`, 100 already means no incidents. The composite then uses `100 - risk`, inverting it a second time. | A manufacturing account whose only metric is `unplanned_downtime_hours`, under the seeded manufacturing row (.25/.2/.4/.15, 70/50). With 0 hours it scores 42.5, red. With 8 hours it scores 57.5, amber. | Risk is the badness signal, so such a metric enters risk as `100 -` its normalised value. More downtime then never raises the score. | high; not executed | Scoring.AsWrittenDowntimeRaisesScore | Scoring.MoreRiskNeverHelps |
| lib/pulse-calculator.ts:119-125 | `mapping[metric.metricType]` reads the object-literal table of lib/types.ts:86-115, so a type that every object inherits finds a truthy function or object. `components[component]` is then undefined and `.push` throws a TypeError. | A metric of type `constructor`, which the upload accepts, since it checks only that a type is present and lower-cases it. The whole recalculation of its tenant throws, and the upload answers with a failure after inserting it. | A type the table does not own is ignored, like any other unmapped type. | high; not executed | Scoring.ConstructorMetricThrows | Scoring.CorrectedIgnoresUnmapped |

=== FILE: basics.dfy ===
/** Small building blocks shared by every part of the scoring model: failure
    datatypes, the JavaScript numeric helpers the calculator relies on
    (`Math.min`/`Math.max` clamping, `Math.round(x * 10) / 10`), sums and
    means over sequences of reals, and the string operations used for
    dispatch and look-up (`includes`, ASCII `toLowerCase`). */
module Basics {

  datatype Option<+T> = None | Some(value: T)

  datatype Result<+T, +E> = Ok(value: T) | Err(error: E)

  // ---------------------------------------------------------------------
  // Numeric helpers
  // ---------------------------------------------------------------------

  function Min(a: real, b: real): real { if a <= b then a else b }

  function Max(a: real, b: real): real { if a >= b then a else b }

  function Abs(x: real): real { if x < 0.0 then -x else x }

  /** `Math.max(0, Math.min(100, x))`: the identity on [0,100], and the
      nearest end point outside it. */
  function Clamp100(x: real): (r: real)
    ensures 0.0 <= r <= 100.0
    ensures 0.0 <= x <= 100.0 ==> r == x
    ensures x < 0.0 ==> r == 0.0
    ensures x > 100.0 ==> r == 100.0
  {
    Max(0.0, Min(100.0, x))
  }

  /** A value written with at most one decimal. */
  predicate OneDecimal(x: real) {
    (x * 10.0).Floor as real == x * 10.0
  }

  /** `Math.round(x * 10) / 10`. JavaScript's `Math.round` rounds halves
      towards +infinity, that is `floor(y + 0.5)`. */
  function Round1(x: real): (r: real)
    ensures OneDecimal(r)
    ensures x - 0.05 < r <= x + 0.05
  {
    ((x * 10.0 + 0.5).Floor as real) / 10.0
  }

  lemma FloorMonotone(a: real, b: real)
    requires a <= b
    ensures a.Floor <= b.Floor
  {
  }

  /** Rounding to one decimal preserves the order of its arguments. */
  lemma Round1Monotone(x: real, y: real)
    requires x <= y
    ensures Round1(x) <= Round1(y)
  {
    FloorMonotone(x * 10.0 + 0.5, y * 10.0 + 0.5);
  }

  /** A value that already has one decimal is left alone. */
  lemma Round1Fixes(x: real)
    requires OneDecimal(x)
    ensures Round1(x) == x
  {
    var k := (x * 10.0).Floor;
    assert x * 10.0 + 0.5 == k as real + 0.5;
    assert (x * 10.0 + 0.5).Floor == k;
  }

  /** Rounding keeps a value inside any interval whose end points have
      one decimal (such as [0,100]). */
  lemma Round1Within(x: real, lo: real, hi: real)
    requires OneDecimal(lo) && OneDecimal(hi)
    requires lo <= x <= hi
    ensures lo <= Round1(x) <= hi
  {
    Round1Monotone(lo, x);
    Round1Monotone(x, hi);
    Round1Fixes(lo);
    Round1Fixes(hi);
  }

  // ---------------------------------------------------------------------
  // Sums and means
  // ---------------------------------------------------------------------

  /** `xs.reduce((a, b) => a + b, 0)` */
  function Sum(xs: seq<real>): real {
    if |xs| == 0 then 0.0 else xs[0] + Sum(xs[1..])
  }

  lemma {:induction false} SumAppend(a: seq<real>, b: seq<real>)
    ensures Sum(a + b) == Sum(a) + Sum(b)
  {
    if |a| == 0 {
      assert a + b == b;
    } else {
      assert (a + b)[1..] == a[1..] + b;
      SumAppend(a[1..], b);
    }
  }

  predicate AllWithin(xs: seq<real>, lo: real, hi: real) {
    forall i | 0 <= i < |xs| :: lo <= xs[i] <= hi
  }

  lemma {:induction false} SumWithin(xs: seq<real>, lo: real, hi: real)
    requires AllWithin(xs, lo, hi)
    ensures lo * |xs| as real <= Sum(xs) <= hi * |xs| as real
  {
    if |xs| > 0 {
      assert AllWithin(xs[1..], lo, hi) by {
        forall i | 0 <= i < |xs[1..]| ensures lo <= xs[1..][i] <= hi {
          assert xs[1..][i] == xs[i + 1];
        }
      }
      SumWithin(xs[1..], lo, hi);
      assert |xs| as real == (|xs| - 1) as real + 1.0;
    }
  }

  /** The arithmetic mean of `xs`, or `default` when `xs` is empty. */
  function MeanOr(xs: seq<real>, default: real): real {
    if |xs| > 0 then Sum(xs) / |xs| as real else default
  }

  /** A mean lies between the smallest and the largest value averaged;
      with nothing to average it is the default. */
  lemma MeanWithin(xs: seq<real>, default: real, lo: real, hi: real)
    requires AllWithin(xs, lo, hi)
    requires |xs| == 0 ==> lo <= default <= hi
    ensures lo <= MeanOr(xs, default) <= hi
    ensures |xs| == 0 ==> MeanOr(xs, default) == default
  {
    if |xs| > 0 {
      SumWithin(xs, lo, hi);
      DivWithin(Sum(xs), |xs| as real, lo, hi);
    }
  }

  lemma DivWithin(s: real, n: real, lo: real, hi: real)
    requires n > 0.0 && lo * n <= s <= hi * n
    ensures lo <= s / n <= hi
  {
    var q := s / n;
    assert q * n == s;
    assert (q - lo) * n == s - lo * n;
    assert (hi - q) * n == hi * n - s;
  }

  // ---------------------------------------------------------------------
  // Strings
  // ---------------------------------------------------------------------

  predicate OccursAt(s: string, p: string, i: int) {
    0 <= i && i + |p| <= |s| && s[i..i + |p|] == p
  }

  /** JavaScript's `s.includes(p)`. */
  predicate Contains(s: string, p: string) {
    exists i | 0 <= i <= |s| - |p| :: OccursAt(s, p, i)
  }

  /** `s` cannot contain `p` when the `k`-th character of `p` never occurs
      in `s` at a position `k` or later. */
  lemma NotContainsByChar(s: string, p: string, k: nat)
    requires k < |p|
    requires forall j | k <= j < |s| :: s[j] != p[k]
    ensures !Contains(s, p)
  {
    forall i | 0 <= i <= |s| - |p|
      ensures !OccursAt(s, p, i)
    {
      assert s[i + k] != p[k];
    }
  }

  lemma ContainsAt(s: string, p: string, i: nat)
    requires OccursAt(s, p, i)
    ensures Contains(s, p)
  {
  }

  /** An optional string JavaScript treats as false: absent or empty. */
  predicate Blank(s: Option<string>) {
    s.None? || s.value == ""
  }

  predicate IsUpper(c: char) { 'A' <= c <= 'Z' }

  function LowerChar(c: char): char {
    if IsUpper(c) then (c as int + 32) as char else c
  }

  /** `s.toLowerCase()` restricted to the ASCII letters. */
  function ToLower(s: string): (r: string)
    ensures |r| == |s|
    ensures forall i | 0 <= i < |s| :: r[i] == LowerChar(s[i])
    ensures forall i | 0 <= i < |r| :: !IsUpper(r[i])
  {
    if |s| == 0 then "" else [LowerChar(s[0])] + ToLower(s[1..])
  }

  /** Lower-casing twice is lower-casing once. */
  lemma ToLowerIdempotent(s: string)
    ensures ToLower(ToLower(s)) == ToLower(s)
  {
    var once := ToLower(s);
    var twice := ToLower(once);
    assert |twice| == |once|;
    forall i | 0 <= i < |once| ensures twice[i] == once[i] {
      assert !IsUpper(once[i]);
    }
  }
}

=== FILE: normalizer.dfy ===
/** The metric normaliser (`normalizeMetric` in lib/pulse-calculator.ts):
    maps a raw metric value onto the common 0-100 scale. The source picks a
    transfer function by testing substrings of the metric type; `RuleOf`
    keeps that dispatch as written, and `RuleOfIsTableDriven` proves it equal
    to a flat table from metric type to rule. */
module Normalizer {
  import opened Basics

  type Ceiling = c: real | c > 0.0 witness 1.0

  /** The four transfer functions the normaliser uses. */
  datatype Rule =
    | Clamp             // already on 0-100: clamp
    | NpsRescale        // -100..100: (v + 100) / 2, then clamp
    | Scale(top: Ceiling)   // higher is better: v / top * 100, capped at 100
    | Invert(top: Ceiling)  // lower is better: 100 - v / top * 100, floored at 0

  function Apply(rule: Rule, v: real): real {
    match rule
    case Clamp => Clamp100(v)
    case NpsRescale => Clamp100((v + 100.0) / 2.0)
    case Scale(top) => Min(100.0, v / top * 100.0)
    case Invert(top) => Max(0.0, 100.0 - v / top * 100.0)
  }

  /** The substring dispatch of the source, branch for branch. A type that
      passes a substring test but matches none of the named types inside it
      falls through to the later tests and finally to `Clamp`. */
  function RuleOf(t: string): Rule {
    if Contains(t, "percent") || Contains(t, "_score") then
      (if t == "nps_score" then NpsRescale else Clamp)
    else if Contains(t, "count") && (t == "integration_count" || t == "line_stops_count") then
      (if t == "integration_count" then Scale(10.0) else Invert(20.0))
    else if (Contains(t, "hours") || Contains(t, "minutes"))
         && (t == "patient_wait_time_minutes" || t == "mttr_hours"
             || t == "mtbf_hours" || t == "unplanned_downtime_hours") then
      (if t == "patient_wait_time_minutes" then Invert(30.0)
       else if t == "mttr_hours" then Invert(4.0)
       else if t == "mtbf_hours" then Scale(100.0)
       else Invert(8.0))
    else if Contains(t, "_rate_") && t == "complaint_rate_per_1000" then
      Invert(5.0)
    else
      Clamp
  }

  /** Every metric type with a rule other than plain clamping. */
  const RuleTable: map<string, Rule> := map[
    "nps_score" := NpsRescale,
    "integration_count" := Scale(10.0),
    "line_stops_count" := Invert(20.0),
    "patient_wait_time_minutes" := Invert(30.0),
    "mttr_hours" := Invert(4.0),
    "mtbf_hours" := Scale(100.0),
    "unplanned_downtime_hours" := Invert(8.0),
    "complaint_rate_per_1000" := Invert(5.0)
  ]

  /** The metric types scored "fewer is better". */
  const InvertedTypes: set<string> := {
    "line_stops_count", "patient_wait_time_minutes", "mttr_hours",
    "unplanned_downtime_hours", "complaint_rate_per_1000"
  }

  /** The metric types scaled linearly against a ceiling. */
  const ScaledTypes: set<string> := {"integration_count", "mtbf_hours"}

  /** `normalizeMetric(metricType, value, vertical)`. The vertical is accepted
      and never read, as in the source. */
  function NormalizeMetric(metricType: string, value: real, vertical: string): real {
    Apply(RuleOf(metricType), value)
  }

  /** Where the normalised value lands: in [0,100] for the clamped types
      and for every non-negative raw value; the inverted types are only
      floored at 0 and the scaled ones only capped at 100. */
  lemma NormalizeWithin(metricType: string, value: real, vertical: string)
    ensures (Contains(metricType, "percent") || Contains(metricType, "_score")
             || metricType !in RuleTable) ==> 0.0 <= NormalizeMetric(metricType, value, vertical) <= 100.0
    ensures value >= 0.0 ==> 0.0 <= NormalizeMetric(metricType, value, vertical) <= 100.0
    ensures metricType in InvertedTypes ==> 0.0 <= NormalizeMetric(metricType, value, vertical)
    ensures metricType in ScaledTypes ==> NormalizeMetric(metricType, value, vertical) <= 100.0
  {
    RuleOfIsTableDriven(metricType);
  }

  /** The substring dispatch agrees with the table: the table's rule for the
      types it lists, clamping for every other type. */
  lemma RuleOfIsTableDriven(t: string)
    ensures RuleOf(t) == if t in RuleTable then RuleTable[t] else Clamp
  {
    if t == "nps_score" {
      ContainsAt(t, "_score", 3);
    } else if t == "integration_count" {
      RuleOfIntegrationCount();
    } else if t == "line_stops_count" {
      RuleOfLineStops();
    } else if t == "patient_wait_time_minutes" {
      RuleOfPatientWait();
    } else if t == "mttr_hours" {
      RuleOfMttr();
    } else if t == "mtbf_hours" {
      RuleOfMtbf();
    } else if t == "unplanned_downtime_hours" {
      RuleOfDowntime();
    } else if t == "complaint_rate_per_1000" {
      RuleOfComplaintRate();
    }
  }

  // The substring facts behind each named type's branch, one fact per
  // lemma: a type lacks "percent" and "_score" because some character of
  // each never occurs far enough into it, and it contains its branch's
  // substring at a known position.

  lemma RuleOfIntegrationCount()
    ensures RuleOf("integration_count") == Scale(10.0)
  {
    NotContainsByChar("integration_count", "percent", 0);
    NotContainsByChar("integration_count", "_score", 1);
    assert "integration_count"[12..17] == "count";
    ContainsAt("integration_count", "count", 12);
  }

  lemma RuleOfLineStops()
    ensures RuleOf("line_stops_count") == Invert(20.0)
  {
    NotContainsByChar("line_stops_count", "percent", 2);
    NotContainsByChar("line_stops_count", "_score", 4);
    assert "line_stops_count"[11..16] == "count";
    ContainsAt("line_stops_count", "count", 11);
  }

  lemma RuleOfPatientWait()
    ensures RuleOf("patient_wait_time_minutes") == Invert(30.0)
  {
    NotContainsByChar("patient_wait_time_minutes", "percent", 2);
    NotContainsByChar("patient_wait_time_minutes", "_score", 4);
    assert "patient_wait_time_minutes"[18..25] == "minutes";
    ContainsAt("patient_wait_time_minutes", "minutes", 18);
  }

  lemma RuleOfMttr()
    ensures RuleOf("mttr_hours") == Invert(4.0)
  {
    NotContainsByChar("mttr_hours", "percent", 0);
    NotContainsByChar("mttr_hours", "_score", 2);
    assert "mttr_hours"[5..10] == "hours";
    ContainsAt("mttr_hours", "hours", 5);
  }

  lemma RuleOfMtbf()
    ensures RuleOf("mtbf_hours") == Scale(100.0)
  {
    NotContainsByChar("mtbf_hours", "percent", 0);
    NotContainsByChar("mtbf_hours", "_score", 2);
    assert "mtbf_hours"[5..10] == "hours";
    ContainsAt("mtbf_hours", "hours", 5);
  }

  lemma RuleOfDowntime()
    ensures RuleOf("unplanned_downtime_hours") == Invert(8.0)
  {
    NotContainsByChar("unplanned_downtime_hours", "percent", 3);
    NotContainsByChar("unplanned_downtime_hours", "_score", 2);
    assert "unplanned_downtime_hours"[19..24] == "hours";
    ContainsAt("unplanned_downtime_hours", "hours", 19);
  }

  lemma RuleOfComplaintRate()
    ensures RuleOf("complaint_rate_per_1000") == Invert(5.0)
  {
    NotContainsByChar("complaint_rate_per_1000", "percent", 3);
    NotContainsByChar("complaint_rate_per_1000", "_score", 1);
    assert "complaint_rate_per_1000"[9..15] == "_rate_";
    ContainsAt("complaint_rate_per_1000", "_rate_", 9);
  }

  /** NPS is defined on [-100,100]; its three anchor points. */
  lemma NpsAnchors(vertical: string)
    ensures NormalizeMetric("nps_score", -100.0, vertical) == 0.0
    ensures NormalizeMetric("nps_score", 0.0, vertical) == 50.0
    ensures NormalizeMetric("nps_score", 100.0, vertical) == 100.0
  {
    RuleOfIsTableDriven("nps_score");
  }

  /** `nps_score` is rescaled from [-100,100] and then clamped. */
  lemma NpsRescaled(v: real, vertical: string)
    ensures NormalizeMetric("nps_score", v, vertical) == Clamp100((v + 100.0) / 2.0)
  {
    RuleOfIsTableDriven("nps_score");
  }

  /** An inverted transfer function: 100 at 0, 0 from the ceiling on,
      non-increasing in between. */
  lemma InvertShape(top: Ceiling, v1: real, v2: real)
    requires v1 <= v2
    ensures Apply(Invert(top), v2) <= Apply(Invert(top), v1)
    ensures Apply(Invert(top), 0.0) == 100.0
    ensures v1 >= top ==> Apply(Invert(top), v1) == 0.0
  {
    assert v1 / top <= v2 / top;
    assert v1 >= top ==> v1 / top >= 1.0;
  }

  /** A scaled transfer function: 0 at 0, 100 from the ceiling on,
      non-decreasing in between. */
  lemma ScaleShape(top: Ceiling, v1: real, v2: real)
    requires v1 <= v2
    ensures Apply(Scale(top), v1) <= Apply(Scale(top), v2)
    ensures Apply(Scale(top), 0.0) == 0.0
    ensures v1 >= top ==> Apply(Scale(top), v1) == 100.0
  {
    assert v1 / top <= v2 / top;
    assert v1 >= top ==> v1 / top >= 1.0;
  }

  /** The inverted types: raw 0 scores 100, any value at or above the
      type's ceiling scores 0, and more is never better. */
  lemma InvertedTypeShape(t: string, v1: real, v2: real, vertical: string)
    requires t in InvertedTypes
    requires v1 <= v2
    ensures NormalizeMetric(t, v2, vertical) <= NormalizeMetric(t, v1, vertical)
    ensures NormalizeMetric(t, 0.0, vertical) == 100.0
    ensures RuleTable[t].Invert? && (v1 >= RuleTable[t].top ==> NormalizeMetric(t, v1, vertical) == 0.0)
  {
    RuleOfIsTableDriven(t);
    InvertShape(RuleTable[t].top, v1, v2);
  }

  /** The linearly scaled types: raw 0 scores 0, any value at or above the
      ceiling scores 100, and more is never worse. */
  lemma ScaledTypeShape(t: string, v1: real, v2: real, vertical: string)
    requires t in ScaledTypes
    requires v1 <= v2
    ensures NormalizeMetric(t, v1, vertical) <= NormalizeMetric(t, v2, vertical)
    ensures NormalizeMetric(t, 0.0, vertical) == 0.0
    ensures RuleTable[t].Scale? && (v1 >= RuleTable[t].top ==> NormalizeMetric(t, v1, vertical) == 100.0)
  {
    RuleOfIsTableDriven(t);
    ScaleShape(RuleTable[t].top, v1, v2);
  }

  /** Negative raw values escape the 0-100 range for the scaled and inverted
      types: the source only caps one side of those transfer functions. */
  lemma NegativeInputsEscape(vertical: string)
    ensures NormalizeMetric("integration_count", -10.0, vertical) == -100.0
    ensures NormalizeMetric("line_stops_count", -20.0, vertical) == 200.0
  {
    RuleOfIsTableDriven("integration_count");
    RuleOfIsTableDriven("line_stops_count");
  }
}

=== FILE: portfolio.dfy ===
/** The portfolio overview (`GET` in app/api/portfolio/route.ts): totals,
    the status distribution, the average latest score and the two top-ten
    lists, computed from a tenant's accounts and each account's latest
    pulse score. */
module Portfolio {
  import opened Basics
  import opened Types

  datatype LatestScore = LatestScore(score: real, status: PulseStatus)

  /** An account as the overview query returns it, with its latest score
      when it has one. */
  datatype PortfolioAccount = PortfolioAccount(id: string, name: string, vertical: string, mrr: real, latest: Option<LatestScore>)

  /** One entry of `topRisk` / `topUpside`. */
  datatype PortfolioRow = PortfolioRow(id: string, name: string, vertical: string, mrr: real, score: real, status: PulseStatus)

  datatype Distribution = Distribution(green: nat, amber: nat, red: nat, none: nat)

  datatype Overview = Overview(
    totalAccounts: nat,
    totalMrr: real,
    avgPulseScore: real,
    distribution: Distribution,
    topRisk: seq<PortfolioRow>,
    topUpside: seq<PortfolioRow>)

  datatype PortfolioError = TenantIdRequired

  /** Length of each top list. */
  const TopCount: nat := 10

  // ---------------------------------------------------------------------
  // Filters and sums
  // ---------------------------------------------------------------------

  predicate IsScored(a: PortfolioAccount) { a.latest.Some? }

  /** The account's latest score has status `st`. */
  predicate HasStatus(a: PortfolioAccount, st: PulseStatus) { a.latest.Some? && a.latest.value.status == st }

  function Scored(accounts: seq<PortfolioAccount>): (r: seq<PortfolioAccount>)
    ensures forall a :: a in r <==> a in accounts && IsScored(a)
    ensures multiset(r) <= multiset(accounts)
  {
    if |accounts| == 0 then []
    else
      var rest := Scored(accounts[1..]);
      assert accounts == [accounts[0]] + accounts[1..];
      if IsScored(accounts[0]) then [accounts[0]] + rest else rest
  }

  /** The accounts whose latest status is `st`, in account order. */
  function WithStatus(accounts: seq<PortfolioAccount>, st: PulseStatus): (r: seq<PortfolioAccount>)
    ensures forall a :: a in r <==> a in accounts && HasStatus(a, st)
    ensures multiset(r) <= multiset(accounts)
  {
    if |accounts| == 0 then []
    else
      var rest := WithStatus(accounts[1..], st);
      assert accounts == [accounts[0]] + accounts[1..];
      if HasStatus(accounts[0], st) then [accounts[0]] + rest else rest
  }

  function Mrrs(accounts: seq<PortfolioAccount>): seq<real> {
    if |accounts| == 0 then [] else [accounts[0].mrr] + Mrrs(accounts[1..])
  }

  /** The latest scores of the scored accounts, in account order. */
  function LatestScores(accounts: seq<PortfolioAccount>): seq<real> {
    if |accounts| == 0 then []
    else if IsScored(accounts[0]) then [accounts[0].latest.value.score] + LatestScores(accounts[1..])
    else LatestScores(accounts[1..])
  }

  lemma {:induction false} LatestScoresCount(accounts: seq<PortfolioAccount>)
    ensures |LatestScores(accounts)| == |Scored(accounts)|
  {
    if |accounts| > 0 {
      LatestScoresCount(accounts[1..]);
    }
  }

  /** The `forEach` tally: one count per account, by its latest status. */
  function Tally(accounts: seq<PortfolioAccount>): Distribution {
    if |accounts| == 0 then Distribution(0, 0, 0, 0)
    else
      var d := Tally(accounts[1..]);
      match accounts[0].latest
      case None => d.(none := d.none + 1)
      case Some(l) =>
        match l.status
        case Green => d.(green := d.green + 1)
        case Amber => d.(amber := d.amber + 1)
        case Red => d.(red := d.red + 1)
  }

  /** The count a distribution keeps for one band. */
  function BandCount(d: Distribution, st: PulseStatus): nat {
    match st
    case Green => d.green
    case Amber => d.amber
    case Red => d.red
  }

  lemma {:induction false} TallyBand(accounts: seq<PortfolioAccount>, st: PulseStatus)
    ensures BandCount(Tally(accounts), st) == |WithStatus(accounts, st)|
  {
    if |accounts| > 0 {
      TallyBand(accounts[1..], st);
    }
  }

  lemma {:induction false} TallyUnscored(accounts: seq<PortfolioAccount>)
    ensures Tally(accounts).none == |accounts| - |Scored(accounts)|
    ensures Tally(accounts).green + Tally(accounts).amber + Tally(accounts).red + Tally(accounts).none == |accounts|
  {
    if |accounts| > 0 {
      TallyUnscored(accounts[1..]);
    }
  }

  /** Each band counts the accounts whose latest status is that band, the
      unscored accounts are `none`, and the four add up to the number of
      accounts. */
  lemma TallyAddsUp(accounts: seq<PortfolioAccount>)
    ensures Tally(accounts).green == |WithStatus(accounts, Green)|
    ensures Tally(accounts).amber == |WithStatus(accounts, Amber)|
    ensures Tally(accounts).red == |WithStatus(accounts, Red)|
    ensures Tally(accounts).none == |accounts| - |Scored(accounts)|
    ensures Tally(accounts).green + Tally(accounts).amber + Tally(accounts).red + Tally(accounts).none == |accounts|
  {
    TallyBand(accounts, Green);
    TallyBand(accounts, Amber);
    TallyBand(accounts, Red);
    TallyUnscored(accounts);
  }

  // ---------------------------------------------------------------------
  // Sorting
  // ---------------------------------------------------------------------

  predicate SortedBy<T>(s: seq<T>, key: T -> real) {
    forall i, j | 0 <= i < j < |s| :: key(s[i]) <= key(s[j])
  }

  /** Insert `x` after every element whose key is not greater, which keeps
      equal keys in arrival order as the stable `Array.prototype.sort` does. */
  function InsertBy<T>(s: seq<T>, x: T, key: T -> real): seq<T> {
    if |s| == 0 then [x]
    else if key(x) < key(s[0]) then [x] + s
    else [s[0]] + InsertBy(s[1..], x, key)
  }

  function SortBy<T>(xs: seq<T>, key: T -> real): seq<T> {
    if |xs| == 0 then []
    else InsertBy(SortBy(xs[..|xs| - 1], key), xs[|xs| - 1], key)
  }

  predicate AllAtLeast<T>(s: seq<T>, key: T -> real, b: real) {
    forall i | 0 <= i < |s| :: b <= key(s[i])
  }

  lemma {:induction false} InsertByKeepsElements<T>(s: seq<T>, x: T, key: T -> real)
    ensures multiset(InsertBy(s, x, key)) == multiset(s) + multiset{x}
    ensures |InsertBy(s, x, key)| == |s| + 1
  {
    if |s| > 0 && key(x) >= key(s[0]) {
      InsertByKeepsElements(s[1..], x, key);
      assert s == [s[0]] + s[1..];
    }
  }

  lemma {:induction false} InsertByKeepsBound<T>(s: seq<T>, x: T, key: T -> real, b: real)
    requires AllAtLeast(s, key, b) && b <= key(x)
    ensures AllAtLeast(InsertBy(s, x, key), key, b)
  {
    if |s| > 0 && key(x) >= key(s[0]) {
      assert AllAtLeast(s[1..], key, b) by {
        forall i | 0 <= i < |s[1..]| ensures b <= key(s[1..][i]) {
          assert s[1..][i] == s[i + 1];
        }
      }
      InsertByKeepsBound(s[1..], x, key, b);
    }
  }

  lemma SortedCons<T>(a: T, s: seq<T>, key: T -> real)
    requires SortedBy(s, key) && AllAtLeast(s, key, key(a))
    ensures SortedBy([a] + s, key)
  {
    var r := [a] + s;
    forall i, j | 0 <= i < j < |r| ensures key(r[i]) <= key(r[j]) {
      assert r[j] == s[j - 1];
      if i > 0 {
        assert r[i] == s[i - 1];
      }
    }
  }

  lemma {:induction false} InsertByKeepsOrder<T>(s: seq<T>, x: T, key: T -> real)
    requires SortedBy(s, key)
    ensures SortedBy(InsertBy(s, x, key), key)
  {
    if |s| == 0 {
    } else if key(x) < key(s[0]) {
      assert AllAtLeast(s, key, key(x));
      SortedCons(x, s, key);
    } else {
      var tail := s[1..];
      assert SortedBy(tail, key) by {
        forall i, j | 0 <= i < j < |tail| ensures key(tail[i]) <= key(tail[j]) {
          assert tail[i] == s[i + 1] && tail[j] == s[j + 1];
        }
      }
      assert AllAtLeast(tail, key, key(s[0])) by {
        forall i | 0 <= i < |tail| ensures key(s[0]) <= key(tail[i]) {
          assert tail[i] == s[i + 1];
        }
      }
      InsertByKeepsOrder(tail, x, key);
      InsertByKeepsBound(tail, x, key, key(s[0]));
      SortedCons(s[0], InsertBy(tail, x, key), key);
    }
  }

  /** The sort orders by key and keeps every element, duplicates included. */
  lemma {:induction false} SortByIsSortedPermutation<T>(xs: seq<T>, key: T -> real)
    ensures SortedBy(SortBy(xs, key), key)
    ensures multiset(SortBy(xs, key)) == multiset(xs)
    ensures |SortBy(xs, key)| == |xs|
  {
    if |xs| > 0 {
      var init := xs[..|xs| - 1];
      SortByIsSortedPermutation(init, key);
      InsertByKeepsOrder(SortBy(init, key), xs[|xs| - 1], key);
      InsertByKeepsElements(SortBy(init, key), xs[|xs| - 1], key);
      assert xs == init + [xs[|xs| - 1]];
    }
  }

  /** The first `TopCount` elements. */
  function Top<T>(s: seq<T>): seq<T> {
    if |s| <= TopCount then s else s[..TopCount]
  }

  /** Taking the first few of a sorted list keeps exactly the smallest keys:
      nothing left out has a smaller key than anything taken. */
  lemma TopOfSortedIsSmallest<T>(s: seq<T>, key: T -> real)
    requires SortedBy(s, key)
    ensures SortedBy(Top(s), key)
    ensures multiset(Top(s)) <= multiset(s)
    ensures forall x, y | x in multiset(s) - multiset(Top(s)) && y in Top(s) :: key(y) <= key(x)
  {
    var n := |Top(s)|;
    assert Top(s) == s[..n];
    assert s == s[..n] + s[n..];
    assert multiset(s) == multiset(s[..n]) + multiset(s[n..]);
    forall x, y | x in multiset(s) - multiset(Top(s)) && y in Top(s) ensures key(y) <= key(x) {
      TopLeftOut(s, key, n, x, y);
    }
  }

  lemma TopLeftOut<T>(s: seq<T>, key: T -> real, n: nat, x: T, y: T)
    requires SortedBy(s, key) && n <= |s|
    requires x in multiset(s[n..]) && y in s[..n]
    ensures key(y) <= key(x)
  {
    var j :| 0 <= j < |s[n..]| && s[n..][j] == x;
    var i :| 0 <= i < n && s[..n][i] == y;
    assert s[n + j] == x && s[i] == y;
  }

  // ---------------------------------------------------------------------
  // The overview
  // ---------------------------------------------------------------------

  /** Every element of a top list comes from the sorted input. */
  lemma TopOfSortedFrom<T>(xs: seq<T>, key: T -> real)
    ensures forall i | 0 <= i < |Top(SortBy(xs, key))| :: Top(SortBy(xs, key))[i] in xs
  {
    var sorted := SortBy(xs, key);
    SortByIsSortedPermutation(xs, key);
    forall i | 0 <= i < |Top(sorted)| ensures Top(sorted)[i] in xs {
      assert Top(sorted)[i] == sorted[i];
      assert sorted[i] in multiset(sorted);
    }
  }

  function ScoreKeyOf(a: PortfolioAccount): real {
    if a.latest.Some? then a.latest.value.score else 0.0
  }

  /** Descending MRR as an ascending key. */
  function NegatedMrr(a: PortfolioAccount): real {
    -a.mrr
  }

  /** `topRisk` before projection: scored accounts by ascending score. */
  function RiskAccounts(accounts: seq<PortfolioAccount>): (r: seq<PortfolioAccount>)
    ensures forall i | 0 <= i < |r| :: IsScored(r[i])
  {
    TopOfSortedFrom(Scored(accounts), ScoreKeyOf);
    Top(SortBy(Scored(accounts), ScoreKeyOf))
  }

  /** `topUpside` before projection: green accounts by descending MRR. */
  function UpsideAccounts(accounts: seq<PortfolioAccount>): (r: seq<PortfolioAccount>)
    ensures forall i | 0 <= i < |r| :: IsScored(r[i]) && HasStatus(r[i], Green)
  {
    TopOfSortedFrom(WithStatus(accounts, Green), NegatedMrr);
    Top(SortBy(WithStatus(accounts, Green), NegatedMrr))
  }

  function ToRow(a: PortfolioAccount): PortfolioRow
    requires IsScored(a)
  {
    PortfolioRow(a.id, a.name, a.vertical, a.mrr, a.latest.value.score, a.latest.value.status)
  }

  function ToRows(accounts: seq<PortfolioAccount>): (r: seq<PortfolioRow>)
    requires forall i | 0 <= i < |accounts| :: IsScored(accounts[i])
    ensures |r| == |accounts|
    ensures forall i | 0 <= i < |accounts| :: r[i] == ToRow(accounts[i])
  {
    if |accounts| == 0 then [] else [ToRow(accounts[0])] + ToRows(accounts[1..])
  }

  /** The ten lowest-scoring scored accounts, lowest first. */
  lemma RiskAccountsShape(accounts: seq<PortfolioAccount>)
    ensures |RiskAccounts(accounts)| == if |Scored(accounts)| <= TopCount then |Scored(accounts)| else TopCount
    ensures forall a | a in RiskAccounts(accounts) :: a in accounts && IsScored(a)
    ensures SortedBy(RiskAccounts(accounts), ScoreKeyOf)
  {
    var sorted := SortBy(Scored(accounts), ScoreKeyOf);
    SortByIsSortedPermutation(Scored(accounts), ScoreKeyOf);
    TopOfSortedIsSmallest(sorted, ScoreKeyOf);
    forall a | a in RiskAccounts(accounts) ensures a in accounts && IsScored(a) {
      assert a in multiset(sorted);
    }
  }

  /** No scored account left out of `topRisk` has a lower score than one
      in it. */
  lemma RiskAccountsAreSmallest(accounts: seq<PortfolioAccount>)
    ensures forall x, y | x in multiset(Scored(accounts)) - multiset(RiskAccounts(accounts)) && y in RiskAccounts(accounts) ::
              IsScored(x) && IsScored(y) && y.latest.value.score <= x.latest.value.score
  {
    var sorted := SortBy(Scored(accounts), ScoreKeyOf);
    SortByIsSortedPermutation(Scored(accounts), ScoreKeyOf);
    TopOfSortedIsSmallest(sorted, ScoreKeyOf);
    var top := RiskAccounts(accounts);
    forall x, y | x in multiset(Scored(accounts)) - multiset(top) && y in top
      ensures IsScored(x) && IsScored(y) && y.latest.value.score <= x.latest.value.score
    {
      assert x in Scored(accounts);
      assert y in multiset(sorted);
      assert y in Scored(accounts);
      assert ScoreKeyOf(y) <= ScoreKeyOf(x);
    }
  }

  /** The ten green accounts with the highest MRR, highest first. */
  lemma UpsideAccountsShape(accounts: seq<PortfolioAccount>)
    ensures |UpsideAccounts(accounts)| == if |WithStatus(accounts, Green)| <= TopCount then |WithStatus(accounts, Green)| else TopCount
    ensures forall a | a in UpsideAccounts(accounts) :: a in accounts && HasStatus(a, Green)
    ensures forall i, j | 0 <= i < j < |UpsideAccounts(accounts)| ::
              UpsideAccounts(accounts)[i].mrr >= UpsideAccounts(accounts)[j].mrr
  {
    var sorted := SortBy(WithStatus(accounts, Green), NegatedMrr);
    SortByIsSortedPermutation(WithStatus(accounts, Green), NegatedMrr);
    TopOfSortedIsSmallest(sorted, NegatedMrr);
    var top := UpsideAccounts(accounts);
    forall a | a in top ensures a in accounts && HasStatus(a, Green) {
      assert a in multiset(sorted);
    }
    forall i, j | 0 <= i < j < |top| ensures top[i].mrr >= top[j].mrr {
      assert NegatedMrr(top[i]) <= NegatedMrr(top[j]);
    }
  }

  /** No green account left out of `topUpside` has a higher MRR than one
      in it. */
  lemma UpsideAccountsAreLargest(accounts: seq<PortfolioAccount>)
    ensures forall x, y | x in multiset(WithStatus(accounts, Green)) - multiset(UpsideAccounts(accounts)) && y in UpsideAccounts(accounts) ::
              x.mrr <= y.mrr
  {
    var sorted := SortBy(WithStatus(accounts, Green), NegatedMrr);
    SortByIsSortedPermutation(WithStatus(accounts, Green), NegatedMrr);
    TopOfSortedIsSmallest(sorted, NegatedMrr);
    var top := UpsideAccounts(accounts);
    forall x, y | x in multiset(WithStatus(accounts, Green)) - multiset(top) && y in top ensures x.mrr <= y.mrr {
      assert NegatedMrr(y) <= NegatedMrr(x);
    }
  }

  /** The projected `topRisk` rows: at most ten, by ascending score. */
  lemma RiskRowsShape(accounts: seq<PortfolioAccount>)
    ensures forall i | 0 <= i < |RiskAccounts(accounts)| :: IsScored(RiskAccounts(accounts)[i])
    ensures |ToRows(RiskAccounts(accounts))| <= TopCount
    ensures forall i, j | 0 <= i < j < |ToRows(RiskAccounts(accounts))| ::
              ToRows(RiskAccounts(accounts))[i].score <= ToRows(RiskAccounts(accounts))[j].score
  {
    RiskAccountsShape(accounts);
    var risk := RiskAccounts(accounts);
    assert forall i | 0 <= i < |risk| :: risk[i] in risk;
  }

  /** The projected `topUpside` rows: at most ten, green, by descending MRR. */
  lemma UpsideRowsShape(accounts: seq<PortfolioAccount>)
    ensures forall i | 0 <= i < |UpsideAccounts(accounts)| :: IsScored(UpsideAccounts(accounts)[i])
    ensures |ToRows(UpsideAccounts(accounts))| <= TopCount
    ensures forall i, j | 0 <= i < j < |ToRows(UpsideAccounts(accounts))| ::
              ToRows(UpsideAccounts(accounts))[i].mrr >= ToRows(UpsideAccounts(accounts))[j].mrr
    ensures forall i | 0 <= i < |ToRows(UpsideAccounts(accounts))| :: ToRows(UpsideAccounts(accounts))[i].status == Green
  {
    UpsideAccountsShape(accounts);
    var upside := UpsideAccounts(accounts);
    assert forall i | 0 <= i < |upside| :: HasStatus(upside[i], Green) by {
      forall i | 0 <= i < |upside| ensures HasStatus(upside[i], Green) {
        assert upside[i] in upside;
      }
    }
    var rows := ToRows(upside);
    forall i | 0 <= i < |rows| ensures rows[i].status == Green {
      assert rows[i] == ToRow(upside[i]);
    }
  }

  /** `GET /api/portfolio` after the query: rejects a blank tenant id, and
      otherwise rolls up the tenant's accounts: the band counts are the
      accounts per latest status, and the two lists are the projected top
      ten of `RiskAccounts` and `UpsideAccounts`. */
  function PortfolioOverview(tenantId: Option<string>, accounts: seq<PortfolioAccount>): (r: Result<Overview, PortfolioError>)
    ensures r.Err? <==> Blank(tenantId)
    ensures r.Ok? ==>
              && r.value.totalAccounts == |accounts|
              && r.value.totalMrr == Sum(Mrrs(accounts))
              && r.value.distribution.green == |WithStatus(accounts, Green)|
              && r.value.distribution.amber == |WithStatus(accounts, Amber)|
              && r.value.distribution.red == |WithStatus(accounts, Red)|
              && r.value.distribution.green + r.value.distribution.amber + r.value.distribution.red
                 + r.value.distribution.none == |accounts|
              && r.value.distribution.none == |accounts| - |Scored(accounts)|
              && OneDecimal(r.value.avgPulseScore)
              && (|Scored(accounts)| == 0 ==> r.value.avgPulseScore == 0.0)
              && (|Scored(accounts)| > 0 ==>
                    var mean := Sum(LatestScores(accounts)) / |Scored(accounts)| as real;
                    mean - 0.05 < r.value.avgPulseScore <= mean + 0.05)
              && r.value.topRisk == ToRows(RiskAccounts(accounts))
              && r.value.topUpside == ToRows(UpsideAccounts(accounts))
              && |r.value.topRisk| <= TopCount && |r.value.topUpside| <= TopCount
              && (forall i, j | 0 <= i < j < |r.value.topRisk| :: r.value.topRisk[i].score <= r.value.topRisk[j].score)
              && (forall i, j | 0 <= i < j < |r.value.topUpside| :: r.value.topUpside[i].mrr >= r.value.topUpside[j].mrr)
              && (forall i | 0 <= i < |r.value.topUpside| :: r.value.topUpside[i].status == Green)
  {
    if Blank(tenantId) then Err(TenantIdRequired)
    else
      RiskRowsShape(accounts);
      UpsideRowsShape(accounts);
      TallyAddsUp(accounts);
      LatestScoresCount(accounts);
      var risk := RiskAccounts(accounts);
      var upside := UpsideAccounts(accounts);
      var scores := LatestScores(accounts);
      var avg := if |scores| > 0 then Sum(scores) / |scores| as real else 0.0;
      Round1Fixes(0.0);
      Ok(Overview(|accounts|, Sum(Mrrs(accounts)), Round1(avg), Tally(accounts), ToRows(risk), ToRows(upside)))
  }

  /** The average lies in the range of the latest scores (with one-decimal
      end points), and so in [0,100] when every score does; with no scored
      account it is the 0 fallback. */
  lemma AverageWithin(tenantId: Option<string>, accounts: seq<PortfolioAccount>, lo: real, hi: real)
    requires !Blank(tenantId)
    requires OneDecimal(lo) && OneDecimal(hi)
    requires AllWithin(LatestScores(accounts), lo, hi)
    requires |LatestScores(accounts)| == 0 ==> lo <= 0.0 <= hi
    ensures lo <= PortfolioOverview(tenantId, accounts).value.avgPulseScore <= hi
  {
    var scores := LatestScores(accounts);
    LatestScoresCount(accounts);
    MeanWithin(scores, 0.0, lo, hi);
    Round1Within(MeanOr(scores, 0.0), lo, hi);
  }
}

=== FILE: recalculation.dfy ===
/** The recalculation orchestrator (`calculatePulseScore` and
    `recalculatePulseScores` in lib/pulse-calculator.ts) over a store
    modelled as plain values: accounts in the order the store lists them,
    pulse-weight rows keyed by (tenant, vertical), metric facts, and pulse
    scores keyed by (tenant, account, periodStart). Each store call becomes
    a lookup or an update of these values. */
module Recalculation {
  import opened Basics
  import opened Types
  import opened Scoring

  type TenantId = string
  type AccountId = string

  /** Dates are compared as instants; an instant is a timestamp. */
  type Timestamp = int

  datatype Account = Account(id: AccountId, tenantId: TenantId, name: string, vertical: string, mrr: real)

  datatype Metric = Metric(
    tenantId: TenantId,
    accountId: AccountId,
    metricType: string,
    periodStart: Timestamp,
    periodEnd: Timestamp,
    value: real,
    unit: Option<string>,
    source: string)

  /** The unique key of a pulse-weight row. */
  datatype WeightKey = WeightKey(tenantId: TenantId, vertical: string)

  /** The unique key of a pulse score: at most one score per key. */
  datatype ScoreKey = ScoreKey(tenantId: TenantId, accountId: AccountId, periodStart: Timestamp)

  /** A stored score; the components are what the source serialises into
      `componentsJson`. */
  datatype PulseScore = PulseScore(periodEnd: Timestamp, score: real, status: PulseStatus, components: PulseComponents)

  datatype Store = Store(
    tenants: map<TenantId, string>,
    accounts: seq<Account>,
    weights: map<WeightKey, PulseWeights>,
    metrics: seq<Metric>,
    scores: map<ScoreKey, PulseScore>)

  /** What `calculatePulseScore` throws: the account is missing, or the
      component aggregation failed. */
  datatype CalcError = AccountNotFound(accountId: AccountId) | ScoringFailed(error: ScoringError)

  const DefaultVertical: string := "default"

  /** The row synthesised when a tenant has neither a vertical nor a
      default row. */
  const FallbackWeights: PulseWeights := PulseWeights(0.35, 0.25, 0.25, 0.15, 70.0, 50.0)

  // ---------------------------------------------------------------------
  // Accounts
  // ---------------------------------------------------------------------

  /** `account.findUnique({ where: { id } })`: the account with that id. */
  function FindAccount(accounts: seq<Account>, id: AccountId): (r: Option<Account>)
    ensures r.Some? ==> r.value in accounts && r.value.id == id
    ensures r.None? <==> forall i | 0 <= i < |accounts| :: accounts[i].id != id
  {
    if |accounts| == 0 then None
    else if accounts[0].id == id then Some(accounts[0])
    else FindAccount(accounts[1..], id)
  }

  predicate AllFound(accounts: seq<Account>, ids: seq<AccountId>) {
    forall id | id in ids :: FindAccount(accounts, id).Some?
  }

  /** `account.findMany({ where: { tenantId } })`, projected to ids. */
  function TenantAccountIds(accounts: seq<Account>, t: TenantId): (r: seq<AccountId>)
    ensures forall id :: id in r <==> exists i | 0 <= i < |accounts| :: accounts[i].tenantId == t && accounts[i].id == id
    ensures AllFound(accounts, r)
  {
    if |accounts| == 0 then []
    else
      var rest := TenantAccountIds(accounts[1..], t);
      assert forall i | 0 <= i < |accounts[1..]| :: accounts[1..][i] == accounts[i + 1];
      assert forall id | id in rest :: FindAccount(accounts, id).Some? by {
        forall id | id in rest ensures FindAccount(accounts, id).Some? {
          var i :| 0 <= i < |accounts[1..]| && accounts[1..][i].tenantId == t && accounts[1..][i].id == id;
          assert accounts[i + 1].id == id;
        }
      }
      if accounts[0].tenantId == t then [accounts[0].id] + rest else rest
  }

  // ---------------------------------------------------------------------
  // Weight resolution
  // ---------------------------------------------------------------------

  /** Neither the vertical's row nor the tenant's default row exists. */
  predicate NeedsFallback(weights: map<WeightKey, PulseWeights>, t: TenantId, v: string) {
    WeightKey(t, v) !in weights && WeightKey(t, DefaultVertical) !in weights
  }

  /** The row a resolution settles on, without its side effect. */
  function EffectiveWeights(weights: map<WeightKey, PulseWeights>, t: TenantId, v: string): PulseWeights {
    if WeightKey(t, v) in weights then weights[WeightKey(t, v)]
    else if WeightKey(t, DefaultVertical) in weights then weights[WeightKey(t, DefaultVertical)]
    else FallbackWeights
  }

  /** The store may only have gained the synthesised default row. */
  predicate FallbackOnly(before: map<WeightKey, PulseWeights>, after: map<WeightKey, PulseWeights>, t: TenantId) {
    after == before
    || (WeightKey(t, DefaultVertical) !in before
        && after == before[WeightKey(t, DefaultVertical) := FallbackWeights])
  }

  /** Weight resolution in `calculatePulseScore`: the vertical's row, else
      the tenant's default row, else the fallback row, which is also
      stored as the tenant's default row. */
  function ResolveWeights(weights: map<WeightKey, PulseWeights>, t: TenantId, v: string)
    : (r: (PulseWeights, map<WeightKey, PulseWeights>))
    ensures WeightKey(t, v) in weights ==> r == (weights[WeightKey(t, v)], weights)
    ensures WeightKey(t, v) !in weights && WeightKey(t, DefaultVertical) in weights
            ==> r == (weights[WeightKey(t, DefaultVertical)], weights)
    ensures NeedsFallback(weights, t, v)
            ==> r == (FallbackWeights, weights[WeightKey(t, DefaultVertical) := FallbackWeights])
    ensures r.0 == EffectiveWeights(weights, t, v)
    ensures FallbackOnly(weights, r.1, t) && !NeedsFallback(r.1, t, v)
  {
    if WeightKey(t, v) in weights then (weights[WeightKey(t, v)], weights)
    else if WeightKey(t, DefaultVertical) in weights then (weights[WeightKey(t, DefaultVertical)], weights)
    else (FallbackWeights, weights[WeightKey(t, DefaultVertical) := FallbackWeights])
  }

  /** Gaining the fallback row changes no later resolution's choice, and a
      resolution that needed no fallback before needs none after. */
  lemma FallbackOnlyKeepsResolution(before: map<WeightKey, PulseWeights>, after: map<WeightKey, PulseWeights>, t: TenantId, v: string)
    requires FallbackOnly(before, after, t)
    ensures EffectiveWeights(after, t, v) == EffectiveWeights(before, t, v)
    ensures !NeedsFallback(before, t, v) ==> !NeedsFallback(after, t, v)
  {
  }

  lemma FallbackOnlyTransitive(a: map<WeightKey, PulseWeights>, b: map<WeightKey, PulseWeights>, c: map<WeightKey, PulseWeights>, t: TenantId)
    requires FallbackOnly(a, b, t) && FallbackOnly(b, c, t)
    ensures FallbackOnly(a, c, t)
  {
  }

  /** Resolving again after a resolution picks the same row for every
      vertical, and for the same vertical creates nothing. */
  lemma ResolveIsStable(weights: map<WeightKey, PulseWeights>, t: TenantId, v: string, v': string)
    ensures ResolveWeights(ResolveWeights(weights, t, v).1, t, v').0 == ResolveWeights(weights, t, v').0
    ensures ResolveWeights(ResolveWeights(weights, t, v).1, t, v)
            == (ResolveWeights(weights, t, v).0, ResolveWeights(weights, t, v).1)
  {
    FallbackOnlyKeepsResolution(weights, ResolveWeights(weights, t, v).1, t, v');
  }

  // ---------------------------------------------------------------------
  // Metric window and scoring of one account
  // ---------------------------------------------------------------------

  /** The `metric.findMany` filter: this tenant and account, and a period
      start in the half-open window [periodStart, periodEnd). */
  predicate InWindow(m: Metric, t: TenantId, a: AccountId, periodStart: Timestamp, periodEnd: Timestamp) {
    m.tenantId == t && m.accountId == a && periodStart <= m.periodStart < periodEnd
  }

  function PeriodMetrics(metrics: seq<Metric>, t: TenantId, a: AccountId, periodStart: Timestamp, periodEnd: Timestamp)
    : (r: seq<Metric>)
    ensures forall m :: m in r <==> m in metrics && InWindow(m, t, a, periodStart, periodEnd)
    ensures |r| <= |metrics|
  {
    if |metrics| == 0 then []
    else
      var rest := PeriodMetrics(metrics[1..], t, a, periodStart, periodEnd);
      assert forall m :: m in metrics <==> m == metrics[0] || m in metrics[1..];
      if InWindow(metrics[0], t, a, periodStart, periodEnd) then [metrics[0]] + rest else rest
  }

  /** `select: { metricType, value }` */
  function Project(ms: seq<Metric>): (r: seq<MetricValue>)
    ensures |r| == |ms|
    ensures forall i | 0 <= i < |ms| :: r[i] == MetricValue(ms[i].metricType, ms[i].value)
  {
    if |ms| == 0 then [] else [MetricValue(ms[0].metricType, ms[0].value)] + Project(ms[1..])
  }

  /** Some metric in the account's window has a type every object
      inherits. */
  predicate WindowReadsInherited(metrics: seq<Metric>, t: TenantId, a: AccountId, periodStart: Timestamp, periodEnd: Timestamp) {
    exists i | 0 <= i < |metrics| :: InWindow(metrics[i], t, a, periodStart, periodEnd) && metrics[i].metricType in InheritedKeys
  }

  /** The projected window reads an inherited name iff the store holds such
      a metric in the window. */
  lemma WindowProjection(metrics: seq<Metric>, t: TenantId, a: AccountId, periodStart: Timestamp, periodEnd: Timestamp)
    ensures ReadsInherited(Project(PeriodMetrics(metrics, t, a, periodStart, periodEnd)))
            <==> WindowReadsInherited(metrics, t, a, periodStart, periodEnd)
  {
    var w := PeriodMetrics(metrics, t, a, periodStart, periodEnd);
    var p := Project(w);
    if ReadsInherited(p) {
      var i :| 0 <= i < |p| && p[i].metricType in InheritedKeys;
      assert w[i] in w;
      var j :| 0 <= j < |metrics| && metrics[j] == w[i];
      assert InWindow(metrics[j], t, a, periodStart, periodEnd);
    }
    if WindowReadsInherited(metrics, t, a, periodStart, periodEnd) {
      var j :| 0 <= j < |metrics| && InWindow(metrics[j], t, a, periodStart, periodEnd) && metrics[j].metricType in InheritedKeys;
      assert metrics[j] in w;
      var i :| 0 <= i < |w| && w[i] == metrics[j];
      assert p[i].metricType == w[i].metricType;
    }
  }

  /** From `calculateComponentScores` to `determineStatus` on the metrics
      of a window under the resolved row; a throw of the aggregator is
      passed on. */
  function Evaluate(metrics: seq<MetricValue>, vertical: string, w: PulseWeights, periodEnd: Timestamp)
    : Result<PulseScore, ScoringError>
  {
    match CalculateComponentScores(metrics, vertical)
    case Err(e) => Err(e)
    case Ok(components) =>
      var score := CalculateCompositeScore(components, w);
      Ok(PulseScore(periodEnd, score, DetermineStatus(score, w), components))
  }

  /** The score an account gets under the row `w`, from the metric query
      through `determineStatus`. */
  function ScoreUnder(s: Store, t: TenantId, id: AccountId, periodStart: Timestamp, periodEnd: Timestamp, w: PulseWeights)
    : Result<PulseScore, ScoringError>
    requires FindAccount(s.accounts, id).Some?
  {
    var acc := FindAccount(s.accounts, id).value;
    Evaluate(Project(PeriodMetrics(s.metrics, t, id, periodStart, periodEnd)), acc.vertical, w, periodEnd)
  }

  /** The score an account gets from the given store, resolution included. */
  function ScoreOf(s: Store, t: TenantId, id: AccountId, periodStart: Timestamp, periodEnd: Timestamp)
    : Result<PulseScore, ScoringError>
    requires FindAccount(s.accounts, id).Some?
  {
    ScoreUnder(s, t, id, periodStart, periodEnd,
               EffectiveWeights(s.weights, t, FindAccount(s.accounts, id).value.vertical))
  }

  /** The account exists and its score can be computed. */
  predicate Scorable(s: Store, t: TenantId, id: AccountId, periodStart: Timestamp, periodEnd: Timestamp) {
    FindAccount(s.accounts, id).Some? && ScoreOf(s, t, id, periodStart, periodEnd).Ok?
  }

  predicate AllScorable(s: Store, t: TenantId, ids: seq<AccountId>, periodStart: Timestamp, periodEnd: Timestamp) {
    forall id | id in ids :: Scorable(s, t, id, periodStart, periodEnd)
  }

  /** An account can be scored iff it exists and no metric of its window
      has an inherited name as its type. */
  lemma ScorableIff(s: Store, t: TenantId, id: AccountId, periodStart: Timestamp, periodEnd: Timestamp)
    ensures Scorable(s, t, id, periodStart, periodEnd)
            <==> FindAccount(s.accounts, id).Some? && !WindowReadsInherited(s.metrics, t, id, periodStart, periodEnd)
  {
    WindowProjection(s.metrics, t, id, periodStart, periodEnd);
  }

  /** Scorability depends on the accounts and the metrics only. */
  lemma AllScorableStable(s: Store, s1: Store, t: TenantId, ids: seq<AccountId>, periodStart: Timestamp, periodEnd: Timestamp)
    requires s1.accounts == s.accounts && s1.metrics == s.metrics
    ensures AllScorable(s1, t, ids, periodStart, periodEnd) <==> AllScorable(s, t, ids, periodStart, periodEnd)
  {
    forall id | id in ids
      ensures Scorable(s1, t, id, periodStart, periodEnd) <==> Scorable(s, t, id, periodStart, periodEnd)
    {
      ScorableIff(s, t, id, periodStart, periodEnd);
      ScorableIff(s1, t, id, periodStart, periodEnd);
    }
  }

  /** A score depends on the accounts, the metrics and the rows resolution
      would pick, so gaining the fallback row does not change it. */
  lemma ScoreOfStable(s1: Store, s2: Store, t: TenantId, id: AccountId, periodStart: Timestamp, periodEnd: Timestamp)
    requires s1.accounts == s2.accounts && s1.metrics == s2.metrics
    requires FallbackOnly(s1.weights, s2.weights, t)
    requires FindAccount(s1.accounts, id).Some?
    ensures ScoreOf(s1, t, id, periodStart, periodEnd) == ScoreOf(s2, t, id, periodStart, periodEnd)
  {
    FallbackOnlyKeepsResolution(s1.weights, s2.weights, t, FindAccount(s1.accounts, id).value.vertical);
  }

  /** `calculatePulseScore`: throws when the account does not exist, or
      when the aggregator throws on the account's metrics; otherwise
      resolves the weights and upserts the account's score under (tenant,
      account, periodStart). What an Ok result holds is stated by the three
      lemmas below. */
  function CalculatePulseScore(s: Store, t: TenantId, id: AccountId, periodStart: Timestamp, periodEnd: Timestamp)
    : (r: Result<Store, CalcError>)
    ensures r.Ok? <==> Scorable(s, t, id, periodStart, periodEnd)
    ensures r.Err? <==> FindAccount(s.accounts, id).None? || WindowReadsInherited(s.metrics, t, id, periodStart, periodEnd)
    ensures FindAccount(s.accounts, id).None? ==> r == Err(AccountNotFound(id))
    ensures FindAccount(s.accounts, id).Some? && r.Err? ==> r == Err(ScoringFailed(PushOnUndefined))
  {
    ScorableIff(s, t, id, periodStart, periodEnd);
    match FindAccount(s.accounts, id)
    case None => Err(AccountNotFound(id))
    case Some(acc) =>
      var (w, weights') := ResolveWeights(s.weights, t, acc.vertical);
      match ScoreUnder(s, t, id, periodStart, periodEnd, w)
      case Err(e) => Err(ScoringFailed(e))
      case Ok(entry) => Ok(s.(weights := weights', scores := s.scores[ScoreKey(t, id, periodStart) := entry]))
  }

  /** The store a successful computation leaves. */
  lemma CalculateSpelledOut(s: Store, t: TenantId, id: AccountId, periodStart: Timestamp, periodEnd: Timestamp)
    requires Scorable(s, t, id, periodStart, periodEnd)
    ensures CalculatePulseScore(s, t, id, periodStart, periodEnd)
            == Ok(s.(weights := ResolveWeights(s.weights, t, FindAccount(s.accounts, id).value.vertical).1,
                     scores := s.scores[ScoreKey(t, id, periodStart) := ScoreOf(s, t, id, periodStart, periodEnd).value]))
  {
    var acc := FindAccount(s.accounts, id).value;
    var (w, weights') := ResolveWeights(s.weights, t, acc.vertical);
    assert ScoreUnder(s, t, id, periodStart, periodEnd, w) == ScoreOf(s, t, id, periodStart, periodEnd);
  }

  /** A computation leaves the tenants, the accounts and the metrics as
      they were. */
  lemma CalculateKeepsFacts(s: Store, t: TenantId, id: AccountId, periodStart: Timestamp, periodEnd: Timestamp)
    requires Scorable(s, t, id, periodStart, periodEnd)
    ensures CalculatePulseScore(s, t, id, periodStart, periodEnd).Ok?
    ensures CalculatePulseScore(s, t, id, periodStart, periodEnd).value.tenants == s.tenants
    ensures CalculatePulseScore(s, t, id, periodStart, periodEnd).value.accounts == s.accounts
    ensures CalculatePulseScore(s, t, id, periodStart, periodEnd).value.metrics == s.metrics
  {
    CalculateSpelledOut(s, t, id, periodStart, periodEnd);
  }

  /** A computation upserts exactly one score: the account's, under (tenant,
      account, periodStart), computed with the row resolution settles on. */
  lemma CalculateUpsertsScore(s: Store, t: TenantId, id: AccountId, periodStart: Timestamp, periodEnd: Timestamp)
    requires Scorable(s, t, id, periodStart, periodEnd)
    ensures CalculatePulseScore(s, t, id, periodStart, periodEnd).Ok?
    ensures CalculatePulseScore(s, t, id, periodStart, periodEnd).value.scores
            == s.scores[ScoreKey(t, id, periodStart) := ScoreOf(s, t, id, periodStart, periodEnd).value]
  {
    CalculateSpelledOut(s, t, id, periodStart, periodEnd);
  }

  /** A computation at most adds the tenant's fallback default row, after
      which the account's vertical needs no fallback; when it needed none
      before, the rows are untouched. */
  lemma CalculateResolvesWeights(s: Store, t: TenantId, id: AccountId, periodStart: Timestamp, periodEnd: Timestamp)
    requires Scorable(s, t, id, periodStart, periodEnd)
    ensures CalculatePulseScore(s, t, id, periodStart, periodEnd).Ok?
    ensures FallbackOnly(s.weights, CalculatePulseScore(s, t, id, periodStart, periodEnd).value.weights, t)
    ensures !NeedsFallback(CalculatePulseScore(s, t, id, periodStart, periodEnd).value.weights, t,
                           FindAccount(s.accounts, id).value.vertical)
    ensures !NeedsFallback(s.weights, t, FindAccount(s.accounts, id).value.vertical)
            ==> CalculatePulseScore(s, t, id, periodStart, periodEnd).value.weights == s.weights
  {
    CalculateSpelledOut(s, t, id, periodStart, periodEnd);
  }

  /** Recomputing an account's score with unchanged metrics leaves the store
      exactly as the first computation left it: one, identical score. */
  lemma CalculateIsIdempotent(s: Store, t: TenantId, id: AccountId, periodStart: Timestamp, periodEnd: Timestamp)
    requires CalculatePulseScore(s, t, id, periodStart, periodEnd).Ok?
    ensures CalculatePulseScore(CalculatePulseScore(s, t, id, periodStart, periodEnd).value, t, id, periodStart, periodEnd)
            == CalculatePulseScore(s, t, id, periodStart, periodEnd)
  {
    CalculateKeepsFacts(s, t, id, periodStart, periodEnd);
    CalculateUpsertsScore(s, t, id, periodStart, periodEnd);
    CalculateResolvesWeights(s, t, id, periodStart, periodEnd);
    var s1 := CalculatePulseScore(s, t, id, periodStart, periodEnd).value;
    ScoreOfStable(s, s1, t, id, periodStart, periodEnd);
    CalculateKeepsFacts(s1, t, id, periodStart, periodEnd);
    CalculateUpsertsScore(s1, t, id, periodStart, periodEnd);
    CalculateResolvesWeights(s1, t, id, periodStart, periodEnd);
    var s2 := CalculatePulseScore(s1, t, id, periodStart, periodEnd).value;
    SecondRunSameScores(s, s1, s2, t, id, periodStart, periodEnd);
    assert s2.weights == s1.weights;
  }

  lemma SecondRunSameScores(s: Store, s1: Store, s2: Store, t: TenantId, id: AccountId, periodStart: Timestamp, periodEnd: Timestamp)
    requires Scorable(s, t, id, periodStart, periodEnd)
    requires s1.accounts == s.accounts && s1.metrics == s.metrics && FallbackOnly(s.weights, s1.weights, t)
    requires s1.scores == s.scores[ScoreKey(t, id, periodStart) := ScoreOf(s, t, id, periodStart, periodEnd).value]
    requires Scorable(s1, t, id, periodStart, periodEnd)
    requires s2.scores == s1.scores[ScoreKey(t, id, periodStart) := ScoreOf(s1, t, id, periodStart, periodEnd).value]
    ensures s2.scores == s1.scores
  {
    var k := ScoreKey(t, id, periodStart);
    ScoreOfStable(s, s1, t, id, periodStart, periodEnd);
    UpdateWithStoredValue(s1.scores, k, ScoreOf(s1, t, id, periodStart, periodEnd).value);
  }

  lemma UpdateWithStoredValue<K, V>(m: map<K, V>, k: K, v: V)
    requires k in m && m[k] == v
    ensures m[k := v] == m
  {
  }

  // ---------------------------------------------------------------------
  // The tenant-wide loop
  // ---------------------------------------------------------------------

  /** The key under which a run over `ids` stores an account's score. */
  predicate Refreshes(k: ScoreKey, t: TenantId, ids: seq<AccountId>, periodStart: Timestamp) {
    k.tenantId == t && k.periodStart == periodStart && k.accountId in ids
  }

  /** `after` is the score table of `before` with the score of every
      account in `ids` (re)computed from `before`, and nothing else changed. */
  ghost predicate RefreshedFrom(before: Store, after: map<ScoreKey, PulseScore>, t: TenantId, ids: seq<AccountId>,
                                periodStart: Timestamp, periodEnd: Timestamp)
    requires AllScorable(before, t, ids, periodStart, periodEnd)
  {
    forall k: ScoreKey ::
      && (k in after <==> k in before.scores || Refreshes(k, t, ids, periodStart))
      && (k in after ==>
            after[k] == if Refreshes(k, t, ids, periodStart) then ScoreOf(before, t, k.accountId, periodStart, periodEnd).value
                        else before.scores[k])
  }

  lemma ScorableFound(s: Store, t: TenantId, ids: seq<AccountId>, periodStart: Timestamp, periodEnd: Timestamp)
    requires AllScorable(s, t, ids, periodStart, periodEnd)
    ensures AllFound(s.accounts, ids)
  {
  }

  /** The `for ... await calculatePulseScore(...)` loop. With no try/catch,
      the first failure aborts the run; the scores the loop upserted before
      it are not carried by the error. */
  function RecalculateEach(s: Store, t: TenantId, ids: seq<AccountId>, periodStart: Timestamp, periodEnd: Timestamp)
    : (r: Result<Store, CalcError>)
    decreases |ids|
    ensures r.Ok? <==> AllScorable(s, t, ids, periodStart, periodEnd)
    ensures r.Err? && r.error.AccountNotFound? ==>
              r.error.accountId in ids && FindAccount(s.accounts, r.error.accountId).None?
    ensures r.Ok? ==>
              && r.value.tenants == s.tenants
              && r.value.accounts == s.accounts
              && r.value.metrics == s.metrics
              && RefreshedFrom(s, r.value.scores, t, ids, periodStart, periodEnd)
              && FallbackOnly(s.weights, r.value.weights, t)
              && (forall id | id in ids :: !NeedsFallback(r.value.weights, t, FindAccount(s.accounts, id).value.vertical))
              && ((forall id | id in ids :: !NeedsFallback(s.weights, t, FindAccount(s.accounts, id).value.vertical))
                  ==> r.value.weights == s.weights)
  {
    if |ids| == 0 then
      Ok(s)
    else
      assert forall id | id in ids :: id == ids[0] || id in ids[1..];
      match CalculatePulseScore(s, t, ids[0], periodStart, periodEnd)
      case Err(e) => Err(e)
      case Ok(s1) =>
        CalculateKeepsFacts(s, t, ids[0], periodStart, periodEnd);
        CalculateUpsertsScore(s, t, ids[0], periodStart, periodEnd);
        CalculateResolvesWeights(s, t, ids[0], periodStart, periodEnd);
        AllScorableStable(s, s1, t, ids[1..], periodStart, periodEnd);
        var r := RecalculateEach(s1, t, ids[1..], periodStart, periodEnd);
        if r.Ok? then
          ScorableFound(s1, t, ids[1..], periodStart, periodEnd);
          AllScorableCons(s, t, ids, periodStart, periodEnd);
          RecalculateEachScores(s, s1, r.value, t, ids, periodStart, periodEnd);
          RecalculateEachWeights(s, s1, r.value, t, ids);
          r
        else
          r
  }

  lemma AllScorableCons(s: Store, t: TenantId, ids: seq<AccountId>, periodStart: Timestamp, periodEnd: Timestamp)
    requires |ids| > 0
    requires Scorable(s, t, ids[0], periodStart, periodEnd) && AllScorable(s, t, ids[1..], periodStart, periodEnd)
    ensures AllScorable(s, t, ids, periodStart, periodEnd)
  {
    assert forall id | id in ids :: id == ids[0] || id in ids[1..];
  }

  /** One iteration of the loop, for the score table. */
  lemma RecalculateEachScores(s: Store, s1: Store, s2: Store, t: TenantId, ids: seq<AccountId>,
                              periodStart: Timestamp, periodEnd: Timestamp)
    requires |ids| > 0
    requires Scorable(s, t, ids[0], periodStart, periodEnd)
    requires AllScorable(s, t, ids, periodStart, periodEnd)
    requires s1.accounts == s.accounts && s1.metrics == s.metrics
    requires s1.scores == s.scores[ScoreKey(t, ids[0], periodStart) := ScoreOf(s, t, ids[0], periodStart, periodEnd).value]
    requires FallbackOnly(s.weights, s1.weights, t)
    requires AllScorable(s1, t, ids[1..], periodStart, periodEnd)
    requires RefreshedFrom(s1, s2.scores, t, ids[1..], periodStart, periodEnd)
    ensures RefreshedFrom(s, s2.scores, t, ids, periodStart, periodEnd)
  {
    forall k: ScoreKey
      ensures k in s2.scores <==> k in s.scores || Refreshes(k, t, ids, periodStart)
      ensures k in s2.scores ==>
                s2.scores[k] == if Refreshes(k, t, ids, periodStart) then ScoreOf(s, t, k.accountId, periodStart, periodEnd).value
                                else s.scores[k]
    {
      RecalculateEachScoresAt(s, s1, s2, t, ids, periodStart, periodEnd, k);
    }
  }

  /** One iteration of the loop, for one key of the score table. */
  lemma RecalculateEachScoresAt(s: Store, s1: Store, s2: Store, t: TenantId, ids: seq<AccountId>,
                                periodStart: Timestamp, periodEnd: Timestamp, k: ScoreKey)
    requires |ids| > 0
    requires Scorable(s, t, ids[0], periodStart, periodEnd)
    requires AllScorable(s, t, ids, periodStart, periodEnd)
    requires s1.accounts == s.accounts && s1.metrics == s.metrics
    requires s1.scores == s.scores[ScoreKey(t, ids[0], periodStart) := ScoreOf(s, t, ids[0], periodStart, periodEnd).value]
    requires FallbackOnly(s.weights, s1.weights, t)
    requires AllScorable(s1, t, ids[1..], periodStart, periodEnd)
    requires RefreshedFrom(s1, s2.scores, t, ids[1..], periodStart, periodEnd)
    ensures k in s2.scores <==> k in s.scores || Refreshes(k, t, ids, periodStart)
    ensures k in s2.scores ==>
              s2.scores[k] == if Refreshes(k, t, ids, periodStart) then ScoreOf(s, t, k.accountId, periodStart, periodEnd).value
                              else s.scores[k]
  {
    assert k.accountId in ids <==> k.accountId == ids[0] || k.accountId in ids[1..];
    RefreshedAt(s1, s2.scores, t, ids[1..], periodStart, periodEnd, k);
    if Refreshes(k, t, ids[1..], periodStart) {
      ScoreOfStable(s, s1, t, k.accountId, periodStart, periodEnd);
    } else if k == ScoreKey(t, ids[0], periodStart) {
      assert s2.scores[k] == s1.scores[k];
    } else {
      assert k in s2.scores <==> k in s.scores;
    }
  }

  /** What `RefreshedFrom` says about one key. */
  lemma RefreshedAt(before: Store, after: map<ScoreKey, PulseScore>, t: TenantId, ids: seq<AccountId>,
                    periodStart: Timestamp, periodEnd: Timestamp, k: ScoreKey)
    requires AllScorable(before, t, ids, periodStart, periodEnd)
    requires RefreshedFrom(before, after, t, ids, periodStart, periodEnd)
    ensures k in after <==> k in before.scores || Refreshes(k, t, ids, periodStart)
    ensures k in after && Refreshes(k, t, ids, periodStart) ==> after[k] == ScoreOf(before, t, k.accountId, periodStart, periodEnd).value
    ensures k in after && !Refreshes(k, t, ids, periodStart) ==> after[k] == before.scores[k]
  {
  }

  /** One iteration of the loop, for the weight rows. */
  lemma RecalculateEachWeights(s: Store, s1: Store, s2: Store, t: TenantId, ids: seq<AccountId>)
    requires |ids| > 0
    requires FindAccount(s.accounts, ids[0]).Some?
    requires s1.accounts == s.accounts
    requires FallbackOnly(s.weights, s1.weights, t)
    requires !NeedsFallback(s1.weights, t, FindAccount(s.accounts, ids[0]).value.vertical)
    requires !NeedsFallback(s.weights, t, FindAccount(s.accounts, ids[0]).value.vertical) ==> s1.weights == s.weights
    requires AllFound(s1.accounts, ids[1..])
    requires FallbackOnly(s1.weights, s2.weights, t)
    requires forall id | id in ids[1..] :: !NeedsFallback(s2.weights, t, FindAccount(s1.accounts, id).value.vertical)
    requires (forall id | id in ids[1..] :: !NeedsFallback(s1.weights, t, FindAccount(s1.accounts, id).value.vertical))
             ==> s2.weights == s1.weights
    ensures AllFound(s.accounts, ids)
    ensures FallbackOnly(s.weights, s2.weights, t)
    ensures forall id | id in ids :: !NeedsFallback(s2.weights, t, FindAccount(s.accounts, id).value.vertical)
    ensures (forall id | id in ids :: !NeedsFallback(s.weights, t, FindAccount(s.accounts, id).value.vertical))
            ==> s2.weights == s.weights
  {
    assert forall id | id in ids :: id == ids[0] || id in ids[1..];
    FallbackOnlyTransitive(s.weights, s1.weights, s2.weights, t);
    FallbackOnlyKeepsResolution(s1.weights, s2.weights, t, FindAccount(s.accounts, ids[0]).value.vertical);
  }

  /** No account of the tenant has a metric with an inherited name in the
      window. */
  predicate TenantClean(s: Store, t: TenantId, periodStart: Timestamp, periodEnd: Timestamp) {
    forall i | 0 <= i < |s.accounts| && s.accounts[i].tenantId == t ::
      !WindowReadsInherited(s.metrics, t, s.accounts[i].id, periodStart, periodEnd)
  }

  /** Every account the tenant lists can be scored iff none reads an
      inherited name. */
  lemma TenantScorable(s: Store, t: TenantId, periodStart: Timestamp, periodEnd: Timestamp)
    ensures AllScorable(s, t, TenantAccountIds(s.accounts, t), periodStart, periodEnd)
            <==> TenantClean(s, t, periodStart, periodEnd)
  {
    var ids := TenantAccountIds(s.accounts, t);
    if AllScorable(s, t, ids, periodStart, periodEnd) {
      forall i | 0 <= i < |s.accounts| && s.accounts[i].tenantId == t
        ensures !WindowReadsInherited(s.metrics, t, s.accounts[i].id, periodStart, periodEnd)
      {
        assert s.accounts[i].id in ids;
        ScorableIff(s, t, s.accounts[i].id, periodStart, periodEnd);
      }
    }
    if TenantClean(s, t, periodStart, periodEnd) {
      forall id | id in ids
        ensures Scorable(s, t, id, periodStart, periodEnd)
      {
        var i :| 0 <= i < |s.accounts| && s.accounts[i].tenantId == t && s.accounts[i].id == id;
        ScorableIff(s, t, id, periodStart, periodEnd);
      }
    }
  }

  /** `recalculatePulseScores`: recompute every account of the tenant. The
      run throws iff some account's window holds a metric whose type is an
      inherited name, and then it is the aggregator's throw (every id it
      visits was just listed by the store). On success every account of the
      tenant is scored, and scores of other tenants and other periods are
      left alone; the tenant gets its fallback `default` row exactly when
      one of its accounts had no row to resolve. */
  function RecalculatePulseScores(s: Store, t: TenantId, periodStart: Timestamp, periodEnd: Timestamp)
    : (r: Result<Store, CalcError>)
    ensures r.Ok? <==> TenantClean(s, t, periodStart, periodEnd)
    ensures r.Err? ==> r.error == ScoringFailed(PushOnUndefined)
    ensures r.Ok? ==> r.value.tenants == s.tenants && r.value.accounts == s.accounts && r.value.metrics == s.metrics
    ensures r.Ok? ==> FallbackOnly(s.weights, r.value.weights, t)
    ensures r.Ok? ==>
              && AllScorable(s, t, TenantAccountIds(s.accounts, t), periodStart, periodEnd)
              && RefreshedFrom(s, r.value.scores, t, TenantAccountIds(s.accounts, t), periodStart, periodEnd)
              && (forall id | id in TenantAccountIds(s.accounts, t) ::
                    !NeedsFallback(r.value.weights, t, FindAccount(s.accounts, id).value.vertical))
              && ((forall id | id in TenantAccountIds(s.accounts, t) ::
                     !NeedsFallback(s.weights, t, FindAccount(s.accounts, id).value.vertical))
                  ==> r.value.weights == s.weights)
    ensures r.Ok? ==>
              forall i | 0 <= i < |s.accounts| && s.accounts[i].tenantId == t ::
                Scorable(s, t, s.accounts[i].id, periodStart, periodEnd)
                && ScoreKey(t, s.accounts[i].id, periodStart) in r.value.scores
                && r.value.scores[ScoreKey(t, s.accounts[i].id, periodStart)]
                   == ScoreOf(s, t, s.accounts[i].id, periodStart, periodEnd).value
    ensures r.Ok? ==>
              forall k: ScoreKey | k.tenantId != t || k.periodStart != periodStart ::
                (k in r.value.scores <==> k in s.scores)
                && (k in s.scores ==> r.value.scores[k] == s.scores[k])
  {
    var ids := TenantAccountIds(s.accounts, t);
    TenantScorable(s, t, periodStart, periodEnd);
    var r := RecalculateEach(s, t, ids, periodStart, periodEnd);
    if r.Ok? then
      RefreshedCoversTenant(s, r.value.scores, t, ids, periodStart, periodEnd);
      RefreshedKeepsOthers(s, r.value.scores, t, ids, periodStart, periodEnd);
      r
    else
      RecalculateErrorIsScoring(s, t, ids, periodStart, periodEnd);
      r
  }

  /** A run over ids the store lists fails only in the aggregator. */
  lemma RecalculateErrorIsScoring(s: Store, t: TenantId, ids: seq<AccountId>, periodStart: Timestamp, periodEnd: Timestamp)
    requires AllFound(s.accounts, ids)
    ensures RecalculateEach(s, t, ids, periodStart, periodEnd).Err?
            ==> RecalculateEach(s, t, ids, periodStart, periodEnd).error == ScoringFailed(PushOnUndefined)
  {
  }

  /** A run over the tenant's ids scores every account of the tenant. */
  lemma RefreshedCoversTenant(s: Store, after: map<ScoreKey, PulseScore>, t: TenantId, ids: seq<AccountId>,
                              periodStart: Timestamp, periodEnd: Timestamp)
    requires ids == TenantAccountIds(s.accounts, t)
    requires AllScorable(s, t, ids, periodStart, periodEnd)
    requires RefreshedFrom(s, after, t, ids, periodStart, periodEnd)
    ensures forall i | 0 <= i < |s.accounts| && s.accounts[i].tenantId == t ::
              Scorable(s, t, s.accounts[i].id, periodStart, periodEnd)
              && ScoreKey(t, s.accounts[i].id, periodStart) in after
              && after[ScoreKey(t, s.accounts[i].id, periodStart)] == ScoreOf(s, t, s.accounts[i].id, periodStart, periodEnd).value
  {
    forall i | 0 <= i < |s.accounts| && s.accounts[i].tenantId == t
      ensures Scorable(s, t, s.accounts[i].id, periodStart, periodEnd)
              && ScoreKey(t, s.accounts[i].id, periodStart) in after
              && after[ScoreKey(t, s.accounts[i].id, periodStart)] == ScoreOf(s, t, s.accounts[i].id, periodStart, periodEnd).value
    {
      assert s.accounts[i].id in ids;
      assert Refreshes(ScoreKey(t, s.accounts[i].id, periodStart), t, ids, periodStart);
    }
  }

  /** A run over one tenant and period leaves every other score alone. */
  lemma RefreshedKeepsOthers(s: Store, after: map<ScoreKey, PulseScore>, t: TenantId, ids: seq<AccountId>,
                             periodStart: Timestamp, periodEnd: Timestamp)
    requires AllScorable(s, t, ids, periodStart, periodEnd)
    requires RefreshedFrom(s, after, t, ids, periodStart, periodEnd)
    ensures forall k: ScoreKey | k.tenantId != t || k.periodStart != periodStart ::
              (k in after <==> k in s.scores) && (k in s.scores ==> after[k] == s.scores[k])
  {
  }

  /** Refreshing an already refreshed score table recomputes the same
      scores, since the fallback row changes no resolution. */
  lemma RefreshTwice(s: Store, s1: Store, scores: map<ScoreKey, PulseScore>, t: TenantId, ids: seq<AccountId>,
                     periodStart: Timestamp, periodEnd: Timestamp)
    requires AllScorable(s, t, ids, periodStart, periodEnd)
    requires s1.accounts == s.accounts && s1.metrics == s.metrics
    requires AllScorable(s1, t, ids, periodStart, periodEnd)
    requires FallbackOnly(s.weights, s1.weights, t)
    requires RefreshedFrom(s, s1.scores, t, ids, periodStart, periodEnd)
    requires RefreshedFrom(s1, scores, t, ids, periodStart, periodEnd)
    ensures scores == s1.scores
  {
    forall k: ScoreKey
      ensures k in scores <==> k in s1.scores
      ensures k in scores ==> scores[k] == s1.scores[k]
    {
      RefreshTwiceAt(s, s1, scores, t, ids, periodStart, periodEnd, k);
    }
    SameEntriesSameMap(scores, s1.scores);
  }

  lemma SameEntriesSameMap<K, V>(a: map<K, V>, b: map<K, V>)
    requires forall k :: (k in a <==> k in b) && (k in a ==> a[k] == b[k])
    ensures a == b
  {
  }

  lemma RefreshTwiceAt(s: Store, s1: Store, scores: map<ScoreKey, PulseScore>, t: TenantId, ids: seq<AccountId>,
                       periodStart: Timestamp, periodEnd: Timestamp, k: ScoreKey)
    requires AllScorable(s, t, ids, periodStart, periodEnd)
    requires s1.accounts == s.accounts && s1.metrics == s.metrics
    requires AllScorable(s1, t, ids, periodStart, periodEnd)
    requires FallbackOnly(s.weights, s1.weights, t)
    requires RefreshedFrom(s, s1.scores, t, ids, periodStart, periodEnd)
    requires RefreshedFrom(s1, scores, t, ids, periodStart, periodEnd)
    ensures k in scores <==> k in s1.scores
    ensures k in scores ==> scores[k] == s1.scores[k]
  {
    if Refreshes(k, t, ids, periodStart) {
      ScoreOfStable(s, s1, t, k.accountId, periodStart, periodEnd);
    }
  }

  /** Running the loop again over the same ids changes nothing. */
  lemma RecalculateEachIsIdempotent(s: Store, s1: Store, t: TenantId, ids: seq<AccountId>,
                                    periodStart: Timestamp, periodEnd: Timestamp)
    requires RecalculateEach(s, t, ids, periodStart, periodEnd) == Ok(s1)
    ensures RecalculateEach(s1, t, ids, periodStart, periodEnd) == Ok(s1)
  {
    AllScorableStable(s, s1, t, ids, periodStart, periodEnd);
    var s2 := RecalculateEach(s1, t, ids, periodStart, periodEnd).value;
    RefreshTwice(s, s1, s2.scores, t, ids, periodStart, periodEnd);
    assert s2.weights == s1.weights;
  }

  /** Running the whole recalculation twice with unchanged metrics gives
      the same store as running it once, whenever the first run succeeds. */
  lemma RecalculateIsIdempotent(s: Store, t: TenantId, periodStart: Timestamp, periodEnd: Timestamp)
    ensures RecalculatePulseScores(s, t, periodStart, periodEnd).Ok? ==>
              RecalculatePulseScores(RecalculatePulseScores(s, t, periodStart, periodEnd).value, t, periodStart, periodEnd)
              == RecalculatePulseScores(s, t, periodStart, periodEnd)
  {
    var ids := TenantAccountIds(s.accounts, t);
    var r := RecalculateEach(s, t, ids, periodStart, periodEnd);
    if r.Ok? {
      var s1 := r.value;
      assert TenantAccountIds(s1.accounts, t) == ids;
      RecalculateEachIsIdempotent(s, s1, t, ids, periodStart, periodEnd);
    }
  }

  // ---------------------------------------------------------------------
  // What a throw leaves behind
  // ---------------------------------------------------------------------

  /** The store `calculatePulseScore` leaves, whether it returns or throws.
      Weight resolution, with the fallback row it may create, runs before
      the aggregator, so a throw of the aggregator keeps it and skips only
      the score upsert. */
  function CalculateWrites(s: Store, t: TenantId, id: AccountId, periodStart: Timestamp, periodEnd: Timestamp): (s': Store)
    ensures s'.tenants == s.tenants && s'.accounts == s.accounts && s'.metrics == s.metrics
    ensures FindAccount(s.accounts, id).None? ==> s' == s
    ensures FindAccount(s.accounts, id).Some? ==>
              s'.weights == ResolveWeights(s.weights, t, FindAccount(s.accounts, id).value.vertical).1
    ensures FallbackOnly(s.weights, s'.weights, t)
  {
    match FindAccount(s.accounts, id)
    case None => s
    case Some(acc) =>
      var (w, weights') := ResolveWeights(s.weights, t, acc.vertical);
      match ScoreUnder(s, t, id, periodStart, periodEnd, w)
      case Err(_) => s.(weights := weights')
      case Ok(entry) => s.(weights := weights', scores := s.scores[ScoreKey(t, id, periodStart) := entry])
  }

  /** What a call writes is what it returns when it returns, and leaves the
      scores alone when it throws. */
  lemma CalculateWritesAgrees(s: Store, t: TenantId, id: AccountId, periodStart: Timestamp, periodEnd: Timestamp)
    ensures CalculatePulseScore(s, t, id, periodStart, periodEnd).Ok?
            ==> CalculateWrites(s, t, id, periodStart, periodEnd) == CalculatePulseScore(s, t, id, periodStart, periodEnd).value
    ensures CalculatePulseScore(s, t, id, periodStart, periodEnd).Err?
            ==> CalculateWrites(s, t, id, periodStart, periodEnd).scores == s.scores
  {
  }

  /** What makes `calculatePulseScore` throw on an id: no such account, or
      a window with an inherited name. It reads the accounts and the
      metrics only, which no call changes. */
  predicate Blocked(accounts: seq<Account>, metrics: seq<Metric>, t: TenantId, id: AccountId,
                    periodStart: Timestamp, periodEnd: Timestamp) {
    FindAccount(accounts, id).None? || WindowReadsInherited(metrics, t, id, periodStart, periodEnd)
  }

  lemma AllScorableIff(s: Store, t: TenantId, ids: seq<AccountId>, periodStart: Timestamp, periodEnd: Timestamp)
    ensures AllScorable(s, t, ids, periodStart, periodEnd)
            <==> forall j | 0 <= j < |ids| :: !Blocked(s.accounts, s.metrics, t, ids[j], periodStart, periodEnd)
  {
    forall j | 0 <= j < |ids| ensures Scorable(s, t, ids[j], periodStart, periodEnd) <==> !Blocked(s.accounts, s.metrics, t, ids[j], periodStart, periodEnd) {
      ScorableIff(s, t, ids[j], periodStart, periodEnd);
    }
  }

  /** The store the `for ... await` loop leaves, whether it finishes or a
      call throws: each call up to and including the throwing one has made
      its writes, and no later call runs. */
  function RecalculateWrites(s: Store, t: TenantId, ids: seq<AccountId>, periodStart: Timestamp, periodEnd: Timestamp)
    : (s': Store)
    decreases |ids|
    ensures s'.tenants == s.tenants && s'.accounts == s.accounts && s'.metrics == s.metrics
    ensures FallbackOnly(s.weights, s'.weights, t)
  {
    if |ids| == 0 then
      s
    else if Blocked(s.accounts, s.metrics, t, ids[0], periodStart, periodEnd) then
      CalculateWrites(s, t, ids[0], periodStart, periodEnd)
    else
      var s1 := CalculateWrites(s, t, ids[0], periodStart, periodEnd);
      var r := RecalculateWrites(s1, t, ids[1..], periodStart, periodEnd);
      FallbackOnlyTransitive(s.weights, s1.weights, r.weights, t);
      r
  }

  /** A call on an id the loop can score writes what it returns. */
  lemma ScorableWrites(s: Store, t: TenantId, id: AccountId, periodStart: Timestamp, periodEnd: Timestamp)
    requires !Blocked(s.accounts, s.metrics, t, id, periodStart, periodEnd)
    ensures CalculatePulseScore(s, t, id, periodStart, periodEnd).Ok?
    ensures CalculateWrites(s, t, id, periodStart, periodEnd) == CalculatePulseScore(s, t, id, periodStart, periodEnd).value
  {
    ScorableIff(s, t, id, periodStart, periodEnd);
    CalculateWritesAgrees(s, t, id, periodStart, periodEnd);
  }

  /** A call on an id that makes it throw writes no score. */
  lemma BlockedWrites(s: Store, t: TenantId, id: AccountId, periodStart: Timestamp, periodEnd: Timestamp)
    requires Blocked(s.accounts, s.metrics, t, id, periodStart, periodEnd)
    ensures CalculatePulseScore(s, t, id, periodStart, periodEnd).Err?
    ensures CalculateWrites(s, t, id, periodStart, periodEnd).scores == s.scores
  {
    ScorableIff(s, t, id, periodStart, periodEnd);
    CalculateWritesAgrees(s, t, id, periodStart, periodEnd);
  }

  /** When the loop does not throw, what it writes is what it returns. */
  lemma {:induction false} CleanRunWrites(s: Store, t: TenantId, ids: seq<AccountId>, periodStart: Timestamp, periodEnd: Timestamp)
    requires AllScorable(s, t, ids, periodStart, periodEnd)
    decreases |ids|
    ensures RecalculateEach(s, t, ids, periodStart, periodEnd).Ok?
    ensures RecalculateWrites(s, t, ids, periodStart, periodEnd) == RecalculateEach(s, t, ids, periodStart, periodEnd).value
  {
    if |ids| > 0 {
      assert ids[0] in ids;
      ScorableIff(s, t, ids[0], periodStart, periodEnd);
      ScorableWrites(s, t, ids[0], periodStart, periodEnd);
      var s1 := CalculateWrites(s, t, ids[0], periodStart, periodEnd);
      AllScorableStable(s, s1, t, ids[1..], periodStart, periodEnd);
      assert forall id | id in ids[1..] :: id in ids;
      CleanRunWrites(s1, t, ids[1..], periodStart, periodEnd);
    }
  }

  /** Thrown or not, the loop touches no score outside its run's keys. */
  lemma {:induction false} WritesKeepOtherScores(s: Store, t: TenantId, ids: seq<AccountId>, periodStart: Timestamp, periodEnd: Timestamp)
    decreases |ids|
    ensures forall k: ScoreKey | !Refreshes(k, t, ids, periodStart) ::
              var w := RecalculateWrites(s, t, ids, periodStart, periodEnd);
              (k in w.scores <==> k in s.scores) && (k in s.scores ==> w.scores[k] == s.scores[k])
  {
    if |ids| > 0 && !Blocked(s.accounts, s.metrics, t, ids[0], periodStart, periodEnd) {
      ScorableWrites(s, t, ids[0], periodStart, periodEnd);
      ScorableIff(s, t, ids[0], periodStart, periodEnd);
      CalculateUpsertsScore(s, t, ids[0], periodStart, periodEnd);
      var s1 := CalculateWrites(s, t, ids[0], periodStart, periodEnd);
      WritesKeepOtherScores(s1, t, ids[1..], periodStart, periodEnd);
      assert forall k: ScoreKey | !Refreshes(k, t, ids, periodStart) ::
               !Refreshes(k, t, ids[1..], periodStart) && k != ScoreKey(t, ids[0], periodStart);
    } else if |ids| > 0 {
      BlockedWrites(s, t, ids[0], periodStart, periodEnd);
    }
  }

  /** The position of the first id the loop cannot score, or `|ids|` when
      it can score them all. */
  function FirstBlocked(s: Store, t: TenantId, ids: seq<AccountId>, periodStart: Timestamp, periodEnd: Timestamp)
    : (n: nat)
    ensures n <= |ids|
    ensures n < |ids| ==> Blocked(s.accounts, s.metrics, t, ids[n], periodStart, periodEnd)
    ensures forall j | 0 <= j < n :: !Blocked(s.accounts, s.metrics, t, ids[j], periodStart, periodEnd)
  {
    if |ids| == 0 || Blocked(s.accounts, s.metrics, t, ids[0], periodStart, periodEnd) then 0
    else
      var m := FirstBlocked(s, t, ids[1..], periodStart, periodEnd);
      assert forall j | 1 <= j < m + 1 :: ids[j] == ids[1..][j - 1];
      m + 1
  }

  /** Where the loop stops depends on the accounts and the metrics only. */
  lemma {:induction false} FirstBlockedStable(s: Store, s1: Store, t: TenantId, ids: seq<AccountId>,
                                              periodStart: Timestamp, periodEnd: Timestamp)
    requires s1.accounts == s.accounts && s1.metrics == s.metrics
    decreases |ids|
    ensures FirstBlocked(s1, t, ids, periodStart, periodEnd) == FirstBlocked(s, t, ids, periodStart, periodEnd)
  {
    if |ids| > 0 {
      FirstBlockedStable(s, s1, t, ids[1..], periodStart, periodEnd);
    }
  }

  /** A run that the loop scores through `pre` and that throws at the head
      of `rest` leaves exactly what a clean run over `pre` writes, followed
      by what the throwing call writes before it throws. */
  lemma {:induction false} ThrowLeavesPrefix(s: Store, t: TenantId, pre: seq<AccountId>, rest: seq<AccountId>,
                                             periodStart: Timestamp, periodEnd: Timestamp)
    requires forall j | 0 <= j < |pre| :: !Blocked(s.accounts, s.metrics, t, pre[j], periodStart, periodEnd)
    requires |rest| > 0 && Blocked(s.accounts, s.metrics, t, rest[0], periodStart, periodEnd)
    decreases |pre|
    ensures RecalculateWrites(s, t, pre + rest, periodStart, periodEnd)
            == CalculateWrites(RecalculateWrites(s, t, pre, periodStart, periodEnd), t, rest[0], periodStart, periodEnd)
  {
    if |pre| == 0 {
      assert pre + rest == rest;
    } else {
      var s1 := CalculateWrites(s, t, pre[0], periodStart, periodEnd);
      assert (pre + rest)[0] == pre[0] && (pre + rest)[1..] == pre[1..] + rest;
      assert RecalculateWrites(s, t, pre + rest, periodStart, periodEnd) == RecalculateWrites(s1, t, pre[1..] + rest, periodStart, periodEnd);
      assert RecalculateWrites(s, t, pre, periodStart, periodEnd) == RecalculateWrites(s1, t, pre[1..], periodStart, periodEnd);
      assert forall j | 0 <= j < |pre[1..]| :: pre[1..][j] == pre[j + 1];
      ThrowLeavesPrefix(s1, t, pre[1..], rest, periodStart, periodEnd);
    }
  }

  /** A run that does not score every id throws at the first one it
      cannot score, the n-th. After the throw every id before it has its
      score, the n-th id needs no fallback row any more, and the n-th id's
      own score was never written. */
  lemma ThrowKeepsEarlierWrites(s: Store, t: TenantId, ids: seq<AccountId>, periodStart: Timestamp, periodEnd: Timestamp)
    requires !AllScorable(s, t, ids, periodStart, periodEnd)
    ensures var n := FirstBlocked(s, t, ids, periodStart, periodEnd);
            var w := RecalculateWrites(s, t, ids, periodStart, periodEnd);
            && n < |ids|
            && !Scorable(s, t, ids[n], periodStart, periodEnd)
            && AllScorable(s, t, ids[..n], periodStart, periodEnd)
            && RefreshedFrom(s, w.scores, t, ids[..n], periodStart, periodEnd)
            && (FindAccount(s.accounts, ids[n]).Some? ==>
                  !NeedsFallback(w.weights, t, FindAccount(s.accounts, ids[n]).value.vertical))
  {
    var n := FirstBlocked(s, t, ids, periodStart, periodEnd);
    ThrowPosition(s, t, ids, periodStart, periodEnd);
    SplitSeq(ids, n);
    ScorableIff(s, t, ids[n], periodStart, periodEnd);
    ThrowWrites(s, t, ids[..n], ids[n..], periodStart, periodEnd);
  }

  lemma ThrowPosition(s: Store, t: TenantId, ids: seq<AccountId>, periodStart: Timestamp, periodEnd: Timestamp)
    requires !AllScorable(s, t, ids, periodStart, periodEnd)
    ensures FirstBlocked(s, t, ids, periodStart, periodEnd) < |ids|
    ensures forall j | 0 <= j < |ids[..FirstBlocked(s, t, ids, periodStart, periodEnd)]| ::
              !Blocked(s.accounts, s.metrics, t, ids[..FirstBlocked(s, t, ids, periodStart, periodEnd)][j], periodStart, periodEnd)
  {
    AllScorableIff(s, t, ids, periodStart, periodEnd);
  }

  lemma SplitSeq<T>(xs: seq<T>, n: nat)
    requires n < |xs|
    ensures xs == xs[..n] + xs[n..] && xs[n..][0] == xs[n]
  {
  }

  /** `ThrowKeepsEarlierWrites` for a run split into the ids it scores and
      the rest, which starts with the id it throws at. */
  lemma ThrowWrites(s: Store, t: TenantId, pre: seq<AccountId>, rest: seq<AccountId>, periodStart: Timestamp, periodEnd: Timestamp)
    requires forall j | 0 <= j < |pre| :: !Blocked(s.accounts, s.metrics, t, pre[j], periodStart, periodEnd)
    requires |rest| > 0 && Blocked(s.accounts, s.metrics, t, rest[0], periodStart, periodEnd)
    ensures AllScorable(s, t, pre, periodStart, periodEnd)
    ensures RefreshedFrom(s, RecalculateWrites(s, t, pre + rest, periodStart, periodEnd).scores, t, pre, periodStart, periodEnd)
    ensures FindAccount(s.accounts, rest[0]).Some? ==>
              !NeedsFallback(RecalculateWrites(s, t, pre + rest, periodStart, periodEnd).weights, t,
                             FindAccount(s.accounts, rest[0]).value.vertical)
  {
    AllScorableIff(s, t, pre, periodStart, periodEnd);
    ThrowLeavesPrefix(s, t, pre, rest, periodStart, periodEnd);
    CleanRunWrites(s, t, pre, periodStart, periodEnd);
    BlockedWrites(RecalculateWrites(s, t, pre, periodStart, periodEnd), t, rest[0], periodStart, periodEnd);
  }

  /** The store `recalculatePulseScores` leaves, whether it returns or
      throws. */
  function RecalculateTenantWrites(s: Store, t: TenantId, periodStart: Timestamp, periodEnd: Timestamp): (s': Store)
    ensures s'.tenants == s.tenants && s'.accounts == s.accounts && s'.metrics == s.metrics
    ensures FallbackOnly(s.weights, s'.weights, t)
    ensures RecalculatePulseScores(s, t, periodStart, periodEnd).Ok?
            ==> s' == RecalculatePulseScores(s, t, periodStart, periodEnd).value
    ensures forall k: ScoreKey | k.tenantId != t || k.periodStart != periodStart ::
              (k in s'.scores <==> k in s.scores) && (k in s.scores ==> s'.scores[k] == s.scores[k])
  {
    var ids := TenantAccountIds(s.accounts, t);
    TenantScorable(s, t, periodStart, periodEnd);
    WritesKeepOtherScores(s, t, ids, periodStart, periodEnd);
    if TenantClean(s, t, periodStart, periodEnd) then
      CleanRunWrites(s, t, ids, periodStart, periodEnd);
      RecalculateWrites(s, t, ids, periodStart, periodEnd)
    else
      RecalculateWrites(s, t, ids, periodStart, periodEnd)
  }

  /** Accounts A and B of tenant t, and no weight row. A has a clean metric
      in the window [0, 1), B one of type `constructor`. */
  const TwoAccounts: Store :=
    Store(map["t" := "T"],
          [Account("A", "t", "a", "tech", 1.0), Account("B", "t", "b", "tech", 1.0)],
          map[],
          [Metric("t", "A", "nps_score", 0, 1, 40.0, None, "csv"),
           Metric("t", "B", "constructor", 0, 1, 1.0, None, "csv")],
          map[])

  lemma TwoAccountsIds()
    ensures TenantAccountIds(TwoAccounts.accounts, "t") == ["A", "B"]
    ensures FindAccount(TwoAccounts.accounts, "B") == Some(TwoAccounts.accounts[1])
  {
    var s := TwoAccounts;
    assert s.accounts[1..] == [s.accounts[1]] && [s.accounts[1]][1..] == [];
    assert TenantAccountIds([s.accounts[1]], "t") == ["B"];
  }

  lemma TwoAccountsFirstScorable()
    ensures Scorable(TwoAccounts, "t", "A", 0, 1)
  {
    InheritedNotSnake();
    assert SnakeName("nps_score");
    ScorableIff(TwoAccounts, "t", "A", 0, 1);
  }

  lemma TwoAccountsSecondThrows()
    ensures !Scorable(TwoAccounts, "t", "B", 0, 1)
  {
    ScorableIff(TwoAccounts, "t", "B", 0, 1);
    assert InWindow(TwoAccounts.metrics[1], "t", "B", 0, 1);
  }

  /** On `TwoAccounts` the run throws at B, after it has stored A's score
      and the fallback default row; B gets no score. */
  lemma ThrowAfterFirstAccount()
    ensures RecalculatePulseScores(TwoAccounts, "t", 0, 1) == Err(ScoringFailed(PushOnUndefined))
    ensures RecalculateTenantWrites(TwoAccounts, "t", 0, 1).weights == map[WeightKey("t", DefaultVertical) := FallbackWeights]
    ensures RecalculateTenantWrites(TwoAccounts, "t", 0, 1).scores.Keys == {ScoreKey("t", "A", 0)}
  {
    TwoAccountsIds();
    TwoAccountsFirstScorable();
    TwoAccountsSecondThrows();
    ScorableIff(TwoAccounts, "t", "A", 0, 1);
    ScorableIff(TwoAccounts, "t", "B", 0, 1);
    ThrowAtSecond(TwoAccounts, "t", "A", "B", 0, 1);
  }

  /** A tenant whose two accounts are listed as [a, b], with no weight row
      and no score yet, where a can be scored and b cannot. */
  lemma ThrowAtSecond(s: Store, t: TenantId, a: AccountId, b: AccountId, periodStart: Timestamp, periodEnd: Timestamp)
    requires s.weights == map[] && s.scores == map[]
    requires TenantAccountIds(s.accounts, t) == [a, b]
    requires !Blocked(s.accounts, s.metrics, t, a, periodStart, periodEnd)
    requires Blocked(s.accounts, s.metrics, t, b, periodStart, periodEnd) && FindAccount(s.accounts, b).Some?
    ensures RecalculatePulseScores(s, t, periodStart, periodEnd) == Err(ScoringFailed(PushOnUndefined))
    ensures RecalculateTenantWrites(s, t, periodStart, periodEnd).weights == map[WeightKey(t, DefaultVertical) := FallbackWeights]
    ensures RecalculateTenantWrites(s, t, periodStart, periodEnd).scores.Keys == {ScoreKey(t, a, periodStart)}
  {
    var ids := TenantAccountIds(s.accounts, t);
    ScorableIff(s, t, a, periodStart, periodEnd);
    ScorableIff(s, t, b, periodStart, periodEnd);
    TenantScorable(s, t, periodStart, periodEnd);
    StopAtSecond(s, t, ids, periodStart, periodEnd);
    ThrowAtSecondWrites(s, t, ids, periodStart, periodEnd);
  }

  lemma ThrowAtSecondWrites(s: Store, t: TenantId, ids: seq<AccountId>, periodStart: Timestamp, periodEnd: Timestamp)
    requires s.weights == map[] && s.scores == map[]
    requires |ids| == 2 && FindAccount(s.accounts, ids[1]).Some?
    requires FirstBlocked(s, t, ids, periodStart, periodEnd) == 1
    ensures RecalculateWrites(s, t, ids, periodStart, periodEnd).weights == map[WeightKey(t, DefaultVertical) := FallbackWeights]
    ensures RecalculateWrites(s, t, ids, periodStart, periodEnd).scores.Keys == {ScoreKey(t, ids[0], periodStart)}
  {
    assert ids == [ids[0]] + [ids[1]];
    ThrowWrites(s, t, [ids[0]], [ids[1]], periodStart, periodEnd);
    var w := RecalculateWrites(s, t, ids, periodStart, periodEnd);
    RefreshedOnlyKey(s, w.scores, t, ids[0], periodStart, periodEnd);
    OnlyFallbackRow(s.weights, w.weights, t, FindAccount(s.accounts, ids[1]).value.vertical);
  }

  lemma StopAtSecond(s: Store, t: TenantId, ids: seq<AccountId>, periodStart: Timestamp, periodEnd: Timestamp)
    requires |ids| == 2
    requires Scorable(s, t, ids[0], periodStart, periodEnd) && !Scorable(s, t, ids[1], periodStart, periodEnd)
    ensures !AllScorable(s, t, ids, periodStart, periodEnd)
    ensures FirstBlocked(s, t, ids, periodStart, periodEnd) == 1
  {
    assert ids[1] in ids;
    ScorableIff(s, t, ids[0], periodStart, periodEnd);
    ScorableIff(s, t, ids[1], periodStart, periodEnd);
    assert ids[1..][0] == ids[1];
  }

  /** Starting with no rows, resolution leaves exactly the fallback row. */
  lemma OnlyFallbackRow(before: map<WeightKey, PulseWeights>, after: map<WeightKey, PulseWeights>, t: TenantId, v: string)
    requires before == map[]
    requires FallbackOnly(before, after, t) && !NeedsFallback(after, t, v)
    ensures after == map[WeightKey(t, DefaultVertical) := FallbackWeights]
  {
  }

  lemma RefreshedOnlyKey(s: Store, after: map<ScoreKey, PulseScore>, t: TenantId, id: AccountId,
                         periodStart: Timestamp, periodEnd: Timestamp)
    requires s.scores == map[]
    requires AllScorable(s, t, [id], periodStart, periodEnd)
    requires RefreshedFrom(s, after, t, [id], periodStart, periodEnd)
    ensures after.Keys == {ScoreKey(t, id, periodStart)}
  {
    forall k: ScoreKey ensures k in after <==> k == ScoreKey(t, id, periodStart) {
      RefreshedAt(s, after, t, [id], periodStart, periodEnd, k);
    }
  }
}

=== FILE: scoring.dfy ===
/** The pure scoring pipeline of lib/pulse-calculator.ts: choosing the
    vertical's mapping table, averaging normalised metrics into the four
    components, the weighted composite score and its status band. The
    pipeline is modelled as the code computes it; two corrected readings of
    the aggregator are kept beside it for the properties the code misses. */
module Scoring {
  import opened Basics
  import opened Types
  import opened Normalizer

  /** One stored metric as the calculator reads it (`select: {metricType, value}`). */
  datatype MetricValue = MetricValue(metricType: string, value: real)

  /** The weight and threshold fields of a pulse-weight row. */
  datatype PulseWeights = PulseWeights(
    usageWeight: real,
    experienceWeight: real,
    outcomeWeight: real,
    riskWeight: real,
    greenMin: real,
    amberMin: real)

  /** The metric-type union declared for a vertical; like the mapping choice,
      anything that is not healthcare or manufacturing counts as tech. */
  function DeclaredMetricTypes(vertical: string): set<string> {
    if vertical == "healthcare" then HealthcareMetricTypes
    else if vertical == "manufacturing" then ManufacturingMetricTypes
    else TechMetricTypes
  }

  /** `getMetricMapping`: the vertical's table, tech for an unknown vertical. */
  function GetMetricMapping(vertical: string): MetricComponentMapping {
    if vertical == "tech" then TechMetricMapping
    else if vertical == "healthcare" then HealthcareMetricMapping
    else if vertical == "manufacturing" then ManufacturingMetricMapping
    else TechMetricMapping
  }

  /** The property names every plain JavaScript object inherits from
      `Object.prototype`. Indexing a mapping table with one of them that the
      table does not own still yields a truthy value: a function, or the
      prototype itself for `__proto__`. */
  const InheritedKeys: set<string> := {
    "constructor", "__proto__", "__defineGetter__", "__defineSetter__",
    "__lookupGetter__", "__lookupSetter__", "hasOwnProperty", "isPrototypeOf",
    "propertyIsEnumerable", "toLocaleString", "toString", "valueOf"
  }

  /** Every mapped type is one the vertical declares, and none is an
      inherited name; healthcare never feeds outcomes, manufacturing never
      feeds experience, and tech's declared `mrr` feeds nothing. */
  lemma MetricMappingShape(vertical: string)
    ensures GetMetricMapping(vertical).Keys <= DeclaredMetricTypes(vertical)
    ensures vertical == "healthcare" ==> Outcomes !in GetMetricMapping(vertical).Values
    ensures vertical == "manufacturing" ==> Experience !in GetMetricMapping(vertical).Values
    ensures vertical != "healthcare" && vertical != "manufacturing" ==>
              "mrr" in DeclaredMetricTypes(vertical) && "mrr" !in GetMetricMapping(vertical)
  {
  }

  /** No table owns a name that every object inherits. */
  lemma OwnedNamesNotInherited(vertical: string)
    ensures GetMetricMapping(vertical).Keys !! InheritedKeys
  {
    TechNotInherited();
    HealthcareNotInherited();
    ManufacturingNotInherited();
  }

  /** An underscore-separated name that does not start with an
      underscore: the shape of every name a table owns, and of no
      inherited name. */
  predicate SnakeName(k: string) {
    |k| > 0 && k[0] != '_' && '_' in k
  }

  lemma InheritedNotSnake()
    ensures forall k | k in InheritedKeys :: !SnakeName(k)
  {
  }

  lemma TechNotInherited()
    ensures TechMetricMapping.Keys !! InheritedKeys
  {
    forall k | k in TechMetricMapping ensures SnakeName(k) {
    }
    forall k | k in InheritedKeys ensures k !in TechMetricMapping {
      InheritedNotSnake();
    }
  }

  lemma HealthcareNotInherited()
    ensures HealthcareMetricMapping.Keys !! InheritedKeys
  {
    forall k | k in HealthcareMetricMapping ensures SnakeName(k) {
    }
    forall k | k in InheritedKeys ensures k !in HealthcareMetricMapping {
      InheritedNotSnake();
    }
  }

  lemma ManufacturingNotInherited()
    ensures ManufacturingMetricMapping.Keys !! InheritedKeys
  {
    forall k | k in ManufacturingMetricMapping ensures SnakeName(k) {
    }
    forall k | k in InheritedKeys ensures k !in ManufacturingMetricMapping {
      InheritedNotSnake();
    }
  }

  predicate ComponentsWithin(c: PulseComponents) {
    0.0 <= c.usage <= 100.0 && 0.0 <= c.experience <= 100.0
    && 0.0 <= c.outcomes <= 100.0 && 0.0 <= c.risk <= 100.0
  }

  /** The table owns metric `m`'s type and maps it to component `c`. */
  predicate Contributes(m: MetricValue, mapping: MetricComponentMapping, c: Component) {
    m.metricType in mapping && mapping[m.metricType] == c
  }

  /** The table does not own `m`'s type, but every object inherits it. */
  predicate Inherited(m: MetricValue, mapping: MetricComponentMapping) {
    m.metricType !in mapping && m.metricType in InheritedKeys
  }

  /** Some metric has a type every object inherits. */
  predicate ReadsInherited(metrics: seq<MetricValue>) {
    exists i | 0 <= i < |metrics| :: metrics[i].metricType in InheritedKeys
  }

  lemma ReadsInheritedAppend(a: seq<MetricValue>, b: seq<MetricValue>)
    ensures ReadsInherited(a + b) <==> ReadsInherited(a) || ReadsInherited(b)
  {
    if ReadsInherited(a + b) {
      var i :| 0 <= i < |a + b| && (a + b)[i].metricType in InheritedKeys;
      if i < |a| {
        assert a[i] == (a + b)[i];
      } else {
        assert b[i - |a|] == (a + b)[i];
      }
    }
    if ReadsInherited(a) {
      var i :| 0 <= i < |a| && a[i].metricType in InheritedKeys;
      assert (a + b)[i] == a[i];
    }
    if ReadsInherited(b) {
      var i :| 0 <= i < |b| && b[i].metricType in InheritedKeys;
      assert (a + b)[|a| + i] == b[i];
    }
  }

  // ---------------------------------------------------------------------
  // Component lists
  // ---------------------------------------------------------------------

  /** How a metric's normalised value enters its component's list: as the
      source pushes it, or with a "fewer is better" risk metric read as
      badness (the corrected reading, see `MoreRiskNeverHelps`). */
  datatype Reading = AsWritten | RiskAsBadness

  /** The value metric `m` adds to component `c` under a reading. */
  function Signal(m: MetricValue, vertical: string, c: Component, reading: Reading): real {
    var v := NormalizeMetric(m.metricType, m.value, vertical);
    if reading == RiskAsBadness && c == Risk && m.metricType in InvertedTypes then 100.0 - v else v
  }

  /** The values collected for component `c` from the metrics the table
      owns, in input order. */
  function Bucket(metrics: seq<MetricValue>, mapping: MetricComponentMapping, vertical: string, c: Component,
                  reading: Reading): seq<real> {
    if |metrics| == 0 then []
    else
      var m := metrics[0];
      var rest := Bucket(metrics[1..], mapping, vertical, c, reading);
      if Contributes(m, mapping, c) then [Signal(m, vertical, c, reading)] + rest
      else rest
  }

  /** A component's list is empty exactly when no metric is mapped to it. */
  lemma {:induction false} BucketEmptyIff(
    metrics: seq<MetricValue>, mapping: MetricComponentMapping, vertical: string, c: Component, reading: Reading)
    ensures |Bucket(metrics, mapping, vertical, c, reading)| == 0
            <==> forall i | 0 <= i < |metrics| :: !Contributes(metrics[i], mapping, c)
  {
    if |metrics| > 0 {
      BucketEmptyIff(metrics[1..], mapping, vertical, c, reading);
      assert forall i | 0 <= i < |metrics[1..]| :: metrics[1..][i] == metrics[i + 1];
    }
  }

  /** With no negative raw value, every collected value lies in [0,100]. */
  lemma {:induction false} BucketWithin(
    metrics: seq<MetricValue>, mapping: MetricComponentMapping, vertical: string, c: Component, reading: Reading)
    requires forall i | 0 <= i < |metrics| :: metrics[i].value >= 0.0
    ensures AllWithin(Bucket(metrics, mapping, vertical, c, reading), 0.0, 100.0)
  {
    if |metrics| > 0 {
      assert forall i | 0 <= i < |metrics[1..]| :: metrics[1..][i] == metrics[i + 1];
      BucketWithin(metrics[1..], mapping, vertical, c, reading);
      var rest := Bucket(metrics[1..], mapping, vertical, c, reading);
      var b := Bucket(metrics, mapping, vertical, c, reading);
      if Contributes(metrics[0], mapping, c) {
        assert b == [Signal(metrics[0], vertical, c, reading)] + rest;
        NormalizeWithin(metrics[0].metricType, metrics[0].value, vertical);
        forall i | 0 <= i < |b| ensures 0.0 <= b[i] <= 100.0 {
          if i > 0 {
            assert b[i] == rest[i - 1];
          }
        }
      }
    }
  }

  lemma {:induction false} BucketAppend(
    a: seq<MetricValue>, b: seq<MetricValue>, mapping: MetricComponentMapping, vertical: string, c: Component,
    reading: Reading)
    ensures Bucket(a + b, mapping, vertical, c, reading)
            == Bucket(a, mapping, vertical, c, reading) + Bucket(b, mapping, vertical, c, reading)
  {
    if |a| == 0 {
      assert a + b == b;
    } else {
      assert (a + b)[1..] == a[1..] + b;
      BucketAppend(a[1..], b, mapping, vertical, c, reading);
    }
  }

  /** The list a single metric contributes to component `c`. */
  lemma BucketOfOne(m: MetricValue, mapping: MetricComponentMapping, vertical: string, c: Component, reading: Reading)
    ensures Bucket([m], mapping, vertical, c, reading)
            == if Contributes(m, mapping, c) then [Signal(m, vertical, c, reading)] else []
  {
    assert [m][1..] == [];
    assert [m][0] == m;
  }

  /** The normaliser never reads the vertical, so neither does a list. */
  lemma {:induction false} BucketIgnoresVertical(
    metrics: seq<MetricValue>, mapping: MetricComponentMapping, v1: string, v2: string, c: Component, reading: Reading)
    ensures Bucket(metrics, mapping, v1, c, reading) == Bucket(metrics, mapping, v2, c, reading)
  {
    if |metrics| > 0 {
      BucketIgnoresVertical(metrics[1..], mapping, v1, v2, c, reading);
    }
  }

  /** The four component means under a table and a reading, 50 for an
      empty list. */
  function ScoresWith(metrics: seq<MetricValue>, mapping: MetricComponentMapping, vertical: string,
                      reading: Reading): PulseComponents {
    PulseComponents(
      MeanOr(Bucket(metrics, mapping, vertical, Usage, reading), 50.0),
      MeanOr(Bucket(metrics, mapping, vertical, Experience, reading), 50.0),
      MeanOr(Bucket(metrics, mapping, vertical, Outcomes, reading), 50.0),
      MeanOr(Bucket(metrics, mapping, vertical, Risk, reading), 50.0))
  }

  lemma ScoresWithGet(metrics: seq<MetricValue>, mapping: MetricComponentMapping, vertical: string,
                      reading: Reading, c: Component)
    ensures ScoresWith(metrics, mapping, vertical, reading).Get(c)
            == MeanOr(Bucket(metrics, mapping, vertical, c, reading), 50.0)
  {
    match c
    case Usage =>
    case Experience =>
    case Outcomes =>
    case Risk =>
  }

  /** Equal component lists give equal components. */
  lemma SameBucketsSameScores(
    m1: seq<MetricValue>, m2: seq<MetricValue>, mapping: MetricComponentMapping, v1: string, v2: string, reading: Reading)
    requires forall c: Component :: Bucket(m1, mapping, v1, c, reading) == Bucket(m2, mapping, v2, c, reading)
    ensures ScoresWith(m1, mapping, v1, reading) == ScoresWith(m2, mapping, v2, reading)
  {
    assert Bucket(m1, mapping, v1, Usage, reading) == Bucket(m2, mapping, v2, Usage, reading);
    assert Bucket(m1, mapping, v1, Experience, reading) == Bucket(m2, mapping, v2, Experience, reading);
    assert Bucket(m1, mapping, v1, Outcomes, reading) == Bucket(m2, mapping, v2, Outcomes, reading);
    assert Bucket(m1, mapping, v1, Risk, reading) == Bucket(m2, mapping, v2, Risk, reading);
  }

  /** A metric whose type the table does not own adds nothing to any list,
      wherever it sits. */
  lemma SkipUnowned(a: seq<MetricValue>, m: MetricValue, b: seq<MetricValue>, mapping: MetricComponentMapping,
                    vertical: string, reading: Reading)
    requires m.metricType !in mapping
    ensures ScoresWith(a + [m] + b, mapping, vertical, reading) == ScoresWith(a + b, mapping, vertical, reading)
  {
    forall c: Component
      ensures Bucket(a + [m] + b, mapping, vertical, c, reading) == Bucket(a + b, mapping, vertical, c, reading)
    {
      BucketAppend(a + [m], b, mapping, vertical, c, reading);
      BucketAppend(a, [m], mapping, vertical, c, reading);
      BucketAppend(a, b, mapping, vertical, c, reading);
      BucketOfOne(m, mapping, vertical, c, reading);
    }
    SameBucketsSameScores(a + [m] + b, a + b, mapping, vertical, vertical, reading);
  }

  /** The means do not depend on the order of the metrics. */
  lemma SwapHalves(a: seq<MetricValue>, b: seq<MetricValue>, mapping: MetricComponentMapping, vertical: string,
                   reading: Reading)
    ensures ScoresWith(a + b, mapping, vertical, reading) == ScoresWith(b + a, mapping, vertical, reading)
  {
    forall c: Component
      ensures MeanOr(Bucket(a + b, mapping, vertical, c, reading), 50.0)
              == MeanOr(Bucket(b + a, mapping, vertical, c, reading), 50.0)
    {
      var ba := Bucket(a, mapping, vertical, c, reading);
      var bb := Bucket(b, mapping, vertical, c, reading);
      BucketAppend(a, b, mapping, vertical, c, reading);
      BucketAppend(b, a, mapping, vertical, c, reading);
      SumAppend(ba, bb);
      SumAppend(bb, ba);
    }
  }

  // ---------------------------------------------------------------------
  // `calculateComponentScores` as written
  // ---------------------------------------------------------------------

  /** The four lists the loop fills. */
  datatype Lists = Lists(usage: seq<real>, experience: seq<real>, outcomes: seq<real>, risk: seq<real>)
  {
    function Get(c: Component): seq<real> {
      match c
      case Usage => usage
      case Experience => experience
      case Outcomes => outcomes
      case Risk => risk
    }

    /** `components[c].push(x)` */
    function Push(c: Component, x: real): (r: Lists)
      ensures forall c' :: r.Get(c') == if c' == c then Get(c') + [x] else Get(c')
    {
      match c
      case Usage => this.(usage := usage + [x])
      case Experience => this.(experience := experience + [x])
      case Outcomes => this.(outcomes := outcomes + [x])
      case Risk => this.(risk := risk + [x])
    }
  }

  /** The thrown `TypeError`: `components[component]` is undefined when
      `component` came from an inherited property, so `.push` fails. */
  datatype ScoringError = PushOnUndefined

  /** The `for (const metric of metrics)` loop, metric by metric in order.
      An owned type pushes its normalised value onto its component's list,
      an inherited name throws, and any other type is skipped. */
  function Group(metrics: seq<MetricValue>, mapping: MetricComponentMapping, vertical: string)
    : Result<Lists, ScoringError>
  {
    if |metrics| == 0 then Ok(Lists([], [], [], []))
    else
      match Group(metrics[..|metrics| - 1], mapping, vertical)
      case Err(e) => Err(e)
      case Ok(lists) =>
        var m := metrics[|metrics| - 1];
        if m.metricType in mapping then Ok(lists.Push(mapping[m.metricType], NormalizeMetric(m.metricType, m.value, vertical)))
        else if m.metricType in InheritedKeys then Err(PushOnUndefined)
        else Ok(lists)
  }

  /** The loop fails exactly when some metric has an inherited name the
      table does not own; otherwise each list it fills is the component's
      list of normalised values. */
  lemma {:induction false} GroupIsBuckets(metrics: seq<MetricValue>, mapping: MetricComponentMapping, vertical: string)
    ensures Group(metrics, mapping, vertical).Err? <==> exists i | 0 <= i < |metrics| :: Inherited(metrics[i], mapping)
    ensures Group(metrics, mapping, vertical).Ok? ==>
              forall c: Component :: Group(metrics, mapping, vertical).value.Get(c) == Bucket(metrics, mapping, vertical, c, AsWritten)
  {
    if |metrics| > 0 {
      var init := metrics[..|metrics| - 1];
      var m := metrics[|metrics| - 1];
      assert metrics == init + [m];
      assert forall i | 0 <= i < |init| :: init[i] == metrics[i];
      GroupIsBuckets(init, mapping, vertical);
      var g := Group(init, mapping, vertical);
      if g.Ok? {
        assert !exists i | 0 <= i < |init| :: Inherited(init[i], mapping);
        forall c: Component
          ensures Bucket(metrics, mapping, vertical, c, AsWritten)
                  == Bucket(init, mapping, vertical, c, AsWritten) + Bucket([m], mapping, vertical, c, AsWritten)
        {
          BucketAppend(init, [m], mapping, vertical, c, AsWritten);
        }
        forall c: Component
          ensures Bucket([m], mapping, vertical, c, AsWritten)
                  == if Contributes(m, mapping, c) then [NormalizeMetric(m.metricType, m.value, vertical)] else []
        {
          BucketOfOne(m, mapping, vertical, c, AsWritten);
        }
        if !Inherited(m, mapping) {
          forall i | 0 <= i < |metrics| ensures !Inherited(metrics[i], mapping) {
            if i < |init| {
              assert metrics[i] == init[i];
            }
          }
        }
      } else {
        var i :| 0 <= i < |init| && Inherited(init[i], mapping);
        assert metrics[i] == init[i];
      }
    }
  }

  /** `calculateComponentScores`. It throws when a metric's type is a name
      every object inherits; otherwise each component is the mean of the
      normalised values of the metrics the vertical's table maps to it, or
      exactly 50 when none is. */
  function CalculateComponentScores(metrics: seq<MetricValue>, vertical: string): (r: Result<PulseComponents, ScoringError>)
    ensures r.Err? <==> ReadsInherited(metrics)
    ensures r.Err? ==> r.error == PushOnUndefined
    ensures r.Ok? ==> r.value == ScoresWith(metrics, GetMetricMapping(vertical), vertical, AsWritten)
  {
    var mapping := GetMetricMapping(vertical);
    GroupIsBuckets(metrics, mapping, vertical);
    OwnedNamesNotInherited(vertical);
    assert (exists i | 0 <= i < |metrics| :: Inherited(metrics[i], mapping)) <==> ReadsInherited(metrics);
    match Group(metrics, mapping, vertical)
    case Err(e) => Err(e)
    case Ok(lists) =>
      assert forall c: Component :: lists.Get(c) == Bucket(metrics, mapping, vertical, c, AsWritten);
      Ok(PulseComponents(MeanOr(lists.usage, 50.0), MeanOr(lists.experience, 50.0),
                         MeanOr(lists.outcomes, 50.0), MeanOr(lists.risk, 50.0)))
  }

  /** The list component `c` averages for `vertical`, as written. */
  function ComponentList(metrics: seq<MetricValue>, vertical: string, c: Component): seq<real> {
    Bucket(metrics, GetMetricMapping(vertical), vertical, c, AsWritten)
  }

  /** A metric whose type is an inherited name makes the whole computation
      throw, wherever it sits among the others. */
  lemma InheritedKeyThrows(a: seq<MetricValue>, m: MetricValue, b: seq<MetricValue>, vertical: string)
    requires m.metricType in InheritedKeys
    ensures CalculateComponentScores(a + [m] + b, vertical) == Err(PushOnUndefined)
  {
    assert (a + [m] + b)[|a|] == m;
  }

  /** A component that no metric feeds is exactly the neutral 50. */
  lemma UnfedComponentIsNeutral(metrics: seq<MetricValue>, vertical: string, c: Component)
    requires forall i | 0 <= i < |metrics| :: !Contributes(metrics[i], GetMetricMapping(vertical), c)
    ensures CalculateComponentScores(metrics, vertical).Ok? ==> CalculateComponentScores(metrics, vertical).value.Get(c) == 50.0
  {
    BucketEmptyIff(metrics, GetMetricMapping(vertical), vertical, c, AsWritten);
    ScoresWithGet(metrics, GetMetricMapping(vertical), vertical, AsWritten, c);
  }

  /** A fed component is the mean of its values, and so lies between the
      smallest and the largest of them. */
  lemma FedComponentIsMean(metrics: seq<MetricValue>, vertical: string, c: Component, lo: real, hi: real)
    requires exists i | 0 <= i < |metrics| :: Contributes(metrics[i], GetMetricMapping(vertical), c)
    requires AllWithin(ComponentList(metrics, vertical, c), lo, hi)
    ensures |ComponentList(metrics, vertical, c)| > 0
    ensures CalculateComponentScores(metrics, vertical).Ok? ==>
              && CalculateComponentScores(metrics, vertical).value.Get(c)
                 == Sum(ComponentList(metrics, vertical, c)) / |ComponentList(metrics, vertical, c)| as real
              && lo <= CalculateComponentScores(metrics, vertical).value.Get(c) <= hi
  {
    BucketEmptyIff(metrics, GetMetricMapping(vertical), vertical, c, AsWritten);
    MeanWithin(ComponentList(metrics, vertical, c), 50.0, lo, hi);
    ScoresWithGet(metrics, GetMetricMapping(vertical), vertical, AsWritten, c);
  }

  /** With no negative raw value every component lies in [0,100]. */
  lemma ComponentsWithinRange(metrics: seq<MetricValue>, vertical: string)
    requires forall i | 0 <= i < |metrics| :: metrics[i].value >= 0.0
    ensures CalculateComponentScores(metrics, vertical).Ok? ==> ComponentsWithin(CalculateComponentScores(metrics, vertical).value)
  {
    var mapping := GetMetricMapping(vertical);
    BucketWithin(metrics, mapping, vertical, Usage, AsWritten);
    BucketWithin(metrics, mapping, vertical, Experience, AsWritten);
    BucketWithin(metrics, mapping, vertical, Outcomes, AsWritten);
    BucketWithin(metrics, mapping, vertical, Risk, AsWritten);
    MeanWithin(Bucket(metrics, mapping, vertical, Usage, AsWritten), 50.0, 0.0, 100.0);
    MeanWithin(Bucket(metrics, mapping, vertical, Experience, AsWritten), 50.0, 0.0, 100.0);
    MeanWithin(Bucket(metrics, mapping, vertical, Outcomes, AsWritten), 50.0, 0.0, 100.0);
    MeanWithin(Bucket(metrics, mapping, vertical, Risk, AsWritten), 50.0, 0.0, 100.0);
  }

  /** A metric whose type is neither in the vertical's table nor an
      inherited name changes nothing, wherever it sits in the input. */
  lemma IgnoredMetricHasNoEffect(a: seq<MetricValue>, m: MetricValue, b: seq<MetricValue>, vertical: string)
    requires m.metricType !in GetMetricMapping(vertical) && m.metricType !in InheritedKeys
    ensures CalculateComponentScores(a + [m] + b, vertical) == CalculateComponentScores(a + b, vertical)
  {
    ReadsInheritedAppend(a + [m], b);
    ReadsInheritedAppend(a, [m]);
    ReadsInheritedAppend(a, b);
    assert !ReadsInherited([m]);
    SkipUnowned(a, m, b, GetMetricMapping(vertical), vertical, AsWritten);
  }

  /** Tech declares `mrr` but does not map it, so an `mrr` metric never moves
      a tech account's components. */
  lemma MrrNeverCountsForTech(a: seq<MetricValue>, value: real, b: seq<MetricValue>)
    ensures CalculateComponentScores(a + [MetricValue("mrr", value)] + b, "tech")
         == CalculateComponentScores(a + b, "tech")
  {
    IgnoredMetricHasNoEffect(a, MetricValue("mrr", value), b, "tech");
  }

  /** The order in which the store returns metrics does not matter. */
  lemma MetricOrderIrrelevant(a: seq<MetricValue>, b: seq<MetricValue>, vertical: string)
    ensures CalculateComponentScores(a + b, vertical) == CalculateComponentScores(b + a, vertical)
  {
    ReadsInheritedAppend(a, b);
    ReadsInheritedAppend(b, a);
    SwapHalves(a, b, GetMetricMapping(vertical), vertical, AsWritten);
  }

  /** A lone metric the table maps to `c` gives `c` its normalised value,
      even a "fewer is better" risk metric, and leaves the others at 50. */
  lemma SingleMetricComponent(m: MetricValue, vertical: string, c: Component)
    requires Contributes(m, GetMetricMapping(vertical), c)
    ensures CalculateComponentScores([m], vertical).Ok?
    ensures CalculateComponentScores([m], vertical).value.Get(c) == NormalizeMetric(m.metricType, m.value, vertical)
    ensures forall c': Component | c' != c :: CalculateComponentScores([m], vertical).value.Get(c') == 50.0
  {
    var mapping := GetMetricMapping(vertical);
    OwnedNamesNotInherited(vertical);
    assert [m][0] == m;
    assert !ReadsInherited([m]);
    var r := CalculateComponentScores([m], vertical);
    assert r.value == ScoresWith([m], mapping, vertical, AsWritten);
    forall c': Component
      ensures r.value.Get(c') == if c' == c then NormalizeMetric(m.metricType, m.value, vertical) else 50.0
    {
      OneMetricMean(m, mapping, vertical, c');
    }
  }

  /** The mean a single metric gives component `c`, as written. */
  lemma OneMetricMean(m: MetricValue, mapping: MetricComponentMapping, vertical: string, c: Component)
    ensures ScoresWith([m], mapping, vertical, AsWritten).Get(c)
            == if Contributes(m, mapping, c) then NormalizeMetric(m.metricType, m.value, vertical) else 50.0
  {
    BucketOfOne(m, mapping, vertical, c, AsWritten);
    ScoresWithGet([m], mapping, vertical, AsWritten, c);
    var b := Bucket([m], mapping, vertical, c, AsWritten);
    if Contributes(m, mapping, c) {
      assert Sum(b) == b[0] + Sum(b[1..]);
      assert b[1..] == [];
    }
  }

  /** An unknown vertical is scored exactly as tech. */
  lemma UnknownVerticalScoredAsTech(metrics: seq<MetricValue>, vertical: string)
    requires vertical != "tech" && vertical != "healthcare" && vertical != "manufacturing"
    ensures CalculateComponentScores(metrics, vertical) == CalculateComponentScores(metrics, "tech")
  {
    forall c: Component
      ensures Bucket(metrics, TechMetricMapping, vertical, c, AsWritten) == Bucket(metrics, TechMetricMapping, "tech", c, AsWritten)
    {
      BucketIgnoresVertical(metrics, TechMetricMapping, vertical, "tech", c, AsWritten);
    }
    SameBucketsSameScores(metrics, metrics, TechMetricMapping, vertical, "tech", AsWritten);
  }

  /** Healthcare maps nothing to outcomes: that component is always 50. */
  lemma HealthcareOutcomesNeutral(metrics: seq<MetricValue>)
    ensures CalculateComponentScores(metrics, "healthcare").Ok? ==>
              CalculateComponentScores(metrics, "healthcare").value.outcomes == 50.0
  {
    var mapping := GetMetricMapping("healthcare");
    forall i | 0 <= i < |metrics| ensures !Contributes(metrics[i], mapping, Outcomes) {
      if metrics[i].metricType in mapping {
        assert mapping[metrics[i].metricType] in mapping.Values;
      }
    }
    UnfedComponentIsNeutral(metrics, "healthcare", Outcomes);
  }

  /** Manufacturing maps nothing to experience: that component is always 50. */
  lemma ManufacturingExperienceNeutral(metrics: seq<MetricValue>)
    ensures CalculateComponentScores(metrics, "manufacturing").Ok? ==>
              CalculateComponentScores(metrics, "manufacturing").value.experience == 50.0
  {
    var mapping := GetMetricMapping("manufacturing");
    forall i | 0 <= i < |metrics| ensures !Contributes(metrics[i], mapping, Experience) {
      if metrics[i].metricType in mapping {
        assert mapping[metrics[i].metricType] in mapping.Values;
      }
    }
    UnfedComponentIsNeutral(metrics, "manufacturing", Experience);
  }

  // ---------------------------------------------------------------------
  // Composite score and status
  // ---------------------------------------------------------------------

  /** The unrounded composite; risk is inverted here, not at normalisation. */
  function WeightedSum(c: PulseComponents, w: PulseWeights): real {
    c.usage * w.usageWeight
    + c.experience * w.experienceWeight
    + c.outcomes * w.outcomeWeight
    + (100.0 - c.risk) * w.riskWeight
  }

  /** `calculateCompositeScore`: the weighted sum rounded half-up to one
      decimal, so it has one decimal and lies within 0.05 of the sum. */
  function CalculateCompositeScore(c: PulseComponents, w: PulseWeights): (r: real)
    ensures OneDecimal(r)
    ensures WeightedSum(c, w) - 0.05 < r <= WeightedSum(c, w) + 0.05
  {
    Round1(WeightedSum(c, w))
  }

  predicate NonNegativeWeights(w: PulseWeights) {
    w.usageWeight >= 0.0 && w.experienceWeight >= 0.0 && w.outcomeWeight >= 0.0 && w.riskWeight >= 0.0
  }

  lemma MulMonotone(a: real, b: real, w: real)
    requires a <= b && w >= 0.0
    ensures a * w <= b * w
  {
    assert b * w - a * w == (b - a) * w;
  }

  /** With non-negative weights the score never drops when usage, experience
      or outcomes rise, and never rises when risk rises. */
  lemma CompositeMonotone(c1: PulseComponents, c2: PulseComponents, w: PulseWeights)
    requires NonNegativeWeights(w)
    requires c1.usage <= c2.usage && c1.experience <= c2.experience && c1.outcomes <= c2.outcomes
    requires c1.risk >= c2.risk
    ensures CalculateCompositeScore(c1, w) <= CalculateCompositeScore(c2, w)
  {
    assert WeightedSum(c1, w) <= WeightedSum(c2, w) by {
      MulMonotone(c1.usage, c2.usage, w.usageWeight);
      MulMonotone(c1.experience, c2.experience, w.experienceWeight);
      MulMonotone(c1.outcomes, c2.outcomes, w.outcomeWeight);
      MulMonotone(100.0 - c1.risk, 100.0 - c2.risk, w.riskWeight);
      SumMonotone(c1.usage * w.usageWeight, c1.experience * w.experienceWeight,
                  c1.outcomes * w.outcomeWeight, (100.0 - c1.risk) * w.riskWeight,
                  c2.usage * w.usageWeight, c2.experience * w.experienceWeight,
                  c2.outcomes * w.outcomeWeight, (100.0 - c2.risk) * w.riskWeight);
    }
    Round1Monotone(WeightedSum(c1, w), WeightedSum(c2, w));
  }

  lemma SumMonotone(a1: real, a2: real, a3: real, a4: real, b1: real, b2: real, b3: real, b4: real)
    requires a1 <= b1 && a2 <= b2 && a3 <= b3 && a4 <= b4
    ensures a1 + a2 + a3 + a4 <= b1 + b2 + b3 + b4
  {
  }

  lemma WeightedSumWithin(c: PulseComponents, w: PulseWeights)
    requires NonNegativeWeights(w)
    requires w.usageWeight + w.experienceWeight + w.outcomeWeight + w.riskWeight == 1.0
    requires ComponentsWithin(c)
    ensures 0.0 <= WeightedSum(c, w) <= 100.0
  {
    ConvexBound(c.usage, c.experience, c.outcomes, 100.0 - c.risk,
                w.usageWeight, w.experienceWeight, w.outcomeWeight, w.riskWeight);
  }

  /** A combination of values in [0,100] with non-negative weights summing
      to 1 lies in [0,100]. */
  lemma ConvexBound(x1: real, x2: real, x3: real, x4: real, w1: real, w2: real, w3: real, w4: real)
    requires 0.0 <= x1 <= 100.0 && 0.0 <= x2 <= 100.0 && 0.0 <= x3 <= 100.0 && 0.0 <= x4 <= 100.0
    requires w1 >= 0.0 && w2 >= 0.0 && w3 >= 0.0 && w4 >= 0.0
    requires w1 + w2 + w3 + w4 == 1.0
    ensures 0.0 <= x1 * w1 + x2 * w2 + x3 * w3 + x4 * w4 <= 100.0
  {
    var p1 := TermWithin(x1, w1);
    var p2 := TermWithin(x2, w2);
    var p3 := TermWithin(x3, w3);
    var p4 := TermWithin(x4, w4);
  }

  /** One weighted term: between 0 and 100 times its weight. */
  lemma TermWithin(x: real, w: real) returns (p: real)
    requires 0.0 <= x <= 100.0 && w >= 0.0
    ensures p == x * w && 0.0 <= p <= 100.0 * w
  {
    p := x * w;
    assert x * w <= 100.0 * w by {
      assert 100.0 * w - x * w == (100.0 - x) * w;
    }
  }

  /** Non-negative weights summing to exactly 1 keep a score built from
      components in [0,100] inside [0,100]. */
  lemma CompositeWithin(c: PulseComponents, w: PulseWeights)
    requires NonNegativeWeights(w)
    requires w.usageWeight + w.experienceWeight + w.outcomeWeight + w.riskWeight == 1.0
    requires ComponentsWithin(c)
    ensures 0.0 <= CalculateCompositeScore(c, w) <= 100.0
  {
    WeightedSumWithin(c, w);
    Round1Within(WeightedSum(c, w), 0.0, 100.0);
  }

  /** `determineStatus`: two inclusive cuts, ties going to the higher band. */
  function DetermineStatus(score: real, w: PulseWeights): (s: PulseStatus)
    ensures s == Green <==> score >= w.greenMin
    ensures s == Amber <==> w.amberMin <= score < w.greenMin
    ensures s == Red <==> score < w.amberMin && score < w.greenMin
  {
    if score >= w.greenMin then Green
    else if score >= w.amberMin then Amber
    else Red
  }

  /** A higher score never gets a worse band. */
  lemma StatusMonotone(s1: real, s2: real, w: PulseWeights)
    requires s1 <= s2
    ensures StatusRank(DetermineStatus(s1, w)) <= StatusRank(DetermineStatus(s2, w))
  {
  }


  // ---------------------------------------------------------------------
  // Two findings and the corrected aggregator
  // ---------------------------------------------------------------------

  /** The corrected aggregator. Only names the table owns are looked up, as
      `Object.hasOwn` would, so nothing throws; and a "fewer is better" metric
      that feeds risk enters it as its badness, `100 -` its normalised value. */
  function CorrectedComponentScores(metrics: seq<MetricValue>, vertical: string): PulseComponents {
    ScoresWith(metrics, GetMetricMapping(vertical), vertical, RiskAsBadness)
  }

  /** Every "fewer is better" type feeds the risk component of the vertical
      that declares it, so each of them is inverted twice as written. */
  lemma InvertedTypesFeedRisk(t: string)
    requires t in InvertedTypes
    ensures || (t in GetMetricMapping("healthcare") && GetMetricMapping("healthcare")[t] == Risk)
            || (t in GetMetricMapping("manufacturing") && GetMetricMapping("manufacturing")[t] == Risk)
  {
  }

  /** The manufacturing seed row: usage .25, experience .2, outcomes .4,
      risk .15, green from 70, amber from 50. */
  const ManufacturingSeed: PulseWeights := PulseWeights(0.25, 0.2, 0.4, 0.15, 70.0, 50.0)

  /** As written, a manufacturing account with no unplanned downtime scores
      42.5 (red) and the same account with 8 hours of it scores 57.5
      (amber): the downtime is normalised to "good", read as "risk", and
      inverted again. */
  lemma AsWrittenDowntimeRaisesScore()
    ensures CalculateComponentScores([MetricValue("unplanned_downtime_hours", 0.0)], "manufacturing")
            == Ok(PulseComponents(50.0, 50.0, 50.0, 100.0))
    ensures CalculateComponentScores([MetricValue("unplanned_downtime_hours", 8.0)], "manufacturing")
            == Ok(PulseComponents(50.0, 50.0, 50.0, 0.0))
    ensures CalculateCompositeScore(PulseComponents(50.0, 50.0, 50.0, 100.0), ManufacturingSeed) == 42.5
    ensures CalculateCompositeScore(PulseComponents(50.0, 50.0, 50.0, 0.0), ManufacturingSeed) == 57.5
    ensures DetermineStatus(42.5, ManufacturingSeed) == Red && DetermineStatus(57.5, ManufacturingSeed) == Amber
  {
    DowntimeNormalised();
    DowntimeBucket(0.0);
    DowntimeBucket(8.0);
    assert !ReadsInherited([MetricValue("unplanned_downtime_hours", 0.0)]);
    assert !ReadsInherited([MetricValue("unplanned_downtime_hours", 8.0)]);
    assert MeanOr([100.0], 50.0) == 100.0 && MeanOr([0.0], 50.0) == 0.0;
    assert WeightedSum(PulseComponents(50.0, 50.0, 50.0, 100.0), ManufacturingSeed) == 42.5;
    assert WeightedSum(PulseComponents(50.0, 50.0, 50.0, 0.0), ManufacturingSeed) == 57.5;
    Round1Fixes(42.5);
    Round1Fixes(57.5);
  }

  /** With the corrected aggregator the same two accounts swap places: no
      downtime gives risk 0, 8 hours of it give risk 100. */
  lemma CorrectedDowntimeLowersScore()
    ensures CorrectedComponentScores([MetricValue("unplanned_downtime_hours", 0.0)], "manufacturing")
            == PulseComponents(50.0, 50.0, 50.0, 0.0)
    ensures CorrectedComponentScores([MetricValue("unplanned_downtime_hours", 8.0)], "manufacturing")
            == PulseComponents(50.0, 50.0, 50.0, 100.0)
  {
    DowntimeNormalised();
    DowntimeBucket(0.0);
    DowntimeBucket(8.0);
    assert MeanOr([100.0], 50.0) == 100.0 && MeanOr([0.0], 50.0) == 0.0;
  }

  /** No downtime normalises to 100, eight hours of it to 0. */
  lemma DowntimeNormalised()
    ensures NormalizeMetric("unplanned_downtime_hours", 0.0, "manufacturing") == 100.0
    ensures NormalizeMetric("unplanned_downtime_hours", 8.0, "manufacturing") == 0.0
  {
    RuleOfIsTableDriven("unplanned_downtime_hours");
  }

  /** A lone downtime metric feeds only the risk list of a manufacturing
      account, in both readings. */
  lemma DowntimeBucket(v: real)
    ensures forall c: Component ::
              Bucket([MetricValue("unplanned_downtime_hours", v)], GetMetricMapping("manufacturing"), "manufacturing", c, AsWritten)
              == if c == Risk then [NormalizeMetric("unplanned_downtime_hours", v, "manufacturing")] else []
    ensures forall c: Component ::
              Bucket([MetricValue("unplanned_downtime_hours", v)], GetMetricMapping("manufacturing"), "manufacturing", c, RiskAsBadness)
              == if c == Risk then [100.0 - NormalizeMetric("unplanned_downtime_hours", v, "manufacturing")] else []
  {
    var m := MetricValue("unplanned_downtime_hours", v);
    assert [m][1..] == [];
    assert GetMetricMapping("manufacturing")["unplanned_downtime_hours"] == Risk;
    assert "unplanned_downtime_hours" in InvertedTypes;
  }

  /** The corrected risk signal of a "fewer is better" type grows with the
      raw value. */
  lemma InvertedRiskSignalMonotone(t: string, v1: real, v2: real, vertical: string)
    requires t in InvertedTypes && v1 <= v2
    ensures Signal(MetricValue(t, v1), vertical, Risk, RiskAsBadness) <= Signal(MetricValue(t, v2), vertical, Risk, RiskAsBadness)
  {
    InvertedTypeShape(t, v1, v2, vertical);
  }

  lemma MeanOfLargerMiddle(a: seq<real>, x: real, y: real, b: seq<real>)
    requires x <= y
    ensures MeanOr(a + [x] + b, 50.0) <= MeanOr(a + [y] + b, 50.0)
  {
    SumMiddle(a, x, b);
    SumMiddle(a, y, b);
    DivideMonotone(Sum(a + [x] + b), Sum(a + [y] + b), |a + [x] + b| as real);
  }

  lemma SumMiddle(a: seq<real>, x: real, b: seq<real>)
    ensures Sum(a + [x] + b) == Sum(a) + x + Sum(b)
  {
    SumAppend(a + [x], b);
    SumAppend(a, [x]);
    assert Sum([x]) == x + Sum([]);
  }

  lemma DivideMonotone(p: real, q: real, n: real)
    requires p <= q && n > 0.0
    ensures p / n <= q / n
  {
  }

  /** With the corrected aggregator and non-negative weights, a larger raw
      value of a "fewer is better" risk metric never raises the score,
      wherever the metric sits among the others. */
  lemma MoreRiskNeverHelps(a: seq<MetricValue>, b: seq<MetricValue>, t: string, v1: real, v2: real,
                           vertical: string, w: PulseWeights)
    requires t in InvertedTypes && t in GetMetricMapping(vertical) && GetMetricMapping(vertical)[t] == Risk
    requires v1 <= v2 && NonNegativeWeights(w)
    ensures CalculateCompositeScore(CorrectedComponentScores(a + [MetricValue(t, v2)] + b, vertical), w)
            <= CalculateCompositeScore(CorrectedComponentScores(a + [MetricValue(t, v1)] + b, vertical), w)
  {
    var mapping := GetMetricMapping(vertical);
    var m1, m2 := MetricValue(t, v1), MetricValue(t, v2);
    forall c: Component
      ensures Bucket(a + [m1] + b, mapping, vertical, c, RiskAsBadness)
              == Bucket(a, mapping, vertical, c, RiskAsBadness) + Bucket([m1], mapping, vertical, c, RiskAsBadness)
                 + Bucket(b, mapping, vertical, c, RiskAsBadness)
      ensures Bucket(a + [m2] + b, mapping, vertical, c, RiskAsBadness)
              == Bucket(a, mapping, vertical, c, RiskAsBadness) + Bucket([m2], mapping, vertical, c, RiskAsBadness)
                 + Bucket(b, mapping, vertical, c, RiskAsBadness)
      ensures Bucket([m1], mapping, vertical, c, RiskAsBadness)
              == if c == Risk then [Signal(m1, vertical, Risk, RiskAsBadness)] else []
      ensures Bucket([m2], mapping, vertical, c, RiskAsBadness)
              == if c == Risk then [Signal(m2, vertical, Risk, RiskAsBadness)] else []
    {
      BucketAppend(a + [m1], b, mapping, vertical, c, RiskAsBadness);
      BucketAppend(a, [m1], mapping, vertical, c, RiskAsBadness);
      BucketAppend(a + [m2], b, mapping, vertical, c, RiskAsBadness);
      BucketAppend(a, [m2], mapping, vertical, c, RiskAsBadness);
      BucketOfOne(m1, mapping, vertical, c, RiskAsBadness);
      BucketOfOne(m2, mapping, vertical, c, RiskAsBadness);
    }
    InvertedRiskSignalMonotone(t, v1, v2, vertical);
    MeanOfLargerMiddle(Bucket(a, mapping, vertical, Risk, RiskAsBadness), Signal(m1, vertical, Risk, RiskAsBadness),
                       Signal(m2, vertical, Risk, RiskAsBadness), Bucket(b, mapping, vertical, Risk, RiskAsBadness));
    var c1 := CorrectedComponentScores(a + [m1] + b, vertical);
    var c2 := CorrectedComponentScores(a + [m2] + b, vertical);
    assert c1.usage == c2.usage && c1.experience == c2.experience && c1.outcomes == c2.outcomes;
    CompositeMonotone(c2, c1, w);
  }

  /** A metric of type `constructor`: as written it makes the computation
      throw, while the corrected aggregator leaves every component at 50. */
  lemma ConstructorMetricThrows(value: real, vertical: string)
    ensures CalculateComponentScores([MetricValue("constructor", value)], vertical) == Err(PushOnUndefined)
    ensures CorrectedComponentScores([MetricValue("constructor", value)], vertical) == PulseComponents(50.0, 50.0, 50.0, 50.0)
  {
    InheritedKeyThrows([], MetricValue("constructor", value), [], vertical);
    assert [] + [MetricValue("constructor", value)] + [] == [MetricValue("constructor", value)];
    OwnedNamesNotInherited(vertical);
    forall c: Component ensures Bucket([MetricValue("constructor", value)], GetMetricMapping(vertical), vertical, c, RiskAsBadness) == [] {
      BucketOfOne(MetricValue("constructor", value), GetMetricMapping(vertical), vertical, c, RiskAsBadness);
    }
  }

  /** The corrected aggregator ignores every type the vertical's table does
      not own, inherited names included, wherever it sits. */
  lemma CorrectedIgnoresUnmapped(a: seq<MetricValue>, m: MetricValue, b: seq<MetricValue>, vertical: string)
    requires m.metricType !in GetMetricMapping(vertical)
    ensures CorrectedComponentScores(a + [m] + b, vertical) == CorrectedComponentScores(a + b, vertical)
  {
    SkipUnowned(a, m, b, GetMetricMapping(vertical), vertical, RiskAsBadness);
  }
}

=== FILE: tenants.dfy ===
/** Tenant creation (`POST` in app/api/tenants/route.ts): a named tenant is
    created together with four pulse-weight rows, one per vertical plus the
    tenant-wide default. The seeds agree with the calculator's own fallback
    and pass the weight validator. */
module Tenants {
  import opened Basics
  import opened Types
  import opened Normalizer
  import opened Scoring
  import opened Recalculation
  import opened WeightsApi

  /** The rows seeded for every new tenant, by vertical. */
  const SeedWeights: map<string, PulseWeights> := map[
    "default" := PulseWeights(0.35, 0.25, 0.25, 0.15, 70.0, 50.0),
    "tech" := PulseWeights(0.4, 0.2, 0.3, 0.1, 70.0, 50.0),
    "healthcare" := PulseWeights(0.3, 0.35, 0.25, 0.1, 70.0, 50.0),
    "manufacturing" := PulseWeights(0.25, 0.2, 0.4, 0.15, 70.0, 50.0)
  ]

  datatype TenantError = NameRequired | TenantExists(id: TenantId)

  /** Every weight row belongs to an existing tenant. */
  predicate WeightsOwned(s: Store) {
    forall k | k in s.weights :: k.tenantId in s.tenants
  }

  /** The key of a seeded row of tenant `id`. */
  predicate Seeded(k: WeightKey, id: TenantId) {
    k.tenantId == id && k.vertical in SeedWeights
  }

  /** `POST /api/tenants`. A blank name is rejected before anything is
      created. The tenant id comes from the store; reusing one fails. */
  function CreateTenant(s: Store, id: TenantId, name: Option<string>): (r: Result<Store, TenantError>)
    ensures Blank(name) ==> r == Err(NameRequired)
    ensures !Blank(name) && id in s.tenants ==> r == Err(TenantExists(id))
    ensures r.Ok? <==> !Blank(name) && id !in s.tenants
    ensures r.Ok? ==>
              && r.value.tenants == s.tenants[id := name.value]
              && r.value.accounts == s.accounts && r.value.metrics == s.metrics && r.value.scores == s.scores
              && (forall k :: k in r.value.weights <==> k in s.weights || Seeded(k, id))
              && (forall k | k in r.value.weights ::
                    r.value.weights[k] == if Seeded(k, id) then SeedWeights[k.vertical] else s.weights[k])
  {
    if Blank(name) then Err(NameRequired)
    else if id in s.tenants then Err(TenantExists(id))
    else
      var seeds := map v | v in SeedWeights :: WeightKey(id, v) := SeedWeights[v];
      Ok(s.(tenants := s.tenants[id := name.value], weights := s.weights + seeds))
  }

  /** In a store whose weight rows all belong to tenants, a new tenant has
      exactly the four seeded rows, and ownership still holds afterwards. */
  lemma NewTenantHasFourRows(s: Store, id: TenantId, name: Option<string>)
    requires WeightsOwned(s)
    requires CreateTenant(s, id, name).Ok?
    ensures forall v :: WeightKey(id, v) in CreateTenant(s, id, name).value.weights
                        <==> v in {"default", "tech", "healthcare", "manufacturing"}
    ensures WeightsOwned(CreateTenant(s, id, name).value)
  {
    var after := CreateTenant(s, id, name).value;
    forall v ensures WeightKey(id, v) in after.weights <==> v in {"default", "tech", "healthcare", "manufacturing"} {
      assert WeightKey(id, v) !in s.weights;
    }
  }

  /** Every seeded row passes the weight validator. */
  lemma SeedsAreValid()
    ensures forall v | v in SeedWeights :: Acceptable(SeedWeights[v])
    ensures forall v | v in SeedWeights :: NonNegativeWeights(SeedWeights[v]) && Total(SeedWeights[v]) == 1.0
  {
  }

  /** The seeded default row is the row the calculator synthesises when a
      tenant has none, so for a new tenant every vertical resolves to its
      seed, or to the fallback values when it is not seeded, and resolving
      never creates a row. */
  lemma NewTenantResolution(s: Store, id: TenantId, name: Option<string>, v: string)
    requires WeightsOwned(s)
    requires CreateTenant(s, id, name).Ok?
    ensures SeedWeights[DefaultVertical] == FallbackWeights
    ensures !NeedsFallback(CreateTenant(s, id, name).value.weights, id, v)
    ensures EffectiveWeights(CreateTenant(s, id, name).value.weights, id, v)
            == if v in SeedWeights then SeedWeights[v] else FallbackWeights
  {
    var after := CreateTenant(s, id, name).value;
    assert WeightKey(id, DefaultVertical) in after.weights;
    assert Seeded(WeightKey(id, DefaultVertical), id);
    if v in SeedWeights {
      assert Seeded(WeightKey(id, v), id);
    } else {
      assert WeightKey(id, v) !in s.weights;
    }
  }

  // ---------------------------------------------------------------------
  // A worked example on the tech seed
  // ---------------------------------------------------------------------

  /** The three metrics of the example: 90% active users, NPS 40 and an
      NRR of 110%. */
  predicate IsExample(ms: seq<MetricValue>) {
    && |ms| == 3
    && ms[0] == MetricValue("active_users_percent", 90.0)
    && ms[1] == MetricValue("nps_score", 40.0)
    && ms[2] == MetricValue("nrr_percent", 110.0)
  }

  lemma ExampleNormalised()
    ensures NormalizeMetric("active_users_percent", 90.0, "tech") == 90.0
    ensures NormalizeMetric("nps_score", 40.0, "tech") == 70.0
    ensures NormalizeMetric("nrr_percent", 110.0, "tech") == 100.0
  {
    RuleOfIsTableDriven("active_users_percent");
    RuleOfIsTableDriven("nps_score");
    RuleOfIsTableDriven("nrr_percent");
  }

  /** The buckets of the example: one metric each for usage, experience
      and outcomes, none for risk. */
  lemma ExampleBuckets(ms: seq<MetricValue>)
    requires IsExample(ms)
    ensures Bucket(ms, GetMetricMapping("tech"), "tech", Usage, AsWritten) == [90.0]
    ensures Bucket(ms, GetMetricMapping("tech"), "tech", Experience, AsWritten) == [70.0]
    ensures Bucket(ms, GetMetricMapping("tech"), "tech", Outcomes, AsWritten) == [100.0]
    ensures Bucket(ms, GetMetricMapping("tech"), "tech", Risk, AsWritten) == []
  {
    ExampleNormalised();
    var mp := GetMetricMapping("tech");
    assert mp["active_users_percent"] == Usage && mp["nps_score"] == Experience && mp["nrr_percent"] == Outcomes;
    assert Signal(ms[0], "tech", Usage, AsWritten) == 90.0;
    assert Signal(ms[1], "tech", Experience, AsWritten) == 70.0;
    assert Signal(ms[2], "tech", Outcomes, AsWritten) == 100.0;
    BucketOfThree(ms, mp, "tech", Usage, AsWritten);
    BucketOfThree(ms, mp, "tech", Experience, AsWritten);
    BucketOfThree(ms, mp, "tech", Outcomes, AsWritten);
    BucketOfThree(ms, mp, "tech", Risk, AsWritten);
  }

  /** The bucket of a three-metric list, spelled out. */
  lemma BucketOfThree(ms: seq<MetricValue>, mp: MetricComponentMapping, v: string, c: Component, reading: Reading)
    requires |ms| == 3
    ensures Bucket(ms, mp, v, c, reading)
            == (if Contributes(ms[0], mp, c) then [Signal(ms[0], v, c, reading)] else [])
               + (if Contributes(ms[1], mp, c) then [Signal(ms[1], v, c, reading)] else [])
               + (if Contributes(ms[2], mp, c) then [Signal(ms[2], v, c, reading)] else [])
  {
    assert ms == [ms[0]] + [ms[1]] + [ms[2]];
    BucketAppend([ms[0]] + [ms[1]], [ms[2]], mp, v, c, reading);
    BucketAppend([ms[0]], [ms[1]], mp, v, c, reading);
    BucketOfOne(ms[0], mp, v, c, reading);
    BucketOfOne(ms[1], mp, v, c, reading);
    BucketOfOne(ms[2], mp, v, c, reading);
  }

  /** A tech account with 90% active users, NPS 40, NRR 110% and no risk
      metric scores 90 / 70 / 100 / 50, which the tech seed turns into 85.0,
      green. */
  lemma TechWorkedExample(ms: seq<MetricValue>)
    requires IsExample(ms)
    ensures CalculateComponentScores(ms, "tech") == Ok(PulseComponents(90.0, 70.0, 100.0, 50.0))
    ensures CalculateCompositeScore(PulseComponents(90.0, 70.0, 100.0, 50.0), SeedWeights["tech"]) == 85.0
    ensures DetermineStatus(85.0, SeedWeights["tech"]) == Green
  {
    ExampleBuckets(ms);
    ExampleReadsNoInherited(ms);
    assert MeanOr([90.0], 50.0) == 90.0;
    assert MeanOr([70.0], 50.0) == 70.0;
    assert MeanOr([100.0], 50.0) == 100.0;
    TechComposite();
  }

  lemma ExampleReadsNoInherited(ms: seq<MetricValue>)
    requires IsExample(ms)
    ensures !ReadsInherited(ms)
  {
    forall i | 0 <= i < |ms| ensures ms[i].metricType !in InheritedKeys {
      assert SnakeName(ms[i].metricType);
      InheritedNotSnake();
    }
  }

  lemma TechComposite()
    ensures CalculateCompositeScore(PulseComponents(90.0, 70.0, 100.0, 50.0), SeedWeights["tech"]) == 85.0
  {
    assert WeightedSum(PulseComponents(90.0, 70.0, 100.0, 50.0), SeedWeights["tech"]) == 85.0;
    Round1Fixes(85.0);
  }
}

=== FILE: types.dfy ===
/** The vocabulary of the scoring engine (lib/types.ts): status bands, the
    four health components, the metric-type unions of each vertical and the
    static tables that assign a metric type to a component. */
module Types {

  datatype PulseStatus = Green | Amber | Red

  /** Red < Amber < Green, used to state that classification is monotone. */
  function StatusRank(s: PulseStatus): nat {
    match s
    case Red => 0
    case Amber => 1
    case Green => 2
  }

  datatype Component = Usage | Experience | Outcomes | Risk

  datatype PulseComponents = PulseComponents(usage: real, experience: real, outcomes: real, risk: real)
  {
    function Get(c: Component): real {
      match c
      case Usage => usage
      case Experience => experience
      case Outcomes => outcomes
      case Risk => risk
    }
  }

  /** A metric type is mapped to at most one component: a map has one value
      per key. */
  type MetricComponentMapping = map<string, Component>

  const TechMetricTypes: set<string> := {
    "nrr_percent", "mrr", "active_users_percent", "hero_feature_adoption_percent",
    "integration_count", "license_utilisation_percent", "nps_score", "csat_score",
    "ces_score", "expansion_mrr", "contraction_mrr"
  }

  const HealthcareMetricTypes: set<string> := {
    "patient_wait_time_minutes", "no_show_rate_percent", "patient_experience_score",
    "complaint_rate_per_1000", "staff_adoption_percent"
  }

  const ManufacturingMetricTypes: set<string> := {
    "unplanned_downtime_hours", "mttr_hours", "mtbf_hours", "otif_percent",
    "first_pass_yield_percent", "line_stops_count", "sla_adherence_percent"
  }

  const TechMetricMapping: MetricComponentMapping := map[
    "active_users_percent" := Usage,
    "hero_feature_adoption_percent" := Usage,
    "license_utilisation_percent" := Usage,
    "integration_count" := Usage,
    "nps_score" := Experience,
    "csat_score" := Experience,
    "ces_score" := Experience,
    "nrr_percent" := Outcomes,
    "expansion_mrr" := Outcomes,
    "contraction_mrr" := Risk
  ]

  const HealthcareMetricMapping: MetricComponentMapping := map[
    "staff_adoption_percent" := Usage,
    "patient_experience_score" := Experience,
    "patient_wait_time_minutes" := Risk,
    "no_show_rate_percent" := Risk,
    "complaint_rate_per_1000" := Risk
  ]

  const ManufacturingMetricMapping: MetricComponentMapping := map[
    "sla_adherence_percent" := Usage,
    "otif_percent" := Outcomes,
    "first_pass_yield_percent" := Outcomes,
    "unplanned_downtime_hours" := Risk,
    "mttr_hours" := Risk,
    "mtbf_hours" := Outcomes,
    "line_stops_count" := Risk
  ]
}

=== FILE: upload.dfy ===
/** The CSV metric upload (`POST` in app/api/metrics/upload/route.ts), from
    the already parsed rows onwards: per-row validation in a fixed order,
    the case-insensitive account look-up, the recompute window, and the
    all-or-nothing insert followed by a recalculation. */
module Upload {
  import opened Basics
  import opened Scoring
  import opened Recalculation

  /** A parsed CSV row; a cell the file does not have is `None`. */
  datatype Row = Row(
    accountName: Option<string>,
    metricType: Option<string>,
    periodStart: Option<string>,
    periodEnd: Option<string>,
    value: Option<string>,
    unit: Option<string>,
    source: Option<string>)

  datatype Field = AccountName | MetricType | PeriodStart | PeriodEnd | Value

  datatype Problem = Required | NotFound | InvalidDate | NotANumber

  datatype Issue = Issue(field: Field, problem: Problem)

  datatype ValidationError = ValidationError(row: int, field: Field, problem: Problem)

  /** `new Date(s)` and `parseFloat(s)`, with an invalid date or NaN as `None`. */
  datatype Parsers = Parsers(date: string -> Option<Timestamp>, number: string -> Option<real>)

  /** Lower-cased account name to account id. */
  type AccountMap = map<string, AccountId>

  /** The default `source` of an uploaded metric. */
  const CsvSource: string := "csv_upload"

  // ---------------------------------------------------------------------
  // Account look-up
  // ---------------------------------------------------------------------

  /** No later account of the tenant has the same lower-cased name. */
  predicate LastOfName(accounts: seq<Account>, t: TenantId, i: int)
    requires 0 <= i < |accounts|
  {
    forall j | i < j < |accounts| :: accounts[j].tenantId == t ==> ToLower(accounts[j].name) != ToLower(accounts[i].name)
  }

  /** `new Map(accounts.map(a => [a.name.toLowerCase(), a.id]))` over the
      tenant's accounts: a later account with the same lower-cased name
      replaces an earlier one. */
  function AccountMapOf(accounts: seq<Account>, t: TenantId): AccountMap {
    if |accounts| == 0 then map[]
    else
      var a := accounts[|accounts| - 1];
      var m := AccountMapOf(accounts[..|accounts| - 1], t);
      if a.tenantId == t then m[ToLower(a.name) := a.id] else m
  }

  /** The map's keys are exactly the lower-cased names of the tenant's
      accounts. */
  lemma {:induction false} AccountMapKeys(accounts: seq<Account>, t: TenantId)
    ensures forall k :: k in AccountMapOf(accounts, t) <==>
              exists i | 0 <= i < |accounts| :: accounts[i].tenantId == t && ToLower(accounts[i].name) == k
  {
    if |accounts| > 0 {
      var init := accounts[..|accounts| - 1];
      AccountMapKeys(init, t);
      assert forall i | 0 <= i < |init| :: init[i] == accounts[i];
    }
  }

  /** Each key holds the id of the last of the tenant's accounts with that
      name. */
  lemma {:induction false} AccountMapLastWins(accounts: seq<Account>, t: TenantId)
    ensures forall i | 0 <= i < |accounts| && accounts[i].tenantId == t && LastOfName(accounts, t, i) ::
              ToLower(accounts[i].name) in AccountMapOf(accounts, t)
              && AccountMapOf(accounts, t)[ToLower(accounts[i].name)] == accounts[i].id
  {
    if |accounts| > 0 {
      var init := accounts[..|accounts| - 1];
      AccountMapLastWins(init, t);
      forall i | 0 <= i < |accounts| && accounts[i].tenantId == t && LastOfName(accounts, t, i)
        ensures ToLower(accounts[i].name) in AccountMapOf(accounts, t)
                && AccountMapOf(accounts, t)[ToLower(accounts[i].name)] == accounts[i].id
      {
        if i < |init| {
          assert init[i] == accounts[i];
          assert LastOfName(init, t, i) by {
            forall j | i < j < |init| ensures init[j].tenantId == t ==> ToLower(init[j].name) != ToLower(init[i].name) {
              assert init[j] == accounts[j];
            }
          }
        }
      }
    }
  }

  /** Every value of the map is the id of one of the tenant's accounts. */
  lemma {:induction false} AccountMapValues(accounts: seq<Account>, t: TenantId)
    ensures forall k | k in AccountMapOf(accounts, t) ::
              exists i | 0 <= i < |accounts| :: accounts[i].tenantId == t && accounts[i].id == AccountMapOf(accounts, t)[k]
  {
    if |accounts| > 0 {
      var init := accounts[..|accounts| - 1];
      AccountMapValues(init, t);
      assert forall i | 0 <= i < |init| :: init[i] == accounts[i];
    }
  }

  /** `accountMap.get(name.toLowerCase())`, with `!accountId` rejecting an
      absent or empty id. */
  function LookUp(m: AccountMap, name: string): Option<AccountId> {
    var key := ToLower(name);
    if key in m && m[key] != "" then Some(m[key]) else None
  }

  /** Matching ignores case: a name and its lower-case form find the same
      account. */
  lemma LookUpIgnoresCase(m: AccountMap, name: string)
    ensures LookUp(m, name) == LookUp(m, ToLower(name))
  {
    ToLowerIdempotent(name);
  }

  /** A row naming a tenant account in any case finds that account (the
      last one of that name), and whatever a look-up finds is an account of
      the tenant. */
  lemma LookUpFindsTenantAccount(accounts: seq<Account>, t: TenantId, i: int, name: string)
    requires 0 <= i < |accounts| && accounts[i].tenantId == t && LastOfName(accounts, t, i)
    requires ToLower(name) == ToLower(accounts[i].name) && accounts[i].id != ""
    ensures LookUp(AccountMapOf(accounts, t), name) == Some(accounts[i].id)
  {
    AccountMapLastWins(accounts, t);
  }

  lemma LookUpStaysInTenant(accounts: seq<Account>, t: TenantId, name: string)
    requires LookUp(AccountMapOf(accounts, t), name).Some?
    ensures exists i | 0 <= i < |accounts| ::
              accounts[i].tenantId == t && accounts[i].id == LookUp(AccountMapOf(accounts, t), name).value
  {
    AccountMapValues(accounts, t);
    var m := AccountMapOf(accounts, t);
    assert ToLower(name) in m;
  }

  // ---------------------------------------------------------------------
  // One row
  // ---------------------------------------------------------------------

  /** Every check a row fails, each applied on its own, in the order the
      checks are written. */
  function NameIssues(row: Row, m: AccountMap): seq<Issue> {
    if Blank(row.accountName) then [Issue(AccountName, Required)]
    else if LookUp(m, row.accountName.value).None? then [Issue(AccountName, NotFound)]
    else []
  }

  function TypeIssues(row: Row): seq<Issue> {
    if Blank(row.metricType) then [Issue(MetricType, Required)] else []
  }

  function DateIssues(cell: Option<string>, field: Field, p: Parsers): seq<Issue> {
    if Blank(cell) then [Issue(field, Required)]
    else if p.date(cell.value).None? then [Issue(field, InvalidDate)]
    else []
  }

  /** `!row.value && row.value !== '0'` reduces to blankness, because the
      string "0" is not falsy in JavaScript. */
  function ValueIssues(cell: Option<string>, p: Parsers): seq<Issue> {
    if Blank(cell) then [Issue(Value, Required)]
    else if p.number(cell.value).None? then [Issue(Value, NotANumber)]
    else []
  }

  function Issues(row: Row, m: AccountMap, p: Parsers): seq<Issue> {
    NameIssues(row, m) + TypeIssues(row) + DateIssues(row.periodStart, PeriodStart, p)
    + DateIssues(row.periodEnd, PeriodEnd, p) + ValueIssues(row.value, p)
  }

  /** The body of the validation loop for data row `rowNum`: the first
      failing check becomes the row's single error; a row passing them all
      becomes a metric with a lower-cased type, no unit when the cell is
      blank and source "csv_upload" unless given. */
  function CheckRow(row: Row, rowNum: int, m: AccountMap, p: Parsers, t: TenantId): (r: Result<Metric, ValidationError>)
    ensures r.Err? <==> |Issues(row, m, p)| > 0
    ensures r.Err? ==> r.error == ValidationError(rowNum, Issues(row, m, p)[0].field, Issues(row, m, p)[0].problem)
    ensures r.Ok? ==>
              && !Blank(row.accountName) && !Blank(row.metricType) && !Blank(row.periodStart)
              && !Blank(row.periodEnd) && !Blank(row.value)
              && r.value.tenantId == t
              && Some(r.value.accountId) == LookUp(m, row.accountName.value)
              && r.value.metricType == ToLower(row.metricType.value)
              && Some(r.value.periodStart) == p.date(row.periodStart.value)
              && Some(r.value.periodEnd) == p.date(row.periodEnd.value)
              && Some(r.value.value) == p.number(row.value.value)
              && r.value.unit == (if Blank(row.unit) then None else row.unit)
              && r.value.source == (if Blank(row.source) then CsvSource else row.source.value)
  {
    if Blank(row.accountName) then Err(ValidationError(rowNum, AccountName, Required))
    else
      match LookUp(m, row.accountName.value)
      case None => Err(ValidationError(rowNum, AccountName, NotFound))
      case Some(accountId) =>
        if Blank(row.metricType) then Err(ValidationError(rowNum, MetricType, Required))
        else if Blank(row.periodStart) then Err(ValidationError(rowNum, PeriodStart, Required))
        else
          match p.date(row.periodStart.value)
          case None => Err(ValidationError(rowNum, PeriodStart, InvalidDate))
          case Some(start) =>
            if Blank(row.periodEnd) then Err(ValidationError(rowNum, PeriodEnd, Required))
            else
              match p.date(row.periodEnd.value)
              case None => Err(ValidationError(rowNum, PeriodEnd, InvalidDate))
              case Some(end) =>
                if Blank(row.value) then Err(ValidationError(rowNum, Value, Required))
                else
                  match p.number(row.value.value)
                  case None => Err(ValidationError(rowNum, Value, NotANumber))
                  case Some(v) =>
                    Ok(Metric(t, accountId, ToLower(row.metricType.value), start, end, v,
                              if Blank(row.unit) then None else row.unit,
                              if Blank(row.source) then CsvSource else row.source.value))
  }

  /** "0" is a value (zero, when the parser reads it so); an empty or
      missing cell is a missing value, not a non-number. */
  lemma ZeroIsAValue(p: Parsers)
    requires p.number("0") == Some(0.0)
    ensures ValueIssues(Some("0"), p) == []
    ensures ValueIssues(Some(""), p) == [Issue(Value, Required)]
    ensures ValueIssues(None, p) == [Issue(Value, Required)]
  {
  }

  // ---------------------------------------------------------------------
  // The batch
  // ---------------------------------------------------------------------

  /** The verdict on every data row; data row `i` is line `i + 2` of the
      file, after the header. */
  function Outcomes(rows: seq<Row>, m: AccountMap, p: Parsers, t: TenantId): (r: seq<Result<Metric, ValidationError>>)
    ensures |r| == |rows|
    ensures forall i | 0 <= i < |rows| :: r[i] == CheckRow(rows[i], i + 2, m, p, t)
    ensures forall i | 0 <= i < |rows| :: r[i].Err? ==> r[i].error.row == i + 2
  {
    seq(|rows|, i requires 0 <= i < |rows| => CheckRow(rows[i], i + 2, m, p, t))
  }

  /** The accepted metrics, in row order. */
  function Oks(outs: seq<Result<Metric, ValidationError>>): seq<Metric> {
    if |outs| == 0 then []
    else
      var rest := Oks(outs[..|outs| - 1]);
      match outs[|outs| - 1]
      case Ok(metric) => rest + [metric]
      case Err(_) => rest
  }

  /** The errors, in row order. */
  function Errs(outs: seq<Result<Metric, ValidationError>>): seq<ValidationError> {
    if |outs| == 0 then []
    else
      var rest := Errs(outs[..|outs| - 1]);
      match outs[|outs| - 1]
      case Ok(_) => rest
      case Err(e) => rest + [e]
  }

  /** Every row lands in exactly one of the two lists. */
  lemma {:induction false} EveryRowCounted(outs: seq<Result<Metric, ValidationError>>)
    ensures |Oks(outs)| + |Errs(outs)| == |outs|
  {
    if |outs| > 0 {
      EveryRowCounted(outs[..|outs| - 1]);
    }
  }

  /** With rows numbered `i + 2`, the errors come in increasing row order
      and each is the verdict on the row it names. */
  lemma {:induction false} ErrorsNumberRows(outs: seq<Result<Metric, ValidationError>>)
    requires forall i | 0 <= i < |outs| :: outs[i].Err? ==> outs[i].error.row == i + 2
    ensures forall j, k | 0 <= j < k < |Errs(outs)| :: Errs(outs)[j].row < Errs(outs)[k].row
    ensures forall j | 0 <= j < |Errs(outs)| ::
              2 <= Errs(outs)[j].row < |outs| + 2 && outs[Errs(outs)[j].row - 2] == Err(Errs(outs)[j])
  {
    if |outs| > 0 {
      var init := outs[..|outs| - 1];
      assert forall i | 0 <= i < |init| :: init[i] == outs[i];
      ErrorsNumberRows(init);
    }
  }

  /** A row has an error iff its verdict is a failure; with the ordering
      above, exactly one error per failing row. */
  lemma {:induction false} ErrorsCoverFailures(outs: seq<Result<Metric, ValidationError>>)
    requires forall i | 0 <= i < |outs| :: outs[i].Err? ==> outs[i].error.row == i + 2
    ensures forall i | 0 <= i < |outs| ::
              outs[i].Err? <==> exists j | 0 <= j < |Errs(outs)| :: Errs(outs)[j].row == i + 2
  {
    if |outs| > 0 {
      var n := |outs|;
      var init := outs[..n - 1];
      assert forall i | 0 <= i < |init| :: init[i] == outs[i];
      ErrorsCoverFailures(init);
      ErrorsNumberRows(outs);
      var rest := Errs(init);
      var errs := Errs(outs);
      assert |rest| <= |errs| && forall j | 0 <= j < |rest| :: errs[j] == rest[j];
      assert outs[n - 1].Err? ==> |errs| == |rest| + 1 && errs[|rest|] == outs[n - 1].error;
      forall i | 0 <= i < n
        ensures outs[i].Err? <==> exists j | 0 <= j < |errs| :: errs[j].row == i + 2
      {
        CoverStep(outs, rest, errs, i);
      }
      assert errs == Errs(outs);
    }
  }

  lemma CoverStep(outs: seq<Result<Metric, ValidationError>>, rest: seq<ValidationError>, errs: seq<ValidationError>, i: int)
    requires 0 <= i < |outs|
    requires forall k | 0 <= k < |outs| :: outs[k].Err? ==> outs[k].error.row == k + 2
    requires |rest| <= |errs| && forall j | 0 <= j < |rest| :: errs[j] == rest[j]
    requires outs[|outs| - 1].Err? ==> |errs| == |rest| + 1 && errs[|rest|] == outs[|outs| - 1].error
    requires forall k | 0 <= k < |outs| - 1 :: outs[k].Err? <==> exists j | 0 <= j < |rest| :: rest[j].row == k + 2
    requires forall j | 0 <= j < |errs| :: 2 <= errs[j].row < |outs| + 2 && outs[errs[j].row - 2] == Err(errs[j])
    ensures outs[i].Err? <==> exists j | 0 <= j < |errs| :: errs[j].row == i + 2
  {
    if outs[i].Err? {
      if i < |outs| - 1 {
        var j :| 0 <= j < |rest| && rest[j].row == i + 2;
        assert errs[j].row == i + 2;
      } else {
        assert errs[|rest|].row == i + 2;
      }
    }
    if j :| 0 <= j < |errs| && errs[j].row == i + 2 {
      assert outs[i] == Err(errs[j]);
    }
  }

  /** The accepted metrics of a batch. */
  function Accepted(rows: seq<Row>, m: AccountMap, p: Parsers, t: TenantId): seq<Metric> {
    Oks(Outcomes(rows, m, p, t))
  }

  /** The errors of a batch. */
  function Rejected(rows: seq<Row>, m: AccountMap, p: Parsers, t: TenantId): seq<ValidationError> {
    Errs(Outcomes(rows, m, p, t))
  }

  /** The earliest start and the latest end among the metrics, if any. */
  function Span(ms: seq<Metric>): Option<(Timestamp, Timestamp)> {
    if |ms| == 0 then None
    else
      var last := ms[|ms| - 1];
      match Span(ms[..|ms| - 1])
      case None => Some((last.periodStart, last.periodEnd))
      case Some((lo, hi)) =>
        Some((if last.periodStart < lo then last.periodStart else lo,
              if last.periodEnd > hi then last.periodEnd else hi))
  }

  /** The recompute window: present iff a row was accepted, and exactly the
      minimum start and the maximum end of the accepted rows. */
  lemma {:induction false} SpanIsMinMax(ms: seq<Metric>)
    ensures Span(ms).Some? <==> |ms| > 0
    ensures Span(ms).Some? ==>
              && (forall i | 0 <= i < |ms| :: Span(ms).value.0 <= ms[i].periodStart && ms[i].periodEnd <= Span(ms).value.1)
              && (exists i | 0 <= i < |ms| :: ms[i].periodStart == Span(ms).value.0)
              && (exists i | 0 <= i < |ms| :: ms[i].periodEnd == Span(ms).value.1)
  {
    if |ms| > 0 {
      var init := ms[..|ms| - 1];
      SpanIsMinMax(init);
      assert forall i | 0 <= i < |init| :: init[i] == ms[i];
      if |init| > 0 {
        var (lo, hi) := Span(init).value;
        var i0 :| 0 <= i0 < |init| && init[i0].periodStart == lo;
        var i1 :| 0 <= i1 < |init| && init[i1].periodEnd == hi;
        assert ms[i0].periodStart == lo && ms[i1].periodEnd == hi;
      }
    }
  }

  /** One more verdict extends exactly one of the two lists. */
  lemma OutcomesStep(outs: seq<Result<Metric, ValidationError>>, i: int)
    requires 0 <= i < |outs|
    ensures Oks(outs[..i + 1]) == Oks(outs[..i]) + (if outs[i].Ok? then [outs[i].value] else [])
    ensures Errs(outs[..i + 1]) == Errs(outs[..i]) + (if outs[i].Err? then [outs[i].error] else [])
  {
    assert outs[..i + 1][..i] == outs[..i];
  }

  /** One more metric widens the window to cover it. */
  lemma SpanStep(ms: seq<Metric>, x: Metric)
    ensures Span(ms + [x]) == match Span(ms)
                              case None => Some((x.periodStart, x.periodEnd))
                              case Some((lo, hi)) =>
                                Some((if x.periodStart < lo then x.periodStart else lo,
                                      if x.periodEnd > hi then x.periodEnd else hi))
  {
    assert (ms + [x])[..|ms|] == ms;
  }

  /** The validation loop with the running minimum start and maximum end. */
  method ValidateRows(rows: seq<Row>, m: AccountMap, p: Parsers, t: TenantId)
    returns (valid: seq<Metric>, errors: seq<ValidationError>, window: Option<(Timestamp, Timestamp)>)
    ensures valid == Accepted(rows, m, p, t)
    ensures errors == Rejected(rows, m, p, t)
    ensures window == Span(valid)
  {
    var outs := Outcomes(rows, m, p, t);
    valid, errors, window := [], [], None;
    var i := 0;
    while i < |rows|
      invariant 0 <= i <= |rows|
      invariant valid == Oks(outs[..i])
      invariant errors == Errs(outs[..i])
      invariant window == Span(valid)
    {
      OutcomesStep(outs, i);
      var verdict := CheckRow(rows[i], i + 2, m, p, t);
      assert verdict == outs[i];
      valid, errors, window := Absorb(valid, errors, window, verdict);
      i := i + 1;
    }
    assert outs[..|rows|] == outs;
  }

  /** One turn of the loop: an error is appended to the errors; a metric
      is appended to the valid rows and widens the window to cover it. */
  method Absorb(valid: seq<Metric>, errors: seq<ValidationError>, window: Option<(Timestamp, Timestamp)>,
                verdict: Result<Metric, ValidationError>)
    returns (valid': seq<Metric>, errors': seq<ValidationError>, window': Option<(Timestamp, Timestamp)>)
    requires window == Span(valid)
    ensures valid' == valid + (if verdict.Ok? then [verdict.value] else [])
    ensures errors' == errors + (if verdict.Err? then [verdict.error] else [])
    ensures window' == Span(valid')
  {
    match verdict {
      case Err(e) =>
        valid', errors', window' := valid, errors + [e], window;
      case Ok(metric) =>
        var lo := if window.None? || metric.periodStart < window.value.0 then metric.periodStart else window.value.0;
        var hi := if window.None? || metric.periodEnd > window.value.1 then metric.periodEnd else window.value.1;
        SpanStep(valid, metric);
        valid', errors', window' := valid + [metric], errors, Some((lo, hi));
    }
  }

  // ---------------------------------------------------------------------
  // The request
  // ---------------------------------------------------------------------

  /** The responses of the route: 400 without a tenant, 400 with the row
      errors, 500 when the recalculation throws after the insert, and the
      success body. */
  datatype Response =
    | MissingTenant
    | Invalid(errors: seq<ValidationError>, validRows: nat, totalRows: nat)
    | Failed(error: CalcError)
    | Uploaded(uploaded: nat, period: Option<(Timestamp, Timestamp)>)

  /** The upload after parsing: an empty tenant id or any invalid row
      rejects the whole batch with the store untouched; otherwise every row
      is inserted and, when there is a window, the tenant is recalculated
      over it. A throw of the recalculation is caught and answered with a
      failure; it happens exactly when some account of the tenant has a
      metric in the window whose type is an inherited name. The inserted
      metrics stay, and so does whatever the recalculation wrote before it
      threw: the scores of the accounts it reached first and the weight
      rows their resolutions created. */
  method UploadMetrics(s: Store, t: TenantId, rows: seq<Row>, p: Parsers) returns (s': Store, resp: Response)
    ensures resp.MissingTenant? <==> t == ""
    ensures t == "" ==> s' == s
    ensures t != "" ==>
              var m := AccountMapOf(s.accounts, t);
              var valid := Accepted(rows, m, p, t);
              var errors := Rejected(rows, m, p, t);
              var inserted := s.(metrics := s.metrics + valid);
              && (resp.Invalid? <==> |errors| > 0)
              && (resp.Invalid? ==> s' == s && resp == Invalid(errors, |valid|, |rows|))
              && (resp.Failed? <==>
                    |errors| == 0 && Span(valid).Some?
                    && !TenantClean(inserted, t, Span(valid).value.0, Span(valid).value.1))
              && (resp.Failed? ==>
                    && s' == RecalculateTenantWrites(inserted, t, Span(valid).value.0, Span(valid).value.1)
                    && s'.metrics == s.metrics + valid
                    && s'.accounts == s.accounts
                    && resp.error == ScoringFailed(PushOnUndefined))
              && (resp.Uploaded? <==>
                    |errors| == 0
                    && (Span(valid).Some? ==> TenantClean(inserted, t, Span(valid).value.0, Span(valid).value.1)))
              && (resp.Uploaded? ==>
                    && |valid| == resp.uploaded == |rows|
                    && resp.period == Span(valid)
                    && s'.metrics == s.metrics + valid
                    && s'.accounts == s.accounts
                    && (resp.period.None? ==> s' == inserted)
                    && (resp.period.Some? ==>
                          RecalculatePulseScores(inserted, t, resp.period.value.0, resp.period.value.1)
                          == Ok(s')))
  {
    if t == "" {
      return s, MissingTenant;
    }
    var m := AccountMapOf(s.accounts, t);
    var valid, errors, window := ValidateRows(rows, m, p, t);
    EveryRowCounted(Outcomes(rows, m, p, t));
    if |errors| > 0 {
      return s, Invalid(errors, |valid|, |rows|);
    }
    s' := s.(metrics := s.metrics + valid);
    if window.Some? {
      var r := RecalculatePulseScores(s', t, window.value.0, window.value.1);
      if r.Err? {
        return RecalculateTenantWrites(s', t, window.value.0, window.value.1), Failed(r.error);
      }
      s' := r.value;
    }
    resp := Uploaded(|valid|, window);
  }

  /** A metric of the tenant, about one of the tenant's accounts. */
  predicate OfTenant(metric: Metric, accounts: seq<Account>, t: TenantId) {
    metric.tenantId == t
    && exists i | 0 <= i < |accounts| :: accounts[i].tenantId == t && accounts[i].id == metric.accountId
  }

  lemma {:induction false} OksKeep(outs: seq<Result<Metric, ValidationError>>, accounts: seq<Account>, t: TenantId)
    requires forall i | 0 <= i < |outs| :: outs[i].Ok? ==> OfTenant(outs[i].value, accounts, t)
    ensures forall j | 0 <= j < |Oks(outs)| :: OfTenant(Oks(outs)[j], accounts, t)
  {
    if |outs| > 0 {
      var init := outs[..|outs| - 1];
      assert forall i | 0 <= i < |init| :: init[i] == outs[i];
      OksKeep(init, accounts, t);
    }
  }

  /** Every metric an accepted batch inserts belongs to the uploading tenant
      and to one of its accounts. */
  lemma AcceptedBelongToTenant(rows: seq<Row>, accounts: seq<Account>, p: Parsers, t: TenantId)
    ensures forall j | 0 <= j < |Accepted(rows, AccountMapOf(accounts, t), p, t)| ::
              OfTenant(Accepted(rows, AccountMapOf(accounts, t), p, t)[j], accounts, t)
  {
    var m := AccountMapOf(accounts, t);
    var outs := Outcomes(rows, m, p, t);
    forall i | 0 <= i < |outs| && outs[i].Ok?
      ensures OfTenant(outs[i].value, accounts, t)
    {
      LookUpStaysInTenant(accounts, t, rows[i].accountName.value);
    }
    OksKeep(outs, accounts, t);
  }
}

=== FILE: weights_api.dfy ===
/** The pulse-weight configuration endpoint (`PUT` in
    app/api/pulse-weights/route.ts): every submitted row is validated
    before any row is written, and a write touches only the four weights
    and two thresholds of the row with the given id. */
module WeightsApi {
  import opened Basics
  import opened Scoring

  type RowId = string

  /** A stored pulse-weight row. */
  datatype WeightRow = WeightRow(tenantId: string, vertical: string, config: PulseWeights)

  type WeightTable = map<RowId, WeightRow>

  /** One element of the submitted `weights` array. */
  datatype WeightInput = WeightInput(id: RowId, vertical: string, config: PulseWeights)

  /** The request's `weights` member: absent or falsy, present but not an
      array, or an array. */
  datatype Body = Missing | NotAnArray | Items(items: seq<WeightInput>)

  datatype PutError =
    | WeightsRequired
    | InvalidTotal(vertical: string, total: real)
    | InvalidThresholds(vertical: string)
    | RowNotFound(id: RowId)

  /** Accepted deviation of the weight total from 1. */
  const Tolerance: real := 0.01

  function Total(w: PulseWeights): real {
    w.usageWeight + w.experienceWeight + w.outcomeWeight + w.riskWeight
  }

  /** A configuration the endpoint accepts. */
  predicate Acceptable(w: PulseWeights) {
    -Tolerance < Total(w) - 1.0 < Tolerance && w.greenMin > w.amberMin
  }

  /** The loop body's two checks for one row: the total first, then the
      thresholds. */
  function CheckWeight(input: WeightInput): (r: Option<PutError>)
    ensures r.None? <==> Acceptable(input.config)
    ensures r.Some? ==>
              (if Abs(Total(input.config) - 1.0) >= Tolerance
               then r.value == InvalidTotal(input.vertical, Total(input.config))
               else r.value == InvalidThresholds(input.vertical))
  {
    var total := Total(input.config);
    if Abs(total - 1.0) >= Tolerance then Some(InvalidTotal(input.vertical, total))
    else if input.config.greenMin <= input.config.amberMin then Some(InvalidThresholds(input.vertical))
    else None
  }

  /** The position of the first row the endpoint does not accept. */
  function FirstInvalid(items: seq<WeightInput>): (r: Option<nat>)
    ensures r.None? <==> forall i | 0 <= i < |items| :: Acceptable(items[i].config)
    ensures r.Some? ==>
              && r.value < |items| && !Acceptable(items[r.value].config)
              && forall j | 0 <= j < r.value :: Acceptable(items[j].config)
  {
    if |items| == 0 then None
    else if !Acceptable(items[0].config) then Some(0)
    else
      assert forall j | 0 <= j < |items[1..]| :: items[1..][j] == items[j + 1];
      match FirstInvalid(items[1..])
      case None => None
      case Some(i) => Some(i + 1)
  }

  /** The validation loop, which returns on the first offending row: its
      error is that row's error. */
  function ValidateWeights(items: seq<WeightInput>): (r: Option<PutError>)
    ensures r.None? <==> forall i | 0 <= i < |items| :: Acceptable(items[i].config)
    ensures r == match FirstInvalid(items)
                 case None => None
                 case Some(i) => CheckWeight(items[i])
  {
    if |items| == 0 then None
    else
      match CheckWeight(items[0])
      case Some(e) => Some(e)
      case None =>
        assert forall j | 0 <= j < |items[1..]| :: items[1..][j] == items[j + 1];
        ValidateWeights(items[1..])
  }

  /** The configuration the last row with this id submits, if any. */
  function LastConfigFor(items: seq<WeightInput>, id: RowId): Option<PulseWeights> {
    if |items| == 0 then None
    else
      match LastConfigFor(items[1..], id)
      case Some(c) => Some(c)
      case None => if items[0].id == id then Some(items[0].config) else None
  }

  /** The table after a write of the given rows: every stored row takes the
      configuration the last submitted row with its id carries, and rows
      nobody named, like ids with no stored row, change nothing. */
  predicate UpdatedBy(table: WeightTable, after: WeightTable, items: seq<WeightInput>) {
    && after.Keys == table.Keys
    && forall id | id in table ::
         && after[id].tenantId == table[id].tenantId
         && after[id].vertical == table[id].vertical
         && after[id].config == (match LastConfigFor(items, id)
                                 case Some(c) => c
                                 case None => table[id].config)
  }

  /** The position of the first row whose id has no stored row. */
  function FirstMissing(items: seq<WeightInput>, ids: set<RowId>): (r: Option<nat>)
    ensures r.None? <==> forall i | 0 <= i < |items| :: items[i].id in ids
    ensures r.Some? ==>
              && r.value < |items| && items[r.value].id !in ids
              && forall j | 0 <= j < r.value :: items[j].id in ids
  {
    if |items| == 0 then None
    else if items[0].id !in ids then Some(0)
    else
      assert forall j | 0 <= j < |items[1..]| :: items[1..][j] == items[j + 1];
      match FirstMissing(items[1..], ids)
      case None => None
      case Some(i) => Some(i + 1)
  }

  /** The `Promise.all` of one update per row. An id with no row rejects
      its own update only: every update with a stored id is still written,
      before and after it, and the first missing id is reported. */
  function ApplyUpdates(table: WeightTable, items: seq<WeightInput>): (r: (WeightTable, Option<RowId>))
    ensures r.1 == match FirstMissing(items, table.Keys)
                   case None => None
                   case Some(i) => Some(items[i].id)
    ensures UpdatedBy(table, r.0, items)
  {
    if |items| == 0 then (table, None)
    else
      var id0 := items[0].id;
      var table1 := if id0 in table then table[id0 := table[id0].(config := items[0].config)] else table;
      assert forall j | 0 <= j < |items[1..]| :: items[1..][j] == items[j + 1];
      var rest := ApplyUpdates(table1, items[1..]);
      (rest.0, if id0 !in table then Some(id0) else rest.1)
  }

  datatype PutResponse = Saved | Rejected(error: PutError) | Failed(error: PutError)

  /** `PUT /api/pulse-weights`. A missing or non-array body and any row
      failing validation are rejected with no row written; otherwise every
      row with a stored id is written, and an id with no stored row turns
      the response into a failure without undoing the other writes. */
  function PutWeights(table: WeightTable, body: Body): (r: (WeightTable, PutResponse))
    ensures !body.Items? ==> r == (table, Rejected(WeightsRequired))
    ensures body.Items? && ValidateWeights(body.items).Some? ==>
              r == (table, Rejected(ValidateWeights(body.items).value))
    ensures r.1.Saved? <==>
              body.Items? && (forall i | 0 <= i < |body.items| :: Acceptable(body.items[i].config) && body.items[i].id in table)
    ensures r.1.Failed? <==>
              body.Items? && (forall i | 0 <= i < |body.items| :: Acceptable(body.items[i].config))
              && (exists i | 0 <= i < |body.items| :: body.items[i].id !in table)
    ensures r.1.Saved? || r.1.Failed? ==> UpdatedBy(table, r.0, body.items)
    ensures r.1.Failed? ==> r.1.error.RowNotFound? && r.1.error.id !in table
  {
    match body
    case Missing => (table, Rejected(WeightsRequired))
    case NotAnArray => (table, Rejected(WeightsRequired))
    case Items(items) =>
      match ValidateWeights(items)
      case Some(e) => (table, Rejected(e))
      case None =>
        var (after, missing) := ApplyUpdates(table, items);
        if missing.None? then (after, Saved) else (after, Failed(RowNotFound(missing.value)))
  }

  /** A rejected request writes nothing at all. */
  lemma RejectionWritesNothing(table: WeightTable, body: Body)
    requires PutWeights(table, body).1.Rejected?
    ensures PutWeights(table, body).0 == table
  {
  }

  /** A request naming a stored row, a missing id and another stored row
      fails, and both stored rows are written all the same. */
  lemma FailedRequestStillWrites()
    ensures var table := map["a" := WeightRow("t", "tech", PulseWeights(0.4, 0.25, 0.25, 0.1, 75.0, 55.0)),
                             "b" := WeightRow("t", "default", PulseWeights(0.35, 0.25, 0.25, 0.15, 70.0, 50.0))];
            var c := PulseWeights(0.25, 0.25, 0.25, 0.25, 80.0, 40.0);
            var r := PutWeights(table, Items([WeightInput("a", "tech", c), WeightInput("zz", "tech", c),
                                              WeightInput("b", "default", c)]));
            && r.1 == Failed(RowNotFound("zz"))
            && r.0["a"].config == c && r.0["b"].config == c
  {
    var table := map["a" := WeightRow("t", "tech", PulseWeights(0.4, 0.25, 0.25, 0.1, 75.0, 55.0)),
                     "b" := WeightRow("t", "default", PulseWeights(0.35, 0.25, 0.25, 0.15, 70.0, 50.0))];
    var c := PulseWeights(0.25, 0.25, 0.25, 0.25, 80.0, 40.0);
    var items := [WeightInput("a", "tech", c), WeightInput("zz", "tech", c), WeightInput("b", "default", c)];
    assert Acceptable(c);
    assert FirstMissing(items, table.Keys) == Some(1);
    assert items[1..] == [WeightInput("zz", "tech", c), WeightInput("b", "default", c)];
    assert items[1..][1..] == [WeightInput("b", "default", c)];
    assert items[1..][1..][1..] == [];
    assert "b" != "a" && "zz" != "a" && "zz" != "b" by {
      assert "b"[0] != "a"[0] && "zz"[0] != "a"[0] && "zz"[0] != "b"[0];
    }
    assert LastConfigFor(items[1..][1..], "a") == None;
    assert LastConfigFor(items[1..], "a") == None;
    assert LastConfigFor(items, "a") == Some(c);
    assert LastConfigFor(items[1..][1..], "b") == Some(c);
    assert LastConfigFor(items, "b") == Some(c);
  }

  /** Sending the same accepted rows twice leaves the table as sending them
      once. */
  lemma PutIsIdempotent(table: WeightTable, body: Body)
    requires PutWeights(table, body).1.Saved?
    ensures PutWeights(PutWeights(table, body).0, body) == PutWeights(table, body)
  {
    var after := PutWeights(table, body).0;
    assert PutWeights(after, body).1.Saved?;
    var again := PutWeights(after, body).0;
    assert again.Keys == after.Keys;
    forall id | id in after ensures again[id] == after[id] {
      assert again[id].config == after[id].config;
    }
    assert again == after;
  }

  /** The tolerance boundary: a total of 1.004 is accepted, 1.02 and a
      deviation of exactly 0.01 are not, and equal thresholds are not. */
  lemma ToleranceExamples()
    ensures CheckWeight(WeightInput("a", "tech", PulseWeights(0.404, 0.2, 0.3, 0.1, 70.0, 50.0))).None?
    ensures CheckWeight(WeightInput("a", "tech", PulseWeights(0.42, 0.2, 0.3, 0.1, 70.0, 50.0)))
            == Some(InvalidTotal("tech", 1.02))
    ensures CheckWeight(WeightInput("a", "tech", PulseWeights(0.41, 0.2, 0.3, 0.1, 70.0, 50.0)))
            == Some(InvalidTotal("tech", 1.01))
    ensures CheckWeight(WeightInput("a", "tech", PulseWeights(0.4, 0.2, 0.3, 0.1, 60.0, 60.0)))
            == Some(InvalidThresholds("tech"))
  {
  }

  /** A row that breaks both rules is reported for its total. */
  lemma TotalCheckedFirst(input: WeightInput)
    requires Abs(Total(input.config) - 1.0) >= Tolerance
    requires input.config.greenMin <= input.config.amberMin
    ensures ValidateWeights([input]) == Some(InvalidTotal(input.vertical, Total(input.config)))
  {
  }

  /** The four rows `GET` serves in demonstration mode. */
  const DemoRows: seq<WeightInput> := [
    WeightInput("1", "default", PulseWeights(0.35, 0.25, 0.25, 0.15, 70.0, 50.0)),
    WeightInput("2", "tech", PulseWeights(0.4, 0.25, 0.25, 0.1, 75.0, 55.0)),
    WeightInput("3", "healthcare", PulseWeights(0.3, 0.35, 0.2, 0.15, 70.0, 50.0)),
    WeightInput("4", "manufacturing", PulseWeights(0.35, 0.2, 0.3, 0.15, 68.0, 48.0))
  ]

  /** The demonstration rows pass the validator. */
  lemma DemoRowsAreValid()
    ensures ValidateWeights(DemoRows).None?
  {
    assert forall i | 0 <= i < |DemoRows| :: Acceptable(DemoRows[i].config);
  }
}
